=== FILE: README.md ===
# Smart notes with AI analysis — a Dafny model

This project models the core of a notes application with an AI analysis service.
The backend stores notes in MongoDB. The notes service answers listing,
reading, creating, updating, deleting, pinning and dashboard-statistics
requests. The AI service sends a note's text through five hosted model calls:
summary, keywords, tone, study questions and a simplified version. A local
heuristic stands in for every call that fails. The React frontend keeps the
notes in a Redux slice, validates the registration form, edits a note's tags
as one comma-separated string, and runs bulk analyses.

Every component is a module of pure functions over immutable datatypes:

- `Text`: JavaScript's `\s`, `trim`, `split`, `join` and UTF-16 `length`.
- `Fallback`: the local heuristics.
- `ModelClient`: `queryModel`, with its retry on "loading" and its error taxonomy.
- `SubTasks`: the five sub-tasks.
- `AiService`: the orchestrator.
- `AiController`: the AI endpoints.
- `NoteSchema`: the Mongoose schema.
- `NoteRoutes`: the router with its validation rules.
- `NoteController`: the note handlers.
- `NoteStats`: the dashboard aggregation.
- `Sorting`: the descending sort of the aggregation stages.
- `NotesService`: the client's bulk analysis.
- `NotesSlice`: the notes reducers.
- `NoteEditor`: the editor's tag handling.
- `RegisterForm`: registration checks and password strength.
- `AuthSlice`: the session reducers.

The outside world is passed in as parameters:

- The provider's behaviour is a sequence of exchanges, one per HTTP attempt.
- The clock is an integer `now`.
- The database is a sequence of notes.
- MongoDB's `$text` match and result order are functions given by the caller.

## Model

| member | source | states |
|---|---|---|
| Text.Utf16Length | frontend/src/pages/Register.jsx:45 | JavaScript's `length` counts between one and two code units per character |
| Text.Utf16LengthIsSize | frontend/src/pages/Register.jsx:61 | the JavaScript length equals the character count exactly when the text stays in the Basic Multilingual Plane |
| Text.Utf16LengthAstral | backend/models/Note.js:13 | text made only of astral characters is twice as long in code units as in characters |
| Text.Trim | backend/models/Note.js:7 | `trim` gives a trimmed string, which is empty exactly when the input is blank |
| Text.TrimIsSlice | backend/models/Note.js:7 | the trimmed form is the slice between the leading and the trailing white space |
| Text.TrimIdempotent | backend/models/Note.js:25 | trimming twice is trimming once |
| Text.TrimBlankPrefix | backend/services/aiService.js:177-178 | white space in front of a trimmed string is trimmed away again |
| Text.SplitOn | backend/services/aiService.js:124-125 | `split(',')` gives pieces without the separator that join back to the input |
| Text.SplitOnJoin | frontend/src/pages/NoteEditor.jsx:43 | splitting a join of separator-free pieces gives back the pieces |
| Text.SplitRuns | backend/services/aiService.js:260 | `split(/[.!?]+/)` gives mark-free pieces whose concatenation is the input with the marks deleted |
| Text.SplitRunsAfterMark | backend/services/aiService.js:260 | a mark-free piece closed by one mark comes off the front of the split |
| Text.ConcatBlank | backend/services/aiService.js:260 | a concatenation is blank exactly when every piece is |
| Text.Lower | backend/services/aiService.js:279 | `toLowerCase` works character by character and keeps the length |
| Fallback.NonBlank | backend/services/aiService.js:260 | the filter keeps only non-blank pieces, and returns nothing exactly when every piece is blank |
| Fallback.FallbackSummary | backend/services/aiService.js:259-262 | the fallback summary ends in a period and holds no '!' or '?' |
| Fallback.SummaryOfEmptyText | backend/services/aiService.js:261 | the summary is a lone "." exactly when the text holds only marks and white space |
| Fallback.SummaryOfOneSentence | backend/services/aiService.js:260-261 | a non-blank text without marks is summarised as itself with a period |
| Fallback.SummaryOfTwoSentences | backend/services/aiService.js:260-261 | for "a.b.c" the summary is "a. b.", so only the first two sentences count |
| Fallback.Normalize | backend/services/aiService.js:267 | a normalized word holds only lower-case ASCII letters and digits |
| Fallback.Candidates | backend/services/aiService.js:265-268 | every candidate keyword is a non-empty normalized word |
| Fallback.CandidatesAre | backend/services/aiService.js:265-268 | the candidates are exactly the non-empty normalized forms of raw tokens longer than four code units |
| Fallback.Dedupe | backend/services/aiService.js:270 | `[...new Set(xs)]` holds every value of `xs` once, in order of first occurrence |
| Fallback.FallbackKeywords | backend/services/aiService.js:264-272 | one to five distinct, non-empty, lower-case alphanumeric keywords |
| Fallback.FallbackKeywordsAreFirstFive | backend/services/aiService.js:264-272 | the keywords are the first five distinct candidates in order, or the default list when there are none |
| Fallback.SingleTokenKeywords | backend/services/aiService.js:265-271 | a text that is one long token yields that token's normalized form alone |
| Fallback.KeywordLengthTestIsOnRawToken | backend/services/aiService.js:266-267 | the length test sees the raw token, so "(abc)" yields "abc" although "abc" is short |
| Fallback.ToneFallback | backend/services/aiService.js:274-281 | the local tone is never technical |
| Fallback.LowerITest | backend/services/aiService.js:279 | the lower-cased "i " test holds exactly when an 'i' or 'I' is directly followed by a space |
| Fallback.ShortTextIsNotAcademic | backend/services/aiService.js:275-278 | a text under 200 characters cannot have over 200 words, so it is never academic |
| Fallback.ToneTestIsSubstring | backend/services/aiService.js:279 | "Hi there" is casual, because the "i " test is a substring test |
| Fallback.FallbackQuestionsShaped | backend/services/aiService.js:283-289 | the three fixed questions each end in their only '?' and are longer than eleven code units |
| Fallback.FallbackSimplified | backend/services/aiService.js:291-293 | text of at most 200 characters is kept; longer text becomes its first 200 characters and "..." |
| ModelClient.Classify | backend/services/aiService.js:53-61 | a 503, 401 or 429 status decides the kind, in that order; otherwise an ECONNABORTED code means a timeout; anything else is unknown |
| ModelClient.ErrorMessage | backend/services/aiService.js:53-63 | every thrown message is non-empty |
| ModelClient.MessageDeterminesKind | backend/services/aiService.js:53-63 | the error kind (503, 401, 429, timeout, other) can be read back from the thrown message |
| ModelClient.PrefixedIsUnknown | backend/services/aiService.js:62 | no fixed message starts with "AI service error: " |
| ModelClient.LoadingRun | backend/services/aiService.js:34 | counts the leading "loading" replies, the ones that cause a retry |
| ModelClient.QueryModel | backend/services/aiService.js:17-65 | the call retries while the reply says "loading"; it returns the first other answer's data, or the message thrown for that attempt's failure unchanged, because the un-awaited retry escapes the enclosing catch |
| ModelClient.FailureKeepsKind | backend/services/aiService.js:37-63 | after any number of retries, a failure reaches the caller with the kind of the attempt that failed (a 401 after a loading reply still reads as an invalid token) |
| ModelClient.TestConnection | backend/services/aiService.js:309-323 | the connection test reports connected with the data, or disconnected with the thrown message |
| SubTasks.GenerateSummary | backend/services/aiService.js:91-107 | a non-empty reply text is the summary; a failure or an empty text gives the fallback summary |
| SubTasks.Scrub | backend/services/aiService.js:126 | the scrub leaves only ASCII letters, digits and white space |
| SubTasks.ScrubIdempotent | backend/services/aiService.js:126 | scrubbing twice is scrubbing once |
| SubTasks.ScrubAppend | backend/services/aiService.js:126 | the scrub distributes over concatenation |
| SubTasks.LengthFiltered | backend/services/aiService.js:127 | the kept pieces are those between 3 and 24 characters, in order |
| SubTasks.LengthFilteredComplete | backend/services/aiService.js:127 | every piece passing the length test is kept |
| SubTasks.CleanKeywords | backend/services/aiService.js:121-128 | at most seven keywords, each 3 to 24 characters of letters, digits and white space |
| SubTasks.CleanKeywordsPieces | backend/services/aiService.js:124-128 | each keyword is the cleaned form of a comma piece; with fewer than seven, every passing piece is kept |
| SubTasks.CleaningKeepsDuplicates | backend/services/aiService.js:124-128 | duplicates are not removed: "k,k" gives two keywords |
| SubTasks.CleaningCanKeepBlank | backend/services/aiService.js:126-127 | trimming before scrubbing can leave a keyword of white space only |
| SubTasks.ExtractKeywords | backend/services/aiService.js:109-135 | one to seven non-empty keywords: the cleaned reply when that is non-empty, else the fallback keywords |
| SubTasks.Top | backend/services/aiService.js:146-148 | `reduce` picks a highest score, the last of equal highest scores |
| SubTasks.LabelTone | backend/services/aiService.js:150-155 | "positive" maps to casual, "negative" to formal, every other label to academic |
| SubTasks.DetectTone | backend/services/aiService.js:137-162 | the detected tone is never technical, and a failed call gives the local tone |
| SubTasks.StrictWinnerDecides | backend/services/aiService.js:145-155 | a label that strictly beats every other score decides the tone |
| SubTasks.TieGoesToLater | backend/services/aiService.js:146-148 | with equal scores the later label decides |
| SubTasks.MissingScoresIsAcademic | backend/services/aiService.js:145-157 | a reply without a label list is academic |
| SubTasks.StripMarker | backend/services/aiService.js:178 | stripping never lengthens a line, and an unmarked line is left alone |
| SubTasks.QuestionOf | backend/services/aiService.js:176-180 | what a line contributes is a well-formed question |
| SubTasks.AskedComplete | backend/services/aiService.js:179-180 | every line's question is kept |
| SubTasks.ParseQuestions | backend/services/aiService.js:175-181 | at most three well-formed questions |
| SubTasks.ParseQuestionsLines | backend/services/aiService.js:176-181 | each question comes from a line; with fewer than three, every line's question is kept |
| SubTasks.AskedQuestionIsDropped | backend/services/aiService.js:179 | a marked line that already asks a question is dropped, not kept |
| SubTasks.DashedLine | backend/services/aiService.js:177-178 | a "- q" line is marked, and its dash and space are stripped |
| SubTasks.IndentedMarkerIsKept | backend/services/aiService.js:177-178 | the marker test trims the line but the strip does not, so an indented "-" survives into the question |
| SubTasks.GenerateQuestions | backend/services/aiService.js:164-188 | one to three well-formed questions: the parsed ones when there are any, else the fixed ones |
| SubTasks.SimplifyText | backend/services/aiService.js:190-206 | a non-empty reply text is used; a failure or an empty text gives the fallback simplification |
| AiService.FallbackAnalysis | backend/services/aiService.js:295-306 | every field comes from the local heuristics, with the fallback status and model name |
| AiService.AnalyzeNote | backend/services/aiService.js:208-256 | the analysis is a success exactly when a token is set and the trimmed text has at least 10 code units; otherwise it is the fallback analysis |
| AiService.AllFailedMatchesFallback | backend/services/aiService.js:224-249 | when every call fails, the fields are the fallback's but the status still says success |
| AiService.StatusIgnoresReplies | backend/services/aiService.js:212-248 | the status depends on the guards alone |
| AiService.FieldsComeFromReplyOrFallback | backend/services/aiService.js:224-236 | each field of a successful analysis is the provider's answer or that field's fallback |
| AiController.Persist | backend/controllers/aiController.js:38-43 | the stored analysis keeps every field and takes the save time |
| AiController.PersistKeepsValid | backend/controllers/aiController.js:45-49 | storing an analysis keeps a valid note valid |
| AiController.MessagesDiffer | backend/controllers/aiController.js:53-55 | the success and fallback messages differ |
| AiController.AnalyzeNoteHandler | backend/controllers/aiController.js:8-69 | a malformed id gives 500, a missing note 404, short content 400, each with the store unchanged; otherwise the stored note carries the analysis |
| AiController.ShortNoteSkipsAnalyzer | backend/controllers/aiController.js:25-30 | a short note is refused whatever the provider would say |
| AiController.AnalyzeText | backend/controllers/aiController.js:74-107 | text is refused with 400 exactly when it is short; otherwise the analysis comes with the matching message |
| AiController.GetAIStatus | backend/controllers/aiController.js:112-165 | the status is operational with the data when the test connects, and unavailable with the error otherwise |
| AiController.StatusFollowsFirstAnswer | backend/controllers/aiController.js:116-150 | the status is unavailable exactly when the first non-loading exchange raised |
| AiController.TestAIConnection | backend/controllers/aiController.js:170-186 | the test answers 200, operational exactly when the analysis succeeded |
| AiController.TestStatusIsToken | backend/controllers/aiController.js:175-182 | since the test sentence is long enough, the status is operational exactly when a token is set |
| NoteSchema.TrimTags | backend/models/Note.js:23-27 | every tag goes through its `trim` setter |
| NoteSchema.Built | backend/models/Note.js:3-48 | a document is built exactly when title, content and user are present |
| NoteSchema.TagErrors | backend/models/Note.js:26 | no tag error exactly when every trimmed tag has at most 20 code units |
| NoteSchema.NoErrorsIffValid | backend/models/Note.js:3-48 | the path-by-path validators pass exactly when the built note is valid |
| NoteSchema.Save | backend/models/Note.js:3-48 | a save stores the built note exactly when it is valid, and otherwise reports at least one error |
| NoteSchema.ResaveKeepsNote | backend/models/Note.js:7-25 | saving a valid note again stores it unchanged |
| NoteSchema.BlankTitleIsRequired | backend/models/Note.js:6-7 | a blank title trims to "" and fails `required` first |
| NoteSchema.ToneNamesAllowed | backend/models/Note.js:42-45 | every tone the analyzer produces is in the schema enum |
| NoteRoutes.ValidatorLength | backend/routes/notes.js:22-27 | the rule's length never exceeds the character count |
| NoteRoutes.ValidatorLengthIsSize | backend/routes/notes.js:22-27 | the rule's length is the character count exactly when there is no variation selector |
| NoteRoutes.LengthsAgree | backend/routes/notes.js:27 | the rule and JavaScript agree on a length exactly for BMP text without variation selectors |
| NoteRoutes.RuleErrors | backend/routes/notes.js:18-33 | no rule message exactly when title and content are non-empty and short enough and the category is absent or allowed |
| NoteRoutes.Dispatch | backend/routes/notes.js:36-45 | only authenticated requests reach a handler; the handler is the table's; validated handlers see only bodies that pass the rules |
| NoteRoutes.UnauthenticatedIsDenied | backend/routes/notes.js:36 | without authentication every request is denied |
| NoteRoutes.DeleteAndPinAreNotValidated | backend/routes/notes.js:44-45 | delete and pin requests are handled whatever their body |
| NoteRoutes.StatsBeforeId | backend/routes/notes.js:40-41 | `/dashboard/stats` reaches the statistics, not a note called "dashboard" |
| NoteRoutes.MixedCaseSegmentsMatch | backend/routes/notes.js:15-45 | the router matches fixed segments in any case: `/Dashboard/STATS` and `/:id/PIN` reach their handlers |
| NoteRoutes.PatchWithoutPinIsUnrouted | backend/routes/notes.js:39-45 | a `PATCH /:id` request matches no route |
| NoteRoutes.DispatchIntended | frontend/src/services/notesService.js:87-92 | the router with a `PATCH /:id` route dispatches through the intended table |
| NoteRoutes.ClearAnalysisIsRouted | frontend/src/services/notesService.js:87-92 | with the intended route the client's request reaches the clearing handler, and every other request is dispatched as before |
| NoteRoutes.RulesAgainstSchema | backend/routes/notes.js:18-28 | content the schema accepts passes the rules; where the lengths agree, the rules and the schema agree on content and title |
| NoteRoutes.AstralContentPassesRules | backend/routes/notes.js:27 | astral content of 5001 to 10000 characters passes the rules but fails the schema |
| NoteRoutes.SmileysPassRules | backend/routes/notes.js:27 | such content exists: 5001 copies of U+1F600 |
| NoteRoutes.EmptyCategoryIsRejected | backend/routes/notes.js:29-32 | an empty category is rejected by the rule although the handler would default it |
| NoteController.QueryOf | backend/controllers/noteController.js:19-31 | the filter names the user, a category unless absent, empty or "all", pinned-only for "true", and a non-empty search |
| NoteController.Filter | backend/controllers/noteController.js:38-44 | every kept note is stored and matches the filter |
| NoteController.FilterComplete | backend/controllers/noteController.js:38-44 | every matching note is kept |
| NoteController.SortOf | backend/controllers/noteController.js:34-35 | the sort field defaults to updatedAt; descending exactly for an absent or "desc" order |
| NoteController.Window | backend/controllers/noteController.js:40-41 | the page is a slice of at most `limit` sorted notes starting at the skip |
| NoteController.CeilDivIsLeast | backend/controllers/noteController.js:52 | the page count is the least number of pages that hold all notes |
| NoteController.TotalPages | backend/controllers/noteController.js:52-54 | for a non-zero limit, the least whole number of pages reaching the total (rounded up toward zero for a negative limit); a zero limit gives Infinity, or NaN without notes |
| NoteController.PaginationOf | backend/controllers/noteController.js:50-56 | the page and total are echoed; for a positive limit a next page exactly when notes remain; for a zero limit exactly when there are notes; a previous page exactly after page 1 |
| NoteController.HasNextIffMoreNotes | backend/controllers/noteController.js:54 | for a positive limit there is a next page exactly when notes remain beyond this page |
| NoteController.NextPageIsNonEmpty | backend/controllers/noteController.js:41-54 | a next page is announced exactly when that page would hold notes |
| NoteController.Listed | backend/controllers/noteController.js:38-39 | the listed notes are a reordering of the matching notes |
| NoteController.GetNotes | backend/controllers/noteController.js:6-65 | a negative skip gives 500; otherwise the page of matching notes with its pagination |
| NoteController.ListedNotesMatch | backend/controllers/noteController.js:38-44 | every listed note is the requester's and matches; with limit 0 on page 1 every match is listed |
| NoteController.IsObjectId | backend/controllers/noteController.js:72-75 | the `_id` cast accepts exactly 24 characters that are each a hexadecimal digit of either case |
| NoteController.FindOwned | backend/controllers/noteController.js:72-75 | the lookup fails its cast exactly for an id that is not an ObjectId, and finds only the requester's note with that id |
| NoteController.GetNote | backend/controllers/noteController.js:70-102 | the note is returned exactly when the requester owns a note with that id; otherwise 404 |
| NoteController.OthersNotesAreHidden | backend/controllers/noteController.js:72-86 | asking for another user's note looks like asking for a missing one |
| NoteController.CategoryOr | backend/controllers/noteController.js:115 | the category defaults to Study exactly when it is absent, empty or already Study |
| NoteController.CreateNote | backend/controllers/noteController.js:107-133 | a created note is owned by the requester, valid and added; a failure leaves the store as it was |
| NoteController.CreateDefaults | backend/controllers/noteController.js:111-118 | without category, tags or pin the note is a Study note with no tags and no pin |
| NoteController.Apply | backend/controllers/noteController.js:152-156 | the note keeps its id; each named path takes the body's value (title and tags through their `trim` setters); every path the body does not name keeps its value |
| NoteController.PatchErrors | backend/controllers/noteController.js:152-156 | only the named paths are validated, the tone enum of a body analysis included: the owner is never demanded, and a body naming no validated path passes |
| NoteController.PatchErrorsIffInvalid | backend/controllers/noteController.js:152-156 | for a valid note, the update validators refuse exactly the bodies that would make it invalid |
| NoteController.PatchKeepsValid | backend/controllers/noteController.js:152-156 | validating only the updated paths keeps a valid note valid |
| NoteController.UpdateNoteAsWritten | backend/controllers/noteController.js:138-177 | as written, an update answers exactly when the requester owns the note, the cast accepts the body's `user` and the named paths validate; the answer and the stored note are the found note with the whole body applied, owner and analysis included; 404 exactly when the note is not found or the cast fails |
| NoteController.BadOwnerIsNotFound | backend/controllers/noteController.js:152-170 | a body `user` that is not an ObjectId fails the update's cast and is answered 404 "Note not found", with nothing stored |
| NoteRoutes.UpdateCanMoveNote | backend/controllers/noteController.js:152-156 | as written, a PUT whose body has a title and a content the rules and the schema accept plus a `user` field passes the router and gives the note to another user given as an ObjectId: afterwards that user can find it and nobody else can |
| NoteController.UpdateNote | backend/controllers/noteController.js:138-177 | an update keeps the owner and id; it answers exactly when the requester owns the note and the named paths validate, with the found note and the body applied; 404 exactly when the requester has no such note |
| NoteController.UpdateKeepsStore | backend/controllers/noteController.js:152-156 | an update keeps every stored note valid and leaves every other user's note alone |
| NoteController.DeleteNote | backend/controllers/noteController.js:182-214 | deletion succeeds exactly when the requester owns the note, and then only notes with that id go |
| NoteController.RemoveId | backend/controllers/noteController.js:198 | exactly the notes with other ids remain |
| NoteController.TogglePin | backend/controllers/noteController.js:219-255 | the pin is negated and saved exactly when the note is found and still valid; 404 exactly when not found |
| NoteController.TogglePinTwice | backend/controllers/noteController.js:233-238 | toggling twice restores the store |
| NoteController.ClearAnalysis | frontend/src/store/slices/notesSlice.js:167-180 | the intended handler removes the analysis of the requester's note, and 404s otherwise |
| NoteController.ReplaceFinds | backend/controllers/noteController.js:152-156 | after a replacement the lookup finds the new note |
| NoteController.ReplaceBack | backend/controllers/noteController.js:152-156 | putting the old note back undoes a replacement |
| NoteStats.Mine | backend/controllers/noteController.js:262-265 | exactly the requester's notes |
| NoteStats.CategoryCount | backend/controllers/noteController.js:264-303 | each category that occurs maps to its number of notes, and no other key appears |
| NoteStats.CategoryCountsAddUp | backend/controllers/noteController.js:264-267 | with schema categories, the counts add up to the number of notes |
| NoteStats.Ranked | backend/controllers/noteController.js:286-296 | the distinct values, each once, most frequent first |
| NoteStats.CommonTone | backend/controllers/noteController.js:284-312 | "N/A" without tones; otherwise a tone with the largest count |
| NoteStats.LeaderIsLargest | backend/controllers/noteController.js:287-288 | the head of the ranking has the largest count |
| NoteStats.CommonToneOfValidTones | backend/controllers/noteController.js:284-312 | with tones from the schema enum the common tone is one of them |
| NoteStats.TopKeywords | backend/controllers/noteController.js:292-313 | at most ten distinct stored keywords, most frequent first |
| NoteStats.LeftOutKeywordIsLessFrequent | backend/controllers/noteController.js:296-297 | a keyword left out of the top ten is no more frequent than any listed one |
| NoteStats.DashboardStats | backend/controllers/noteController.js:260-315 | analyzed notes and every category count are at most the total; at most ten keywords |
| Sorting.SortDesc | backend/controllers/noteController.js:287-296 | the sorted values are a permutation, ordered by descending count |
| Sorting.BeyondPrefixIsSmaller | backend/controllers/noteController.js:288-297 | a value cut off by `$limit` has a count no larger than any kept value |
| NotesService.FailureText | frontend/src/services/notesService.js:70 | the server's non-empty error text, else "Analysis failed" |
| NotesService.ResultOf | frontend/src/services/notesService.js:64-71 | a result succeeds exactly when its request was answered, carrying the body or the failure text |
| NotesService.CountSuccessful | frontend/src/services/notesService.js:79 | the successes counted: none exactly when every result failed, all exactly when every result succeeded |
| NotesService.CountFailed | frontend/src/services/notesService.js:80 | the failures counted: none exactly when every result succeeded, all exactly when every result failed |
| NotesService.CountsAddUp | frontend/src/services/notesService.js:79-80 | successes and failures add up to the number of results |
| NotesService.AnalyzeMultiple | frontend/src/services/notesService.js:63-84 | one result per id in order, and the counts add up to the number processed |
| NotesSlice.Keep | frontend/src/store/slices/notesSlice.js:228-236 | a filter keeps the passing notes, in order, each as many times as it occurs, and drops every other note |
| NotesSlice.SearchNotes | frontend/src/store/slices/notesSlice.js:219-241 | the results are the notes, in order and with their multiplicity, that match the lower-cased query and the category; nothing else is kept |
| NotesSlice.EmptySearchKeepsAll | frontend/src/store/slices/notesSlice.js:226-235 | an empty query and category keep every note |
| NotesSlice.ClearSearch | frontend/src/store/slices/notesSlice.js:242-246 | the results and filters are emptied and nothing else changes |
| NotesSlice.ClearForgetsSearch | frontend/src/store/slices/notesSlice.js:219-246 | clearing after a search is clearing without it |
| NotesSlice.FindIndex | frontend/src/store/slices/notesSlice.js:345 | no index exactly when no note has the id; otherwise the first such note |
| NotesSlice.ReplaceById | frontend/src/store/slices/notesSlice.js:345-348 | the first note with the id is replaced by the new one and every other note stays; nothing changes when none matches |
| NotesSlice.ReplaceIdempotent | frontend/src/store/slices/notesSlice.js:345-348 | replacing with the same note twice is replacing once |
| NotesSlice.RefreshCurrent | frontend/src/store/slices/notesSlice.js:349-351 | the current note changes only when its id is the saved note's |
| NotesSlice.NoteSaved | frontend/src/store/slices/notesSlice.js:343-353 | the list and current note take the saved note, loading ends, and nothing else changes |
| NotesSlice.NoteCreated | frontend/src/store/slices/notesSlice.js:328-332 | the new note goes first, before the old list |
| NotesSlice.NoteDeleted | frontend/src/store/slices/notesSlice.js:364-371 | the notes with other ids remain, in order and with their multiplicity, and no note with the id does; the current note goes exactly when it has the id |
| NotesSlice.DeleteUndoesCreate | frontend/src/store/slices/notesSlice.js:328-367 | deleting a just-created note with a fresh id gives back the old list |
| NotesSlice.DeleteIdempotent | frontend/src/store/slices/notesSlice.js:364-371 | deleting twice is deleting once |
| NotesSlice.OperationPending | frontend/src/store/slices/notesSlice.js:339-342 | a pending operation sets loading and clears the error |
| NotesSlice.OperationRejected | frontend/src/store/slices/notesSlice.js:354-357 | a rejected operation keeps the notes and records the message |
| NotesSlice.AnalysisDone | frontend/src/store/slices/notesSlice.js:405-418 | the analysed note replaces its listed and current copies, and the marker clears |
| NotesSlice.AnalysisPending | frontend/src/store/slices/notesSlice.js:401-404 | the analysing marker names the note's id, the error clears, and the notes stay |
| NotesSlice.AnalysisRejected | frontend/src/store/slices/notesSlice.js:419-422 | the analysing marker clears, the error is the rejection's message, and the notes stay |
| NotesSlice.AnalysisSettles | frontend/src/store/slices/notesSlice.js:401-422 | however the request settles, the analysing marker is cleared |
| NotesSlice.BulkPending | frontend/src/store/slices/notesSlice.js:460-466 | processing starts at zero progress out of the number of ids |
| NotesSlice.BulkDoneAsWritten | frontend/src/store/slices/notesSlice.js:467-483 | as written, processing ends with progress at the total and the results stored |
| NotesSlice.BodyNote | frontend/src/store/slices/notesSlice.js:474 | `result.data.note` is always undefined, because the stored body has no `note` field |
| NotesSlice.ApplyResults | frontend/src/store/slices/notesSlice.js:473-480 | the list keeps its length and every position its id; without a successful result carrying a note nothing changes |
| NotesSlice.BulkAsWrittenKeepsStaleNotes | frontend/src/store/slices/notesSlice.js:473-480 | as written, no result ever reaches the note list |
| NotesSlice.BulkDone | frontend/src/store/slices/notesSlice.js:467-483 | with the note read where the body holds it, processing ends and the list keeps its length |
| NotesSlice.UnnamedNotesUnchanged | frontend/src/store/slices/notesSlice.js:473-480 | a note no successful result names stays as it was |
| NotesSlice.BulkRejected | frontend/src/store/slices/notesSlice.js:484-487 | processing stops, the error is the rejection's message, and the notes stay |
| NotesSlice.SuccessfulResultIsApplied | frontend/src/store/slices/notesSlice.js:473-480 | a successful result's note reaches the list when it is the only one naming that note |
| NotesSlice.BulkCompletes | frontend/src/store/slices/notesSlice.js:460-470 | after pending and fulfilled the progress equals the number of ids sent |
| NoteEditor.ParseTags | frontend/src/pages/NoteEditor.jsx:43 | the parsed tags are non-empty, trimmed and comma-free; blank input gives none |
| NoteEditor.FormatTags | frontend/src/pages/NoteEditor.jsx:32 | an absent list shows as ""; a single tag shows as itself |
| NoteEditor.FormatThenParse | frontend/src/pages/NoteEditor.jsx:32-43 | showing editor-made tags and parsing the text back gives the same list |
| NoteEditor.ParseIdempotent | frontend/src/pages/NoteEditor.jsx:32-43 | parsing what parsing produced changes nothing |
| NoteEditor.CommaTagIsSplit | frontend/src/pages/NoteEditor.jsx:32-43 | a stored tag with a comma comes back from an unchanged edit as two tags |
| NoteEditor.EditTarget | frontend/src/pages/NoteEditor.jsx:13-14 | editing exactly when an id is given; the note edited is the first with that id, if any |
| NoteEditor.EditKeepsCleanTags | frontend/src/pages/NoteEditor.jsx:28-43 | saving a loaded note unchanged keeps editor-made tags |
| RegisterForm.UsernameError | frontend/src/pages/Register.jsx:43-49 | no message exactly for three or more code units of `[a-zA-Z0-9_]`; the required and length messages come first |
| RegisterForm.EmailPatternIsShape | frontend/src/pages/Register.jsx:54 | the email pattern matches exactly: no white space, one '@' with text before, and a '.' with text on both sides after it |
| RegisterForm.EmailError | frontend/src/pages/Register.jsx:52-56 | no message exactly when the pattern matches; blank input is required |
| RegisterForm.PasswordError | frontend/src/pages/Register.jsx:59-65 | no message exactly for six or more code units with a lower-case letter, an upper-case letter and a digit on one line |
| RegisterForm.MixedLine | frontend/src/pages/Register.jsx:63 | a password the lookahead pattern accepts holds a lower-case letter, an upper-case letter and a digit |
| RegisterForm.MixedLineHasAll | frontend/src/pages/Register.jsx:63 | a password passing the pattern holds all three kinds of character |
| RegisterForm.OneLineMixed | frontend/src/pages/Register.jsx:63 | on one line the pattern asks only that each kind occur somewhere |
| RegisterForm.SplitLinesRejected | frontend/src/pages/Register.jsx:63 | kinds split across a line terminator do not pass |
| RegisterForm.ConfirmError | frontend/src/pages/Register.jsx:68-72 | no message exactly when the confirmation is non-empty and equal |
| RegisterForm.TermsError | frontend/src/pages/Register.jsx:75-77 | no message exactly when the terms are agreed to |
| RegisterForm.ValidateForm | frontend/src/pages/Register.jsx:39-80 | the form is valid exactly when every field has no message |
| RegisterForm.Level | frontend/src/pages/Register.jsx:118-135 | no level exactly for the empty password; otherwise a level from 0 to 4 |
| RegisterForm.PasswordStrength | frontend/src/pages/Register.jsx:118-137 | an empty password has no label; otherwise the label of its level |
| RegisterForm.AcceptedPasswordIsStrong | frontend/src/pages/Register.jsx:59-137 | every password the form accepts is labelled Strong |
| RegisterForm.StrengthMonotone | frontend/src/pages/Register.jsx:121-135 | meeting more criteria never lowers the level; Strong exactly from four criteria |
| AuthSlice.Login | frontend/src/store/slices/authSlice.js:16-20 | login sets the user, authenticates and clears the error, keeping a consistent state consistent |
| AuthSlice.Logout | frontend/src/store/slices/authSlice.js:21-25 | logout clears user and token and always gives a consistent state |
| AuthSlice.ClearError | frontend/src/store/slices/authSlice.js:26-28 | only the error changes |
| AuthSlice.ReachableIsConsistent | frontend/src/store/slices/authSlice.js:15-29 | every state reached by the reducers is consistent |
| AuthSlice.InitialIsSignedIn | frontend/src/store/slices/authSlice.js:4-10 | the initial session is signed in with the mock user and token |
| AuthSlice.TokenNeverReturns | frontend/src/store/slices/authSlice.js:16-25 | once the token is gone no action brings it back |
| AuthSlice.LogoutThenLogin | frontend/src/store/slices/authSlice.js:16-25 | logging in after logging out authenticates without a token |

## Left out

- HTTP transport, Express, JWT checks inside `protect`, timeouts, `setTimeout` waits and logging are not modelled. Each request is a value, and authentication is a flag on it.
- MongoDB is a sequence of notes. The `$text` search and the result order are parameters. `createdAt`/`updatedAt` and `lastAnalyzed` are integers given by the caller.
- The prompts (`text.substring(0, 800)` and `substring(0, 512)`) and the hosted models are not modelled. Each provider reply is an input.
- The recent-notes count of the dashboard is not modelled. It compares `updatedAt` with the clock minus seven days, and the model has no clock.
- Sentiment scores are integers, not floating-point numbers.
- `queryChatModel` and `reanalyzeAllNotes` are not modelled, because no modelled operation calls them.
- The thunks' error texts and the `fetchNotes`, `fetchNote`, `analyzeText`, `getAIStatus`, `setCurrentNote` and `clearCurrentNote` reducers are not modelled. They only copy a payload into the state.
- The registration submit is not modelled. It dispatches a mock login.
- UpdateNoteAsWritten: a body `aiAnalysis` replaces the whole stored sub-document, and `null` removes it. How Mongoose casts a partial object, or drops keys the schema does not declare, is not modelled.
- NoteRoutes.Route: Express also accepts a path with a trailing slash; a path here is its list of segments, so that spelling is not modelled.
- QueryModel: the retry on "loading" has no bound in the source. The model's sequence of exchanges bounds it, and the result is `None` when the exchanges run out while the provider is still loading.
- LabelTone: the tone map is a plain object. Labels such as "constructor", "toString" or "__proto__" give an `Object.prototype` member, not "academic". That value then fails the schema enum when the note is saved. The model maps every label other than "positive" and "negative" to academic.
- GetNotes: `page` and `limit` are query strings in the source. The model takes them as integers. It does not cover the `NaN` skip of `?page=abc`. Nor does it cover a fractional page such as `?page=1.5`, which skips half a page while `currentPage` is 1.
- FallbackSimplified: lengths are counted in characters, not UTF-16 code units. `substring(0, 200)` can split a surrogate pair in the source; in the model it cannot.
- ShortTextIsNotAcademic: counts characters, not UTF-16 code units. The word count it bounds is the same either way.
- SearchNotes: lower-casing is ASCII only. `toLowerCase` also folds non-ASCII letters.
- Fallback.Normalize: lower-casing is ASCII only. This is exact here, because every other character has already been removed.
- AiController.AnalyzeNoteHandler: a failed id cast gives the message prefix "Cast to ObjectId failed". The rest of Mongoose's message is not modelled.
- AiController.GetAIStatus: the `catch` of `getAIStatus` is not modelled. `testConnection` never throws, so that branch cannot run.

## Findings

| source | as written | input that shows it | evidently intended | confidence | as-written member | corrected member |
|---|---|---|---|---|---|---|
| backend/controllers/noteController.js:152-156 | `findByIdAndUpdate(id, req.body)` applies the whole body, including `user` | an owner sends `PUT /api/notes/:id` with `{"title": "T", "content": "C", "user": "<another user's ObjectId>"}`, a body the request rules, the cast and the validators accept | the owner is kept and a `user` field in the body is ignored | not executed | NoteController.UpdateNoteAsWritten, NoteRoutes.UpdateCanMoveNote | NoteController.UpdateNote, NoteController.UpdateKeepsStore |
| frontend/src/store/slices/notesSlice.js:473-480 | the reducer reads `result.data.note`, but `data` is the whole response body (notesService.js:66), whose note is at `data.data.note` | any successful bulk analysis of a listed note | the analysed notes replace their listed copies | not executed | NotesSlice.BulkDoneAsWritten, NotesSlice.BulkAsWrittenKeepsStaleNotes | NotesSlice.BulkDone, NotesSlice.SuccessfulResultIsApplied |
| frontend/src/services/notesService.js:87-92 | the client sends `PATCH /notes/:id`, but the router has only `PATCH /:id/pin` (routes/notes.js:39-45) | `clearAIAnalysis("<any id>")` | the request reaches a handler that removes the note's analysis | not executed | NoteRoutes.PatchWithoutPinIsUnrouted | NoteRoutes.DispatchIntended, NoteRoutes.ClearAnalysisIsRouted, NoteController.ClearAnalysis |

=== FILE: ai_controller.dfy ===
/** The AI handlers of backend/controllers/aiController.js: `analyzeNote`
    (look the note up, guard its length, analyse, store the analysis),
    `analyzeText`, `getAIStatus` and `testAIConnection`. The provider's
    answers are inputs, as in the service; `now` and `savedAt` are the two
    clock readings (the service's and the handler's). */
module AiController {
  import opened Wrappers
  import opened Text
  import opened ModelClient
  import opened Fallback
  import opened AiService
  import opened NoteSchema
  import opened NoteController

  const ShortNote: String := "Note content is too short for AI analysis (minimum 10 characters required)"
  const ShortText: String := "Text is too short for AI analysis (minimum 10 characters required)"
  const NoteDone: String := "AI analysis completed " + "successfully!"
  const NoteFellBack: String := "AI analysis completed " + "with fallback (service unavailable)"
  const TextDone: String := "Text analysis completed " + "successfully!"
  const TextFellBack: String := "Text analysis completed " + "with fallback (service unavailable)"
  /** The start of the message Mongoose gives a failed `_id` cast; the rest of
      it (the value, the model name) is not modelled. */
  const CastFailure: String := "Cast to ObjectId failed"

  /** The length guard of both handlers: `!text || text.trim().length < 10`. */
  predicate TooShort(text: Option<String>) {
    text.None? || Utf16Length(Trim(text.value)) < 10
  }

  /** The analysis as the note stores it: `{...analysis, lastAnalyzed: savedAt}`.
      Every field is copied except `lastAnalyzed`, which is overwritten, and
      `status`, which the schema does not declare. */
  function Persist(a: Analysis, savedAt: int): (s: StoredAnalysis)
    ensures s.summary == a.summary && s.keywords == a.keywords && s.questions == a.questions
    ensures s.simplifiedContent == a.simplifiedContent && s.modelUsed == a.modelUsed
    ensures s.tone == Some(ToneName(a.tone)) && s.lastAnalyzed == savedAt
  {
    StoredAnalysis(a.summary, a.keywords, a.questions, a.simplifiedContent,
      Some(ToneName(a.tone)), savedAt, a.modelUsed)
  }

  /** Storing an analysis keeps a valid note valid: every tone the analyzer
      can name is in the schema's enum. */
  lemma PersistKeepsValid(n: Note, a: Analysis, savedAt: int)
    requires ValidNote(n)
    ensures ValidNote(n.(aiAnalysis := Some(Persist(a, savedAt))))
  {
    ToneNamesAllowed(a.tone);
  }

  /** The success and fallback messages can be told apart. */
  lemma MessagesDiffer()
    ensures NoteDone != NoteFellBack && TextDone != TextFellBack
  {
    assert NoteDone[22] == 's' && NoteFellBack[22] == 'w';
    assert TextDone[24] == 's' && TextFellBack[24] == 'w';
  }

  /** The data of a successful `analyzeNote`: the updated note and the
      analysis as the service returned it. */
  datatype NoteAnalysis = NoteAnalysis(note: Note, analysis: Analysis)

  /** `analyzeNote` for note `id` of `user`. Unlike the note handlers, a
      malformed id is not turned into a 404: the cast error reaches the catch
      block and becomes a 500. */
  function AnalyzeNoteHandler(store: Store, id: String, user: String, hasToken: bool,
                              replies: Replies, now: int, savedAt: int): (r: Effect<NoteAnalysis>)
    ensures r.response.Refuse? ==> r.store == store
    ensures r.response == Refuse(500, CastFailure) <==> !IsObjectId(id)
    ensures r.response == Refuse(404, NotFound) <==> FindOwned(store, id, user).Missing?
    ensures r.response == Refuse(400, ShortNote) <==>
      FindOwned(store, id, user).Found? && TooShort(Some(FindOwned(store, id, user).note.content))
    ensures r.response.Respond? ==>
      && FindOwned(store, id, user).Found?
      && var n := FindOwned(store, id, user).note;
         r.response.data.analysis == AnalyzeNote(hasToken, n.content, replies, now)
         && r.response.data.note == n.(aiAnalysis := Some(Persist(r.response.data.analysis, savedAt)))
         && r.store == Replace(store, id, r.response.data.note)
         && (r.response.message == NoteDone <==> r.response.data.analysis.status == Success)
         && (r.response.message == NoteDone <==> hasToken)
  {
    match FindOwned(store, id, user)
    case CastFailed => Effect(Refuse(500, CastFailure), store)
    case Missing => Effect(Refuse(404, NotFound), store)
    case Found(n) =>
      if TooShort(Some(n.content)) then Effect(Refuse(400, ShortNote), store)
      else
        var a := AnalyzeNote(hasToken, n.content, replies, now);
        var m := n.(aiAnalysis := Some(Persist(a, savedAt)));
        MessagesDiffer();
        Effect(Respond(200, if a.status == Success then NoteDone else NoteFellBack, NoteAnalysis(m, a)),
          Replace(store, id, m))
  }

  /** A note too short to analyse is refused before the analyzer runs: the
      answer does not depend on the token or on anything the provider says. */
  lemma ShortNoteSkipsAnalyzer(store: Store, id: String, user: String,
                               t1: bool, r1: Replies, t2: bool, r2: Replies, now: int, savedAt: int)
    requires FindOwned(store, id, user).Found? && TooShort(Some(FindOwned(store, id, user).note.content))
    ensures AnalyzeNoteHandler(store, id, user, t1, r1, now, savedAt)
      == AnalyzeNoteHandler(store, id, user, t2, r2, now, savedAt)
      == Effect(Refuse(400, ShortNote), store)
  {
  }

  /** `analyzeText`: the same guard, then the analysis with a message that
      follows its status. */
  function AnalyzeText(text: Option<String>, hasToken: bool, replies: Replies, now: int): (r: Response<Analysis>)
    ensures r.Refuse? <==> TooShort(text)
    ensures r.Refuse? ==> r == Refuse(400, ShortText)
    ensures r.Respond? ==>
      && r.data == AnalyzeNote(hasToken, text.value, replies, now)
      && (r.message == TextDone <==> r.data.status == Success)
      && (r.message == TextDone <==> hasToken)
  {
    if TooShort(text) then Refuse(400, ShortText)
    else
      var a := AnalyzeNote(hasToken, text.value, replies, now);
      MessagesDiffer();
      Respond(200, if a.status == Success then TextDone else TextFellBack, a)
  }

  // ---------------------------------------------------------------------------
  // status

  const Capabilities: seq<String> := [
    "text_summarization", "keyword_extraction", "tone_analysis",
    "question_generation", "text_simplification"]

  /** The `data` of `getAIStatus`. */
  datatype StatusReport = StatusReport(
    success: bool,
    status: String,
    service: String,
    capabilities: seq<String>,
    error: Option<String>,
    suggestion: Option<String>,
    message: String)

  /** `getAIStatus`, fed the exchanges of the connection test. `None` when the
      test is still retrying; the handler's catch block, which would also
      answer with `success: true`, cannot be reached because the connection
      test catches everything itself. */
  function GetAIStatus(xs: seq<Exchange>): (r: Option<StatusReport>)
    ensures r.None? <==> TestConnection(xs).None?
    ensures r.Some? ==> r.value.success && r.value.service == RouterModel
    ensures r.Some? ==>
      (r.value.status == "operational" <==> TestConnection(xs).value.Connected?)
    ensures r.Some? && TestConnection(xs).value.Connected? ==>
      |r.value.capabilities| == 5 && r.value.error.None?
    ensures r.Some? && TestConnection(xs).value.Disconnected? ==>
      && r.value.capabilities == []
      && r.value.error == Some(TestConnection(xs).value.error)
      && r.value.suggestion == Some(TestConnection(xs).value.suggestion)
  {
    match TestConnection(xs)
    case None => None
    case Some(Connected(_)) =>
      Some(StatusReport(true, "operational", RouterModel, Capabilities, None, None,
        "AI service is ready for analysis"))
    case Some(Disconnected(e, s)) =>
      Some(StatusReport(true, "unavailable", RouterModel, [], Some(e), Some(s),
        "AI service is currently unavailable"))
  }

  /** The status is unavailable exactly when the provider's first real answer
      is an error. */
  lemma StatusFollowsFirstAnswer(xs: seq<Exchange>)
    requires GetAIStatus(xs).Some?
    ensures GetAIStatus(xs).value.status == "unavailable" <==> xs[LoadingRun(xs)].Raised?
  {
    assert "operational"[0] != "unavailable"[0];
  }

  /** The fixed sentence `testAIConnection` sends through the analyzer. */
  const TestText: String := "Hello, this is a test " + "to check if the AI service " + "is working properly."

  /** `testAIConnection`: "operational" when the analysis is a success,
      "degraded" otherwise. No request can reach it: its route is commented
      out in backend/routes/aiRoutes.js (line 18), so this models the exported
      handler only. */
  function TestAIConnection(hasToken: bool, replies: Replies, now: int): (r: Response<(String, Analysis)>)
    ensures r.Respond? && r.code == 200 && r.message == "AI service test completed"
    ensures r.data.0 == "operational" <==> r.data.1.status == Success
  {
    var a := AnalyzeNote(hasToken, TestText, replies, now);
    Respond(200, "AI service test completed", (if a.status == Success then "operational" else "degraded", a))
  }

  /** The test sentence passes the length guard, so the reported status
      depends on the token alone, never on the provider. Like the handler, this
      is about code that no route reaches. */
  lemma TestStatusIsToken(hasToken: bool, replies: Replies, now: int)
    ensures TestAIConnection(hasToken, replies, now).data.0 == "operational" <==> hasToken
  {
    assert TestText[0] == 'H' && TestText[|TestText| - 1] == '.';
    TrimOfTrimmed(TestText);
  }
}

=== FILE: ai_service.dfy ===
/** The `analyzeNote` orchestrator of backend/services/aiService.js and the
    record it returns. The five sub-task replies are inputs; the clock is a
    parameter. */
module AiService {
  import opened Wrappers
  import opened Text
  import opened ModelClient
  import opened Fallback
  import opened SubTasks

  /** The `status` field of an analysis. */
  datatype Status = Success | FellBack

  /** The analysis record `analyzeNote` and `getFallbackAnalysis` return. */
  datatype Analysis = Analysis(
    summary: String,
    keywords: seq<String>,
    tone: Tone,
    questions: seq<String>,
    simplifiedContent: String,
    lastAnalyzed: int,
    modelUsed: String,
    status: Status)

  /** What the provider gave each of the five sub-tasks, in call order. */
  datatype Replies = Replies(
    summary: Outcome,
    keywords: Outcome,
    tone: Outcome,
    questions: Outcome,
    simplified: Outcome)

  const RouterModel: String := "Hugging Face Router API"
  const FallbackModel: String := "Fallback (AI Service Unavailable)"

  /** The shape every analysis has, whichever path produced it: a non-empty
      summary, one to seven non-empty keywords, a tone the sub-tasks can
      produce, and one to three well-formed questions. */
  predicate WellFormed(a: Analysis) {
    a.summary != ""
    && 1 <= |a.keywords| <= 7
    && (forall i :: 0 <= i < |a.keywords| ==> a.keywords[i] != "")
    && a.tone in {Formal, Academic, Casual}
    && 1 <= |a.questions| <= 3
    && (forall i :: 0 <= i < |a.questions| ==> QuestionShaped(a.questions[i]))
  }

  /** `getFallbackAnalysis(content)`: every field from the local heuristics,
      tagged as a fallback. */
  function FallbackAnalysis(content: String, now: int): (r: Analysis)
    ensures WellFormed(r)
    ensures r.status == FellBack && r.modelUsed == FallbackModel && r.lastAnalyzed == now
    ensures |r.keywords| <= 5 && Distinct(r.keywords)
    ensures r.summary[|r.summary| - 1] == '.'
    ensures r.questions == FallbackQuestions
    ensures |content| <= 200 ==> r.simplifiedContent == content
  {
    FallbackQuestionsShaped();
    Analysis(
      FallbackSummary(content),
      FallbackKeywords(content),
      ToneFallback(content),
      FallbackQuestions,
      FallbackSimplified(content),
      now,
      FallbackModel,
      FellBack)
  }

  /** The two guards at the head of `analyzeNote`: a configured token and at
      least ten characters once trimmed. */
  predicate Analyzable(hasToken: bool, content: String) {
    hasToken && Utf16Length(Trim(content)) >= 10
  }

  /** `analyzeNote(content)`. A failed guard throws inside the `try` and is
      caught into the fallback record, so the caller never sees an error. Past
      the guards nothing can throw: each sub-task catches its own failure, so
      the record is marked a success even when every sub-task fell back. */
  function AnalyzeNote(hasToken: bool, content: String, replies: Replies, now: int): (r: Analysis)
    ensures WellFormed(r)
    ensures r.lastAnalyzed == now
    ensures r.status == Success <==> Analyzable(hasToken, content)
    ensures r.modelUsed == RouterModel <==> r.status == Success
    ensures !Analyzable(hasToken, content) ==> r == FallbackAnalysis(content, now)
  {
    if !Analyzable(hasToken, content) then FallbackAnalysis(content, now)
    else
      assert RouterModel[0] != FallbackModel[0];
      Analysis(
        GenerateSummary(content, replies.summary),
        ExtractKeywords(content, replies.keywords),
        DetectTone(content, replies.tone),
        GenerateQuestions(replies.questions),
        SimplifyText(content, replies.simplified),
        now,
        RouterModel,
        Success)
  }

  /** Every call failing does not make the analysis a fallback: the fields are
      exactly the fallback record's, and only the model name and the status
      differ. */
  lemma AllFailedMatchesFallback(hasToken: bool, content: String, replies: Replies, now: int)
    requires Analyzable(hasToken, content)
    requires replies.summary.Fail? && replies.keywords.Fail? && replies.tone.Fail?
    requires replies.questions.Fail? && replies.simplified.Fail?
    ensures AnalyzeNote(hasToken, content, replies, now)
      == FallbackAnalysis(content, now).(modelUsed := RouterModel, status := Success)
  {
  }

  /** The status depends on the guards alone, never on what the provider
      answered. */
  lemma StatusIgnoresReplies(hasToken: bool, content: String, a: Replies, b: Replies, now: int)
    ensures AnalyzeNote(hasToken, content, a, now).status == AnalyzeNote(hasToken, content, b, now).status
  {
  }

  /** Each field of a successful analysis is either the provider's answer or
      the local heuristic's value for that field. */
  lemma FieldsComeFromReplyOrFallback(hasToken: bool, content: String, replies: Replies, now: int)
    requires Analyzable(hasToken, content)
    ensures var r := AnalyzeNote(hasToken, content, replies, now);
      var f := FallbackAnalysis(content, now);
      (r.summary == f.summary
         || (replies.summary.Ok? && replies.summary.payload.summaryText == Some(r.summary)))
      && (r.keywords == f.keywords || replies.keywords.Ok?)
      && (r.tone == f.tone || replies.tone.Ok?)
      && (r.questions == f.questions || replies.questions.Ok?)
      && (r.simplifiedContent == f.simplifiedContent
          || (replies.simplified.Ok?
              && replies.simplified.payload.generatedText == Some(r.simplifiedContent)))
  {
  }
}

=== FILE: auth_slice.dfy ===
/** The client-side session of frontend/src/store/slices/authSlice.js: a mock
    user signed in from the start, and the `login`, `logout` and `clearError`
    reducers. No reducer sets the token, so only the initial state has one. */
module AuthSlice {
  import opened Wrappers
  import opened Text

  datatype User = User(id: String, username: String, email: String, avatar: String)

  datatype State = State(
    user: Option<User>,
    token: Option<String>,
    isAuthenticated: bool,
    loading: bool,
    error: Option<String>)

  /** The user of the mock data. */
  const MockUser: User := User("1", "john_doe", "john@example.com", "https://ui-avatars.com/api/?name=John+Doe")

  const Initial: State := State(Some(MockUser), Some("mock-jwt-token"), true, false, None)

  /** What every reachable state keeps: a session has a user exactly when it
      is authenticated, and a token only while authenticated. */
  predicate Consistent(s: State) {
    (s.isAuthenticated <==> s.user.Some?) && (s.token.Some? ==> s.isAuthenticated)
  }

  function Login(s: State, u: User): (r: State)
    ensures r.user == Some(u) && r.isAuthenticated && r.error.None?
    ensures r.token == s.token && r.loading == s.loading
    ensures Consistent(s) ==> Consistent(r)
  {
    s.(user := Some(u), isAuthenticated := true, error := None)
  }

  function Logout(s: State): (r: State)
    ensures r.user.None? && r.token.None? && !r.isAuthenticated
    ensures r.error == s.error && r.loading == s.loading
    ensures Consistent(r)
  {
    s.(user := None, token := None, isAuthenticated := false)
  }

  function ClearError(s: State): (r: State)
    ensures r.error.None? && r.(error := s.error) == s
    ensures Consistent(s) ==> Consistent(r)
  {
    s.(error := None)
  }

  datatype Action = LoginAs(u: User) | LogoutAction | ClearErrorAction

  function Step(s: State, a: Action): State {
    match a
    case LoginAs(u) => Login(s, u)
    case LogoutAction => Logout(s)
    case ClearErrorAction => ClearError(s)
  }

  function Run(s: State, actions: seq<Action>): State
    decreases |actions|
  {
    if |actions| == 0 then s else Run(Step(s, actions[0]), actions[1..])
  }

  /** Every state reachable from the initial one is consistent. */
  lemma {:induction false} ReachableIsConsistent(s: State, actions: seq<Action>)
    requires Consistent(s)
    ensures Consistent(Run(s, actions))
    decreases |actions|
  {
    if |actions| > 0 {
      ReachableIsConsistent(Step(s, actions[0]), actions[1..]);
    }
  }

  /** The initial session is signed in with the mock user and token. */
  lemma InitialIsSignedIn()
    ensures Consistent(Initial) && Initial.isAuthenticated && Initial.error.None?
    ensures Initial.user == Some(MockUser) && Initial.token.Some?
  {
  }

  /** Once logged out, logging in again authenticates without a token: the
      token lost at logout never comes back. */
  lemma {:induction false} TokenNeverReturns(s: State, actions: seq<Action>)
    requires s.token.None?
    ensures Run(s, actions).token.None?
    decreases |actions|
  {
    if |actions| > 0 {
      TokenNeverReturns(Step(s, actions[0]), actions[1..]);
    }
  }

  lemma LogoutThenLogin(s: State, u: User)
    ensures Login(Logout(s), u).isAuthenticated && Login(Logout(s), u).token.None?
  {
  }
}

=== FILE: fallback.dfy ===
/** The local heuristics the AI service falls back on when the provider cannot
    be used: `getFallbackSummary`, `getFallbackKeywords`, `analyzeToneFallback`,
    `getFallbackQuestions` and `getFallbackSimplified` of
    backend/services/aiService.js. All of them are pure functions of the text. */
module Fallback {
  import opened Text

  /** The tones of the note schema's `aiAnalysis.tone` enum. */
  datatype Tone = Formal | Academic | Casual | Technical

  function ToneName(t: Tone): String
  {
    match t
    case Formal => "formal"
    case Academic => "academic"
    case Casual => "casual"
    case Technical => "technical"
  }

  /** The characters of the sentence separator `/[.!?]+/`. */
  const SentenceMarks: set<char> := {'.', '!', '?'}

  // ---------------------------------------------------------------------------
  // summary

  /** `parts.filter(s => s.trim().length > 0)`: the kept pieces are not trimmed. */
  function NonBlank(parts: seq<String>): (r: seq<String>)
    ensures |r| <= |parts|
    ensures forall i :: 0 <= i < |r| ==> !Blank(r[i]) && r[i] in parts
    ensures r == [] <==> forall i :: 0 <= i < |parts| ==> Blank(parts[i])
  {
    if |parts| == 0 then []
    else
      var rest := NonBlank(parts[1..]);
      assert forall i :: 1 <= i < |parts| ==> parts[i] == parts[1..][i - 1];
      (if Blank(parts[0]) then [] else [parts[0]]) + rest
  }

  /** `getFallbackSummary(text)`: the first two non-blank sentence fragments
      joined by ". ", then a final ".". The result always ends in a period and,
      since the fragments lie between sentence marks, never holds '!' or '?'.
      It is never empty, so the source's `|| 'Summary: …'` alternative can never
      be chosen and is not modelled. */
  function FallbackSummary(text: String): (r: String)
    ensures |r| >= 1 && r[|r| - 1] == '.'
    ensures NoneIn(r, {'!', '?'})
  {
    var fragments := SplitRuns(text, SentenceMarks);
    var kept := Take(NonBlank(fragments), 2);
    KeptFragmentsUnmarked(fragments, kept);
    JoinNoneIn(kept, ". ", {'!', '?'});
    Join(kept, ". ") + "."
  }

  /** Fragments taken from a split on the sentence marks hold none of them. */
  lemma KeptFragmentsUnmarked(fragments: seq<String>, kept: seq<String>)
    requires forall i :: 0 <= i < |fragments| ==> NoneIn(fragments[i], SentenceMarks)
    requires kept == Take(NonBlank(fragments), 2)
    ensures forall i :: 0 <= i < |kept| ==> NoneIn(kept[i], {'!', '?'})
  {
    var nb := NonBlank(fragments);
    NonBlankKeeps(fragments, SentenceMarks);
    assert {'!', '?'} <= SentenceMarks;
    forall i | 0 <= i < |kept|
      ensures NoneIn(kept[i], {'!', '?'})
    {
      assert kept[i] == nb[i];
      NoneInSubset(kept[i], SentenceMarks, {'!', '?'});
    }
  }

  /** Dropping blank pieces keeps a property every piece has. */
  lemma NonBlankKeeps(parts: seq<String>, d: set<char>)
    requires forall i :: 0 <= i < |parts| ==> NoneIn(parts[i], d)
    ensures forall i :: 0 <= i < |NonBlank(parts)| ==> NoneIn(NonBlank(parts)[i], d)
  {
    var nb := NonBlank(parts);
    forall i | 0 <= i < |nb|
      ensures NoneIn(nb[i], d)
    {
      assert nb[i] in parts;
    }
  }

  lemma NoneInSubset(s: String, d: set<char>, e: set<char>)
    requires NoneIn(s, d) && e <= d
    ensures NoneIn(s, e)
  {
  }

  /** The summary is a lone "." exactly when the text holds nothing but
      sentence marks and white space (the empty text included). */
  lemma SummaryOfEmptyText(text: String)
    ensures FallbackSummary(text) == "." <==>
      forall i :: 0 <= i < |text| ==> text[i] in SentenceMarks || IsSpace(text[i])
  {
    var fragments := SplitRuns(text, SentenceMarks);
    var nb := NonBlank(fragments);
    var kept := Take(nb, 2);
    ConcatBlank(fragments);
    RemoveBlank(text, SentenceMarks);
    if nb != [] {
      assert kept[0] == nb[0];
      JoinStartsWithFirst(kept, ". ");
      assert |kept[0]| > 0;
    }
  }

  /** A text with no sentence mark that is not blank is summarised as itself
      followed by a period. */
  lemma SummaryOfOneSentence(text: String)
    requires NoneIn(text, SentenceMarks) && !Blank(text)
    ensures FallbackSummary(text) == text + "."
  {
    SplitRunsNone(text, SentenceMarks);
    assert NonBlank([text]) == [text];
  }

  /** Only the first two sentences count: "a.b.c" is summarised as "a. b."
      whatever follows the second period. */
  lemma SummaryOfTwoSentences(a: String, b: String, c: String)
    requires NoneIn(a, SentenceMarks) && NoneIn(b, SentenceMarks)
    requires !Blank(a) && !Blank(b)
    requires |c| == 0 || c[0] !in SentenceMarks
    ensures FallbackSummary(a + ['.'] + b + ['.'] + c) == a + ". " + b + "."
  {
    var text := a + ['.'] + b + ['.'] + c;
    var rest := SplitRuns(c, SentenceMarks);
    TwoSentenceFragments(a, b, c);
    FirstTwoNonBlank(a, b, rest);
    JoinTwo(a, b, ". ");
  }

  lemma TwoSentenceFragments(a: String, b: String, c: String)
    requires NoneIn(a, SentenceMarks) && NoneIn(b, SentenceMarks) && |b| > 0
    requires |c| == 0 || c[0] !in SentenceMarks
    ensures SplitRuns(a + ['.'] + b + ['.'] + c, SentenceMarks) == [a, b] + SplitRuns(c, SentenceMarks)
  {
    TwoFragments(a, '.', b, c, SentenceMarks);
  }

  /** Two pieces each closed by one separator come off the front of a split. */
  lemma TwoFragments(a: String, m: char, b: String, c: String, d: set<char>)
    requires NoneIn(a, d) && NoneIn(b, d) && |b| > 0 && m in d
    requires |c| == 0 || c[0] !in d
    ensures SplitRuns(a + [m] + b + [m] + c, d) == [a, b] + SplitRuns(c, d)
  {
    var t := b + [m] + c;
    SplitRunsAfterMark(b, m, c, d);
    FirstOf(b, [m] + c);
    SplitRunsAfterMark(a, m, t, d);
    Regroup(a, [m], b, c, SplitRuns(c, d));
  }

  lemma FirstOf(b: String, c: String)
    requires |b| > 0
    ensures (b + c)[0] == b[0]
  {
  }

  lemma Regroup(a: String, m: String, b: String, c: String, r: seq<String>)
    ensures a + m + b + m + c == a + m + (b + m + c)
    ensures [a] + ([b] + r) == [a, b] + r
  {
  }

  lemma FirstTwoNonBlank(a: String, b: String, rest: seq<String>)
    requires !Blank(a) && !Blank(b)
    ensures Take(NonBlank([a, b] + rest), 2) == [a, b]
  {
    var f := [a, b] + rest;
    var g := [b] + rest;
    assert f[0] == a && f[1..] == g;
    assert g[0] == b && g[1..] == rest;
    assert NonBlank(f) == [a] + NonBlank(g);
    assert NonBlank(g) == [b] + NonBlank(rest);
  }

  lemma JoinTwo(a: String, b: String, d: String)
    ensures Join([a, b], d) == a + d + b
  {
    assert [a, b][1..] == [b];
  }

  // ---------------------------------------------------------------------------
  // keywords

  /** Lower-case ASCII letters and digits only. */
  predicate KeywordShaped(w: String) {
    forall i :: 0 <= i < |w| ==> IsLower(w[i]) || IsDigit(w[i])
  }

  predicate Distinct<T(==)>(xs: seq<T>) {
    forall i, j :: 0 <= i < j < |xs| ==> xs[i] != xs[j]
  }

  const DefaultKeywords: seq<String> := ["content", "notes", "information", "study", "personal"]

  /** `w.replace(/[^a-zA-Z0-9]/g, '').toLowerCase()`, character by character. */
  function Normalize(w: String): (r: String)
    ensures |r| <= |w|
    ensures KeywordShaped(r)
  {
    if |w| == 0 then ""
    else (if IsAlnum(w[0]) then [LowerChar(w[0])] else "") + Normalize(w[1..])
  }

  /** The raw tokens longer than four characters, normalized, with the ones
      that normalize to nothing dropped. The length test sees the raw token. */
  function Candidates(words: seq<String>): (r: seq<String>)
    ensures forall i :: 0 <= i < |r| ==> r[i] != "" && KeywordShaped(r[i])
  {
    if |words| == 0 then []
    else
      var w := words[0];
      (if Utf16Length(w) > 4 && Normalize(w) != "" then [Normalize(w)] else []) + Candidates(words[1..])
  }

  /** Every candidate is the normalized form of some raw token longer than four characters. */
  lemma {:induction false} CandidateOrigin(words: seq<String>, c: String)
    requires c in Candidates(words)
    ensures exists j :: 0 <= j < |words| && Utf16Length(words[j]) > 4 && c == Normalize(words[j])
  {
    var w := words[0];
    if Utf16Length(w) > 4 && Normalize(w) != "" && c == Normalize(w) {
      assert Utf16Length(words[0]) > 4 && c == Normalize(words[0]);
    } else {
      CandidateOrigin(words[1..], c);
      var j :| 0 <= j < |words[1..]| && Utf16Length(words[1..][j]) > 4 && c == Normalize(words[1..][j]);
      assert words[1..][j] == words[j + 1];
    }
  }

  /** The index of the first occurrence of `x`. */
  function FirstIndex<T(==)>(xs: seq<T>, x: T): (k: nat)
    requires x in xs
    ensures k < |xs| && xs[k] == x && x !in xs[..k]
  {
    if xs[0] == x then 0 else 1 + FirstIndex(xs[1..], x)
  }

  lemma FirstIndexIs<T>(xs: seq<T>, x: T, k: nat)
    requires k < |xs| && xs[k] == x && x !in xs[..k]
    ensures FirstIndex(xs, x) == k
  {
    var f := FirstIndex(xs, x);
    assert forall i :: 0 <= i < k ==> xs[..k][i] == xs[i];
    assert forall i :: 0 <= i < f ==> xs[..f][i] == xs[i];
  }

  /** `[...new Set(xs)]`: every element once, no others, in order of first occurrence. */
  function Dedupe(xs: seq<String>): (r: seq<String>)
    ensures Distinct(r)
    ensures forall x :: x in r <==> x in xs
    ensures forall i, j :: 0 <= i < j < |r| ==> FirstIndex(xs, r[i]) < FirstIndex(xs, r[j])
  {
    if |xs| == 0 then []
    else
      var n := |xs| - 1;
      var init := xs[..n];
      var p := Dedupe(init);
      var x := xs[n];
      assert xs == init + [x];
      forall y | y in init
        ensures FirstIndex(xs, y) == FirstIndex(init, y)
      {
        var k := FirstIndex(init, y);
        assert xs[..k] == init[..k];
        FirstIndexIs(xs, y, k);
      }
      if x in p then p
      else
        assert xs[..n] == init;
        FirstIndexIs(xs, x, n);
        p + [x]
  }

  /** `getFallbackKeywords(text)`: up to five distinct lower-case alphanumeric
      words, or the fixed default list when the text yields none. */
  function FallbackKeywords(text: String): (r: seq<String>)
    ensures 1 <= |r| <= 5
    ensures Distinct(r)
    ensures forall i :: 0 <= i < |r| ==> r[i] != "" && KeywordShaped(r[i])
  {
    var words := SplitRuns(text, Whitespace);
    var unique := Take(Dedupe(Candidates(words)), 5);
    KeptKeywordsShaped(Candidates(words));
    if |unique| > 0 then unique
    else
      DefaultKeywordsShaped();
      DefaultKeywords
  }

  lemma KeptKeywordsShaped(cs: seq<String>)
    requires forall i :: 0 <= i < |cs| ==> cs[i] != "" && KeywordShaped(cs[i])
    ensures Distinct(Take(Dedupe(cs), 5))
    ensures forall i :: 0 <= i < |Take(Dedupe(cs), 5)| ==>
      Take(Dedupe(cs), 5)[i] != "" && KeywordShaped(Take(Dedupe(cs), 5)[i])
  {
    var d := Dedupe(cs);
    var u := Take(d, 5);
    forall i | 0 <= i < |u|
      ensures u[i] != "" && KeywordShaped(u[i])
    {
      assert u[i] == d[i] && d[i] in d;
    }
  }

  lemma DefaultKeywordsShaped()
    ensures Distinct(DefaultKeywords)
    ensures forall i :: 0 <= i < |DefaultKeywords| ==>
      DefaultKeywords[i] != "" && KeywordShaped(DefaultKeywords[i])
  {
    assert DefaultKeywords[1][0] != DefaultKeywords[3][0];
  }

  /** Every raw token longer than four characters whose normalized form is
      not empty contributes that form. */
  lemma {:induction false} CandidateComplete(words: seq<String>, j: nat)
    requires j < |words| && Utf16Length(words[j]) > 4 && Normalize(words[j]) != ""
    ensures Normalize(words[j]) in Candidates(words)
  {
    if j > 0 {
      CandidateComplete(words[1..], j - 1);
      assert words[1..][j - 1] == words[j];
    }
  }

  /** The candidates are exactly the non-empty normalized forms of the raw
      tokens longer than four characters. */
  lemma CandidatesAre(words: seq<String>, x: String)
    ensures x in Candidates(words) <==>
      x != "" && exists j :: 0 <= j < |words| && Utf16Length(words[j]) > 4 && Normalize(words[j]) == x
  {
    if x in Candidates(words) {
      CandidateOrigin(words, x);
    }
    if x != "" && exists j :: 0 <= j < |words| && Utf16Length(words[j]) > 4 && Normalize(words[j]) == x {
      var j :| 0 <= j < |words| && Utf16Length(words[j]) > 4 && Normalize(words[j]) == x;
      CandidateComplete(words, j);
    }
  }

  /** `[...new Set(c)].slice(0, 5)` is the first five distinct values of `c`:
      all of them from `c`, none twice, in order of first appearance, and any
      value of `c` left out appears first after the fifth one kept. */
  lemma FirstFiveDistinct(c: seq<String>)
    requires c != []
    ensures var r := Take(Dedupe(c), 5);
      && 1 <= |r| <= 5 && Distinct(r)
      && (forall i :: 0 <= i < |r| ==> r[i] in c)
      && (forall i, j :: 0 <= i < j < |r| ==> FirstIndex(c, r[i]) < FirstIndex(c, r[j]))
      && (forall x :: x in c && x !in r ==> |r| == 5 && FirstIndex(c, r[4]) < FirstIndex(c, x))
  {
    FirstFiveSound(c);
    forall x | x in c && x !in Take(Dedupe(c), 5)
      ensures |Take(Dedupe(c), 5)| == 5 && FirstIndex(c, Take(Dedupe(c), 5)[4]) < FirstIndex(c, x)
    {
      FirstFiveComplete(c, x);
    }
  }

  lemma FirstFiveSound(c: seq<String>)
    requires c != []
    ensures var r := Take(Dedupe(c), 5);
      && 1 <= |r| <= 5 && Distinct(r)
      && (forall i :: 0 <= i < |r| ==> r[i] in c)
      && (forall i, j :: 0 <= i < j < |r| ==> FirstIndex(c, r[i]) < FirstIndex(c, r[j]))
  {
    var d := Dedupe(c);
    var r := Take(d, 5);
    assert c[0] in d;
    assert forall i :: 0 <= i < |r| ==> r[i] == d[i] && d[i] in d;
  }

  lemma FirstFiveComplete(c: seq<String>, x: String)
    requires x in c && x !in Take(Dedupe(c), 5)
    ensures var r := Take(Dedupe(c), 5);
      |r| == 5 && r[4] in c && FirstIndex(c, r[4]) < FirstIndex(c, x)
  {
    var d := Dedupe(c);
    var r := Take(d, 5);
    var k := FirstIndex(d, x);
    assert forall i :: 0 <= i < |r| ==> r[i] == d[i];
    assert |r| <= k;
    assert r[4] == d[4] && d[4] in d;
  }

  /** `getFallbackKeywords(text)`: the default list when no raw token gives a
      candidate, and otherwise the first five distinct candidates, in order of
      first appearance. */
  lemma FallbackKeywordsAreFirstFive(text: String)
    ensures var c := Candidates(SplitRuns(text, Whitespace)); var r := FallbackKeywords(text);
      && (c == [] ==> r == DefaultKeywords)
      && (c != [] ==>
        && (forall i :: 0 <= i < |r| ==> r[i] in c)
        && (forall i, j :: 0 <= i < j < |r| ==> FirstIndex(c, r[i]) < FirstIndex(c, r[j]))
        && (forall x :: x in c && x !in r ==> |r| == 5 && FirstIndex(c, r[4]) < FirstIndex(c, x)))
  {
    var c := Candidates(SplitRuns(text, Whitespace));
    if c != [] {
      FirstFiveDistinct(c);
    }
  }

  /** A text that is one token longer than four characters yields that
      token's normalized form alone, when that is not empty. */
  lemma SingleTokenKeywords(w: String)
    requires NoneIn(w, Whitespace) && Utf16Length(w) > 4 && Normalize(w) != ""
    ensures FallbackKeywords(w) == [Normalize(w)]
  {
    SplitRunsNone(w, Whitespace);
    assert Candidates([w]) == [Normalize(w)];
    DedupeSingle(Normalize(w));
  }

  /** The length test applies to the raw token: "(abc)" passes it with five
      characters and contributes "abc", shorter than the limit. */
  lemma KeywordLengthTestIsOnRawToken()
    ensures FallbackKeywords("(abc)") == ["abc"]
  {
    NormalizeParenthesized();
    ParenthesizedIsOneToken();
    SingleTokenKeywords("(abc)");
  }

  lemma ParenthesizedIsOneToken()
    ensures NoneIn("(abc)", Whitespace)
  {
    forall i | 0 <= i < 5
      ensures "(abc)"[i] !in Whitespace
    {
      assert "(abc)"[i] as int < 0x100 && "(abc)"[i] as int > 0x20;
    }
  }

  lemma DedupeSingle(x: String)
    ensures Dedupe([x]) == [x]
  {
    assert [x][..0] == [];
  }

  lemma NormalizeParenthesized()
    ensures Normalize("(abc)") == "abc"
  {
    assert Normalize(")") == "";
    assert Normalize("c)") == "c";
    assert Normalize("bc)") == "bc";
    assert Normalize("abc)") == "abc";
  }

  // ---------------------------------------------------------------------------
  // tone

  /** `analyzeToneFallback(text)`. The word and sentence counts are the raw
      numbers of pieces of the two splits, empty pieces included; the "i " test
      looks for a substring of the lower-cased text, not for the word "I". */
  function ToneFallback(text: String): (t: Tone)
    ensures t != Technical
  {
    var wordCount := |SplitRuns(text, Whitespace)|;
    var sentenceCount := |SplitRuns(text, SentenceMarks)|;
    if wordCount > 200 && sentenceCount > 8 then Academic
    else if '!' in text || Contains(Lower(text), "i ") || '?' in text then Casual
    else Formal
  }

  /** The lower-cased "i " test holds exactly when an 'i' or 'I' is directly
      followed by a space somewhere in the text. */
  lemma LowerITest(text: String)
    ensures Contains(Lower(text), "i ") <==>
      exists k :: 0 <= k < |text| - 1 && (text[k] == 'i' || text[k] == 'I') && text[k + 1] == ' '
  {
    var l := Lower(text);
    if Contains(l, "i ") {
      var k :| 0 <= k <= |l| && OccursAt(l, "i ", k);
      assert l[k] == "i "[0] && l[k + 1] == "i "[1];
      assert LowerChar(text[k]) == 'i';
      assert text[k] == 'i' || text[k] == 'I';
      assert text[k + 1] == ' ';
    }
    if exists k :: 0 <= k < |text| - 1 && (text[k] == 'i' || text[k] == 'I') && text[k + 1] == ' ' {
      var k :| 0 <= k < |text| - 1 && (text[k] == 'i' || text[k] == 'I') && text[k + 1] == ' ';
      assert l[k..k + 2] == "i ";
      assert OccursAt(l, "i ", k);
    }
  }

  /** A text of fewer than 200 characters is never classed as academic: it
      cannot have more than 200 words. */
  lemma ShortTextIsNotAcademic(text: String)
    requires |text| < 200
    ensures ToneFallback(text) != Academic
  {
  }

  /** "Hi there" has no word "I", but the lower-cased text contains "i ", so
      the tone is casual. */
  lemma ToneTestIsSubstring()
    ensures ToneFallback("Hi there") == Casual
  {
    LowerITest("Hi there");
    assert "Hi there"[1] == 'i' && "Hi there"[2] == ' ';
  }

  // ---------------------------------------------------------------------------
  // questions and simplification

  // Each question is written as short literals so that the verifier can read
  // its characters.
  const FallbackQuestions: seq<String> := [
    "What is the main topic " + "discussed in this text" + "?",
    "What are the key points or " + "important information presented" + "?",
    "How can this information be " + "applied or used in practice" + "?"
  ]

  /** A question as the service emits it: longer than eleven code units, with
      a single '?', in last position. */
  predicate QuestionShaped(q: String) {
    Utf16Length(q) > 11 && |q| > 0 && q[|q| - 1] == '?' && '?' !in q[..|q| - 1]
  }

  /** `getFallbackQuestions()` gives three well-formed questions whatever the text. */
  lemma FallbackQuestionsShaped()
    ensures |FallbackQuestions| == 3
    ensures forall i :: 0 <= i < 3 ==> QuestionShaped(FallbackQuestions[i])
  {
    AskShaped("What is the main topic ", "discussed in this text");
    AskShaped("What are the key points or ", "important information presented");
    AskShaped("How can this information be ", "applied or used in practice");
  }

  /** Two pieces free of '?' followed by one '?' make a question. */
  lemma AskShaped(a: String, b: String)
    requires |a| + |b| > 10 && '?' !in a && '?' !in b
    ensures QuestionShaped(a + b + "?")
  {
    var q := a + b + "?";
    assert q[..|q| - 1] == a + b;
    Utf16LengthAppend(a + b, "?");
  }

  /** `getFallbackSimplified(text)`: a text of at most 200 characters is kept
      whole; a longer one is cut to its first 200 characters and "..." is
      appended, giving exactly 203 characters. */
  function FallbackSimplified(text: String): (r: String)
    ensures |text| <= 200 ==> r == text
    ensures |text| > 200 ==> |r| == 203 && r[..200] == text[..200] && r[200..] == "..."
  {
    if |text| <= 200 then text else text[..200] + "..."
  }
}

=== FILE: model_client.dfy ===
/** The model client of the AI service (`queryModel` and `testConnection` in
    backend/services/aiService.js). The network is not modelled: each HTTP
    exchange with the provider is an input value, and a call is fed the
    exchanges it would see, one per attempt. */
module ModelClient {
  import opened Wrappers
  import opened Text

  /** One `{label, score}` entry of a sentiment reply; scores are modelled as integers. */
  datatype Score = Score(labelName: Option<String>, score: int)

  /** The fields of a provider reply that the analysis reads: `[0].summary_text`,
      `generated_text` and the label/score list `[0]`. */
  datatype Payload = Payload(
    summaryText: Option<String>,
    generatedText: Option<String>,
    scores: Option<seq<Score>>)

  /** The reply body, whose `error` field may say that the model is still loading. */
  datatype Reply = Reply(error: Option<String>, data: Payload)

  /** An axios failure: the HTTP status of the response if there was one, the
      error code, and the message. */
  datatype AxiosError = AxiosError(status: Option<int>, code: Option<String>, message: String)

  /** One attempt: the provider answered, or axios raised. */
  datatype Exchange = Answered(reply: Reply) | Raised(failure: AxiosError)

  /** What one call of `queryModel` ends in: the reply data, or a thrown message. */
  datatype Outcome = Ok(payload: Payload) | Fail(message: String)

  /** The error taxonomy that `queryModel`'s messages encode. */
  datatype ErrorKind = ServiceLoading | AuthInvalid | RateLimited | Timeout | Unknown

  const LoadingMessage: String := "AI model is currently loading." + " Please try again in 30-60 seconds."
  const AuthMessage: String := "Invalid Hugging Face token." + " Please check your API token."
  const RateLimitMessage: String := "Rate limit exceeded." + " Please wait a moment and try again."
  const TimeoutMessage: String := "AI service timeout. Please try again."
  // The longer messages are written as two sentences so that the verifier can
  // read their characters.
  const UnknownPrefix: String := "AI service error: "
  const Suggestion: String := "Please check your Hugging Face token and internet connection."

  /** A reply whose `error` text contains "loading" makes `queryModel` retry. */
  predicate IsLoading(x: Exchange) {
    x.Answered? && x.reply.error.Some? && Contains(x.reply.error.value, "loading")
  }

  /** The kind of an axios failure: HTTP status first, then the error code. */
  function Classify(e: AxiosError): (k: ErrorKind)
    ensures k == ServiceLoading <==> e.status == Some(503)
    ensures k == AuthInvalid <==> e.status == Some(401)
    ensures k == RateLimited <==> e.status == Some(429)
    ensures k == Timeout <==>
      e.status != Some(503) && e.status != Some(401) && e.status != Some(429)
      && e.code == Some("ECONNABORTED")
  {
    if e.status == Some(503) then ServiceLoading
    else if e.status == Some(401) then AuthInvalid
    else if e.status == Some(429) then RateLimited
    else if e.code == Some("ECONNABORTED") then Timeout
    else Unknown
  }

  /** The message `queryModel` throws for an axios failure. */
  function ErrorMessage(e: AxiosError): (m: String)
    ensures m != ""
  {
    match Classify(e)
    case ServiceLoading => LoadingMessage
    case AuthInvalid => AuthMessage
    case RateLimited => RateLimitMessage
    case Timeout => TimeoutMessage
    case Unknown => UnknownPrefix + e.message
  }

  /** Reads the kind back from a thrown message. */
  function KindOfMessage(m: String): ErrorKind
  {
    if m == LoadingMessage then ServiceLoading
    else if m == AuthMessage then AuthInvalid
    else if m == RateLimitMessage then RateLimited
    else if m == TimeoutMessage then Timeout
    else Unknown
  }

  /** No fixed message starts with the "AI service error: " prefix. */
  lemma PrefixedIsUnknown(m: String)
    requires |m| >= |UnknownPrefix| && m[..|UnknownPrefix|] == UnknownPrefix
    ensures KindOfMessage(m) == Unknown
  {
    assert m[3] == UnknownPrefix[3] == 's';
    assert m[11] == UnknownPrefix[11] == 'e';
    assert LoadingMessage[3] == 'm';
    assert AuthMessage[3] == 'a';
    assert RateLimitMessage[3] == 'e';
    assert TimeoutMessage[11] == 't';
  }

  /** The five messages are told apart: the kind can be read back from the
      message alone. */
  lemma MessageDeterminesKind(e: AxiosError)
    ensures KindOfMessage(ErrorMessage(e)) == Classify(e)
  {
    if Classify(e) == Unknown {
      PrefixedIsUnknown(ErrorMessage(e));
    } else {
      assert LoadingMessage[0] == 'A' && LoadingMessage[3] == 'm';
      assert AuthMessage[0] == 'I' && RateLimitMessage[0] == 'R';
      assert TimeoutMessage[3] == 's';
    }
  }

  /** The number of leading "loading" replies. */
  function LoadingRun(xs: seq<Exchange>): (k: nat)
    ensures k <= |xs|
    ensures forall i :: 0 <= i < k ==> IsLoading(xs[i])
    ensures k < |xs| ==> !IsLoading(xs[k])
  {
    if |xs| > 0 && IsLoading(xs[0]) then 1 + LoadingRun(xs[1..]) else 0
  }

  /** `queryModel(model, inputs)` fed the exchanges of its attempts in order.
      A "loading" reply makes it call itself again (the wait is not modelled).
      The retry's promise is returned without being awaited, so its rejection
      passes by the enclosing `catch`: the caller sees the retry's own message,
      however many retries came before it. `None` means the exchanges ran out
      while the provider was still loading: the source has no retry cap and
      would keep trying. */
  function QueryModel(xs: seq<Exchange>): (r: Option<Outcome>)
    ensures r == None <==> LoadingRun(xs) == |xs|
    ensures r.Some? ==>
      var k := LoadingRun(xs);
      match xs[k]
      case Answered(reply) => r.value == Ok(reply.data)
      case Raised(e) => r.value == Fail(ErrorMessage(e))
    decreases |xs|
  {
    if |xs| == 0 then None
    else match xs[0]
      case Raised(e) => Some(Fail(ErrorMessage(e)))
      case Answered(reply) =>
        if IsLoading(xs[0]) then
          match QueryModel(xs[1..])
          case None => None
          case Some(Ok(p)) => Some(Ok(p))
          case Some(Fail(m)) => Some(Fail(m))
        else Some(Ok(reply.data))
  }

  /** Whatever number of "loading" replies came first, a failure reaches the
      caller with the kind of the exchange that failed: an expired token after
      a loading reply still reads as an authentication error. */
  lemma {:induction false} FailureKeepsKind(xs: seq<Exchange>)
    requires QueryModel(xs).Some? && QueryModel(xs).value.Fail?
    ensures xs[LoadingRun(xs)].Raised?
    ensures KindOfMessage(QueryModel(xs).value.message) == Classify(xs[LoadingRun(xs)].failure)
  {
    MessageDeterminesKind(xs[LoadingRun(xs)].failure);
  }

  /** The shape `testConnection` returns. */
  datatype TestResult =
    | Connected(data: Payload)
    | Disconnected(error: String, suggestion: String)

  /** `testConnection()`: one `queryModel` call on a fixed sentence; every
      failure becomes a negative result carrying the message and a fixed
      remediation hint, so it never throws. */
  function TestConnection(xs: seq<Exchange>): (r: Option<TestResult>)
    ensures r.None? <==> QueryModel(xs).None?
    ensures r.Some? && r.value.Disconnected? ==>
      QueryModel(xs) == Some(Fail(r.value.error)) && r.value.error != ""
      && r.value.suggestion == Suggestion
    ensures r.Some? && r.value.Connected? ==> QueryModel(xs) == Some(Ok(r.value.data))
  {
    match QueryModel(xs)
    case None => None
    case Some(Ok(p)) => Some(Connected(p))
    case Some(Fail(m)) => Some(Disconnected(m, Suggestion))
  }
}

=== FILE: note_controller.dfy ===
/** The note handlers of backend/controllers/noteController.js: the query,
    sort and paging that `getNotes` builds, the ownership check shared by the
    single-note handlers, and the effects of `createNote`, `updateNote`,
    `deleteNote` and `togglePin` on the store. The store is the sequence of
    stored notes; what MongoDB does with a query (`$text` matching, sorting)
    is an input. The query-string values `page` and `limit` are taken as
    already read as integers. */
module NoteController {
  import opened Wrappers
  import opened Text
  import opened NoteSchema
  import opened Sorting

  type Store = seq<Note>

  /** A handler's response: a success with its message and data, or a failure
      with its status code and error text. */
  datatype Response<T> =
    | Respond(code: int, message: String, data: T)
    | Refuse(code: int, error: String)

  /** The response together with the store after the handler ran. */
  datatype Effect<T> = Effect(response: Response<T>, store: Store)

  const NotFound: String := "Note not found"

  // ---------------------------------------------------------------------------
  // getNotes: query, sort, paging

  /** The query-string parameters of `GET /api/notes`; `None` is a parameter
      left out of the URL. */
  datatype ListParams = ListParams(
    page: Option<int>,
    limit: Option<int>,
    category: Option<String>,
    search: Option<String>,
    pinned: Option<String>,
    sortBy: Option<String>,
    sortOrder: Option<String>)

  /** The MongoDB filter `getNotes` builds. */
  datatype Query = Query(user: String, category: Option<String>, pinnedOnly: bool, search: Option<String>)

  /** The filter: always the requesting user; the category unless it is absent,
      empty or "all"; only pinned notes when `pinned` is exactly "true"; a text
      search when `search` is non-empty. */
  function QueryOf(user: String, p: ListParams): (q: Query)
    ensures q.user == user
    ensures q.category.Some? <==> p.category.Some? && p.category.value !in {"", "all"}
    ensures q.category.Some? ==> q.category == p.category
    ensures q.pinnedOnly <==> p.pinned == Some("true")
    ensures q.search.Some? <==> p.search.Some? && p.search.value != ""
    ensures q.search.Some? ==> q.search == p.search
  {
    Query(
      user,
      if p.category.Some? && p.category.value != "" && p.category.value != "all" then p.category else None,
      p.pinned == Some("true"),
      if p.search.Some? && p.search.value != "" then p.search else None)
  }

  /** Whether a note satisfies the filter. What `$text` matches is decided by
      MongoDB's text index and is the input `textHit`. */
  predicate Matches(q: Query, n: Note, textHit: Note -> bool) {
    n.user == q.user
    && (q.category.Some? ==> n.category == q.category.value)
    && (q.pinnedOnly ==> n.isPinned)
    && (q.search.Some? ==> textHit(n))
  }

  /** The notes of the store that satisfy the filter, in store order. */
  function Filter(store: Store, q: Query, textHit: Note -> bool): (r: Store)
    ensures |r| <= |store|
    ensures forall i :: 0 <= i < |r| ==> r[i] in store && Matches(q, r[i], textHit)
  {
    if |store| == 0 then []
    else
      (if Matches(q, store[0], textHit) then [store[0]] else [])
      + Filter(store[1..], q, textHit)
  }

  /** Every matching note of the store is kept. */
  lemma {:induction false} FilterComplete(store: Store, q: Query, textHit: Note -> bool, n: Note)
    requires n in store && Matches(q, n, textHit)
    ensures n in Filter(store, q, textHit)
  {
    if store[0] != n {
      FilterComplete(store[1..], q, textHit, n);
    }
  }

  /** The sort `getNotes` asks for: a field and a direction. */
  datatype Sort = Sort(field: String, direction: int)

  /** `sortBy` defaults to "updatedAt"; the direction is descending (-1)
      exactly when `sortOrder` is "desc", which is also the default. */
  function SortOf(p: ListParams): (s: Sort)
    ensures s.field == p.sortBy.GetOr("updatedAt")
    ensures s.direction in {-1, 1}
    ensures s.direction == -1 <==> p.sortOrder.None? || p.sortOrder == Some("desc")
  {
    Sort(p.sortBy.GetOr("updatedAt"), if p.sortOrder.GetOr("desc") == "desc" then -1 else 1)
  }

  /** `Math.abs`. */
  function Abs(x: int): nat {
    if x < 0 then -x else x
  }

  /** `.limit(limit).skip(skip)` on the sorted matches: drop `skip` notes, then
      keep `limit` of them. MongoDB reads a limit of 0 as "no limit" and a
      negative limit as its absolute value. */
  function Window(sorted: Store, skip: nat, limit: int): (r: Store)
    ensures limit != 0 ==> |r| <= Abs(limit)
    ensures skip <= |sorted| ==> skip + |r| <= |sorted| && r == sorted[skip..skip + |r|]
    ensures skip >= |sorted| ==> r == []
    ensures limit == 0 ==> r == sorted[Min(skip, |sorted|)..]
  {
    var rest := if skip <= |sorted| then sorted[skip..] else [];
    if limit == 0 then rest else Take(rest, Abs(limit))
  }

  function Min(a: nat, b: nat): nat {
    if a <= b then a else b
  }

  /** `Math.ceil(total / limit)`: a whole number for a non-zero limit; for a
      zero limit JavaScript gives `Infinity`, or `NaN` when there are no notes. */
  datatype PageCount = Pages(n: int) | Infinite | NotANumber

  /** Ceiling division, for a positive divisor. */
  function CeilDiv(total: nat, limit: nat): (k: nat)
    requires limit > 0
  {
    (total + limit - 1) / limit
  }

  /** The number of pages: the least number of `limit`-sized pages that hold
      all `total` notes. */
  lemma {:induction false} CeilDivIsLeast(total: nat, limit: nat)
    requires limit > 0
    ensures CeilDiv(total, limit) * limit >= total
    ensures CeilDiv(total, limit) > 0 ==> (CeilDiv(total, limit) - 1) * limit < total
    ensures CeilDiv(total, limit) == 0 <==> total == 0
  {
    var k := CeilDiv(total, limit);
    var m := total + limit - 1;
    assert m == k * limit + m % limit;
    assert m % limit < limit;
  }

  /** `Math.ceil(total / limit)`: for a non-zero limit, the least whole number
      of pages of `limit` notes that reaches `total`. */
  function TotalPages(total: nat, limit: int): (r: PageCount)
    ensures limit > 0 ==> r.Pages? && r.n * limit >= total && (r.n - 1) * limit < total
    ensures limit < 0 ==> r.Pages? && r.n * limit <= total && (r.n - 1) * limit > total
    ensures limit == 0 ==> (r == Infinite <==> total > 0) && (r == NotANumber <==> total == 0)
  {
    if limit > 0 then
      CeilDivIsLeast(total, limit);
      Pages(CeilDiv(total, limit))
    else if limit < 0 then
      NegativeLimitPages(total, limit);
      Pages(-(total / Abs(limit)))
    else if total > 0 then Infinite
    else NotANumber
  }

  /** With a negative limit the quotient is negative and rounds up towards 0. */
  lemma {:induction false} NegativeLimitPages(total: nat, limit: int)
    requires limit < 0
    ensures -(total / Abs(limit)) * limit <= total
    ensures (-(total / Abs(limit)) - 1) * limit > total
  {
    var d := Abs(limit);
    var q := total / d;
    assert total == q * d + total % d;
    assert -q * limit == q * d;
    assert (-q - 1) * limit == q * d + d;
  }

  /** `page < totalPages`, with JavaScript's comparisons against `Infinity` and `NaN`. */
  predicate Below(page: int, pages: PageCount) {
    match pages
    case Pages(n) => page < n
    case Infinite => true
    case NotANumber => false
  }

  datatype Pagination = Pagination(
    currentPage: int,
    totalPages: PageCount,
    totalNotes: nat,
    hasNext: bool,
    hasPrev: bool)

  /** The `pagination` object of the list response. With a zero limit every
      page but an empty list's has a next one, because `page < Infinity`. */
  function PaginationOf(page: int, limit: int, total: nat): (r: Pagination)
    ensures r.currentPage == page && r.totalNotes == total
    ensures limit > 0 ==> (r.hasNext <==> page * limit < total)
    ensures limit == 0 ==> (r.hasNext <==> total > 0)
    ensures r.hasPrev <==> page > 1
  {
    var pages := TotalPages(total, limit);
    var r := Pagination(page, pages, total, Below(page, pages), page > 1);
    if limit > 0 then HasNextIffMoreNotes(page, limit, total); r else r
  }

  /** For a positive limit there is a next page exactly when the notes do not
      all fit on the pages up to this one; no notes means no pages. */
  lemma {:induction false} HasNextIffMoreNotes(page: int, limit: int, total: nat)
    requires limit > 0
    ensures Below(page, TotalPages(total, limit)) <==> page * limit < total
    ensures total == 0 ==> TotalPages(total, limit) == Pages(0)
  {
    var k: int := CeilDiv(total, limit);
    CeilDivIsLeast(total, limit);
    if page < k {
      var below: int := k - 1;
      MulMonotone(page, below, limit);
    } else {
      MulMonotone(k, page, limit);
    }
  }

  lemma MulMonotone(a: int, b: int, c: nat)
    requires a <= b
    ensures a * c <= b * c
  {
  }

  /** With a positive limit, a next page is announced exactly when the next
      window of notes is non-empty. */
  lemma NextPageIsNonEmpty(sorted: Store, page: int, limit: int)
    requires limit > 0 && page >= 1
    ensures PaginationOf(page, limit, |sorted|).hasNext <==> Window(sorted, page * limit, limit) != []
  {
    HasNextIffMoreNotes(page, limit, |sorted|);
    assert page * limit >= 0 by { MulMonotone(0, page, limit); }
    if page * limit < |sorted| {
      assert Window(sorted, page * limit, limit)[0] == sorted[page * limit];
    }
  }

  /** What `getNotes` returns. */
  datatype NoteList = NoteList(notes: Store, pagination: Pagination)

  /** The matching notes in the requested order. `rank` is the order MongoDB
      gives the values of a sort field, as an integer. */
  function Listed(store: Store, user: String, p: ListParams, textHit: Note -> bool,
                  rank: (String, Note) -> int): (r: Store)
    ensures multiset(r) == multiset(Filter(store, QueryOf(user, p), textHit))
  {
    var s := SortOf(p);
    SortDesc(Filter(store, QueryOf(user, p), textHit), (n: Note) => -s.direction * rank(s.field, n))
  }

  /** `getNotes`. A negative skip, which a page below 1 produces, makes
      MongoDB fail and the handler answer 500. */
  function GetNotes(store: Store, user: String, p: ListParams, textHit: Note -> bool,
                    rank: (String, Note) -> int): (r: Response<NoteList>)
    ensures r.Refuse? <==> (p.page.GetOr(1) - 1) * p.limit.GetOr(10) < 0
    ensures r.Refuse? ==> r.code == 500
    ensures r.Respond? ==>
      && r.data.pagination == PaginationOf(p.page.GetOr(1), p.limit.GetOr(10),
           |Filter(store, QueryOf(user, p), textHit)|)
      && (p.limit.GetOr(10) != 0 ==> |r.data.notes| <= Abs(p.limit.GetOr(10)))
      && r.data.notes == Window(Listed(store, user, p, textHit, rank),
           (p.page.GetOr(1) - 1) * p.limit.GetOr(10), p.limit.GetOr(10))
  {
    var page := p.page.GetOr(1);
    var limit := p.limit.GetOr(10);
    var skip := (page - 1) * limit;
    var matches := Listed(store, user, p, textHit, rank);
    if skip < 0 then Refuse(500, "Failed to fetch notes")
    else Respond(200, "", NoteList(Window(matches, skip, limit), PaginationOf(page, limit, |matches|)))
  }

  /** Every listed note is a stored note of the requester that passes the
      filter, and with a zero limit and the first page every such note is listed. */
  lemma ListedNotesMatch(store: Store, user: String, p: ListParams, textHit: Note -> bool,
                         rank: (String, Note) -> int)
    requires GetNotes(store, user, p, textHit, rank).Respond?
    ensures var notes := GetNotes(store, user, p, textHit, rank).data.notes;
      forall i :: 0 <= i < |notes| ==>
        notes[i] in store && notes[i].user == user && Matches(QueryOf(user, p), notes[i], textHit)
    ensures p.limit == Some(0) && p.page.GetOr(1) == 1 ==>
      forall n :: n in store && Matches(QueryOf(user, p), n, textHit) ==>
        n in GetNotes(store, user, p, textHit, rank).data.notes
  {
    var q := QueryOf(user, p);
    var matches := Filter(store, q, textHit);
    var listed := Listed(store, user, p, textHit, rank);
    var notes := GetNotes(store, user, p, textHit, rank).data.notes;
    forall i | 0 <= i < |notes|
      ensures notes[i] in store && Matches(q, notes[i], textHit)
    {
      assert notes[i] in listed;
      assert notes[i] in multiset(matches);
    }
    if p.limit == Some(0) && p.page.GetOr(1) == 1 {
      assert notes == listed;
      forall n | n in store && Matches(q, n, textHit)
        ensures n in notes
      {
        FilterComplete(store, q, textHit, n);
        assert n in multiset(listed);
      }
    }
  }

  // ---------------------------------------------------------------------------
  // ownership

  /** The value of a hexadecimal digit of either case. */
  function HexDigitValue(c: char): (v: Option<nat>)
    ensures v.Some? ==> v.value < 16
  {
    if '0' <= c <= '9' then Some(c as nat - '0' as nat)
    else if 'a' <= c <= 'f' then Some(c as nat - 'a' as nat + 10)
    else if 'A' <= c <= 'F' then Some(c as nat - 'A' as nat + 10)
    else None
  }

  /** A 24-digit hexadecimal string, the shape of an ObjectId that the cast of
      `_id` accepts: twelve bytes, two digits each. */
  function IsObjectId(id: String): (b: bool)
    ensures b <==> |id| == 24 && forall i :: 0 <= i < |id| ==> HexDigitValue(id[i]).Some?
  {
    |id| == 24 && forall i :: 0 <= i < 24 ==> IsDigit(id[i]) || 'a' <= id[i] <= 'f' || 'A' <= id[i] <= 'F'
  }

  /** What `Note.findOne({ _id: id, user })` gives. */
  datatype Lookup = Found(note: Note) | Missing | CastFailed

  /** The first note with that id and owner; an id of the wrong shape makes
      the cast fail. */
  function FindOwned(store: Store, id: String, user: String): (r: Lookup)
    ensures r.CastFailed? <==> !IsObjectId(id)
    ensures r.Found? ==> r.note in store && r.note.id == id && r.note.user == user
    ensures r.Missing? ==> forall i :: 0 <= i < |store| ==> !(store[i].id == id && store[i].user == user)
  {
    if !IsObjectId(id) then CastFailed
    else if |store| == 0 then Missing
    else if store[0].id == id && store[0].user == user then Found(store[0])
    else
      var r := FindOwned(store[1..], id, user);
      assert forall i :: 1 <= i < |store| ==> store[i] == store[1..][i - 1];
      r
  }

  /** `getNote`: the note, or 404 "Note not found" both when nobody's note has
      that id for this user and when the id is not an ObjectId. */
  function GetNote(store: Store, id: String, user: String): (r: Response<Note>)
    ensures r.Respond? ==> r.code == 200 && r.data in store && r.data.id == id && r.data.user == user
    ensures r.Refuse? ==> r.code == 404 && r.error == NotFound
    ensures r.Refuse? <==> !IsObjectId(id) || forall i :: 0 <= i < |store| ==>
      !(store[i].id == id && store[i].user == user)
  {
    match FindOwned(store, id, user)
    case Found(n) => Respond(200, "", n)
    case _ => Refuse(404, NotFound)
  }

  /** Another user's note is never shown: asking for it looks exactly like
      asking for a note that does not exist. */
  lemma OthersNotesAreHidden(store: Store, id: String, user: String)
    requires forall i :: 0 <= i < |store| && store[i].id == id ==> store[i].user != user
    ensures GetNote(store, id, user) == Refuse(404, NotFound)
  {
  }

  // ---------------------------------------------------------------------------
  // createNote

  /** The body fields `createNote` reads. */
  datatype CreateBody = CreateBody(
    title: Option<String>,
    content: Option<String>,
    category: Option<String>,
    tags: Option<seq<String>>,
    isPinned: Option<bool>)

  /** `category || 'Study'`: JavaScript's `||` also replaces the empty string. */
  function CategoryOr(c: Option<String>): (r: String)
    ensures r == DefaultCategory || (c.Some? && r == c.value)
    ensures r == DefaultCategory <==> c.None? || c.value == "" || c.value == DefaultCategory
  {
    if c.Some? && c.value != "" then c.value else DefaultCategory
  }

  /** `createNote`: the draft with the defaults and the requester as owner,
      saved under the fresh id `newId`; a failed validation is a 500. */
  function CreateNote(store: Store, body: CreateBody, user: String, newId: String): (r: Effect<Note>)
    ensures r.response.Respond? ==>
      && r.response.code == 201
      && r.store == store + [r.response.data]
      && ValidNote(r.response.data)
      && r.response.data.user == user
      && r.response.data.id == newId
      && r.response.data.category == CategoryOr(body.category)
      && r.response.data.isPinned == (body.isPinned == Some(true))
      && r.response.data.aiAnalysis.None?
    ensures r.response.Refuse? ==> r.response.code == 500 && r.store == store
  {
    var d := Draft(body.title, body.content, Some(CategoryOr(body.category)),
      body.tags.GetOr([]), Some(user), Some(body.isPinned == Some(true)), None);
    match Save(d, newId)
    case Stored(n) => Effect(Respond(201, "Note created successfully", n), store + [n])
    case Invalid(_) => Effect(Refuse(500, "Failed to create note"), store)
  }

  /** Leaving out category, tags and pin gives a Study note without tags,
      unpinned, owned by the requester. */
  lemma CreateDefaults(store: Store, title: String, content: String, user: String, newId: String)
    requires Trimmed(title) && title != "" && Utf16Length(title) <= 200
    requires content != "" && Utf16Length(content) <= 10000
    ensures var r := CreateNote(store, CreateBody(Some(title), Some(content), None, None, None), user, newId);
      r.response == Respond(201, "Note created successfully",
        Note(newId, user, title, content, "Study", [], false, None))
  {
    TrimOfTrimmed(title);
    assert TrimTags([]) == [];
  }

  // ---------------------------------------------------------------------------
  // updateNote

  /** The body of `PUT /api/notes/:id`. It is applied wholesale, so any schema
      path it names is updated: the owner `user` and the `aiAnalysis`
      sub-document included. For `aiAnalysis`, `Some(None)` is a body that
      sets it to null. */
  datatype Patch = Patch(
    title: Option<String>,
    content: Option<String>,
    category: Option<String>,
    tags: Option<seq<String>>,
    isPinned: Option<bool>,
    user: Option<String>,
    aiAnalysis: Option<Option<StoredAnalysis>>)

  /** The note with the named paths replaced, after the `trim` setters. The
      document keeps its id, and a path the body does not name keeps its value. */
  function Apply(n: Note, b: Patch): (r: Note)
    ensures r.id == n.id
    ensures b.title.Some? ==> Trimmed(r.title) && r.title == Trim(b.title.value)
    ensures b.content.Some? ==> r.content == b.content.value
    ensures b.category.Some? ==> r.category == b.category.value
    ensures b.tags.Some? ==> r.tags == TrimTags(b.tags.value)
    ensures b.isPinned.Some? ==> r.isPinned == b.isPinned.value
    ensures b.user.Some? ==> r.user == b.user.value
    ensures b.aiAnalysis.Some? ==> r.aiAnalysis == b.aiAnalysis.value
    ensures b.title.None? ==> r.title == n.title
    ensures b.content.None? ==> r.content == n.content
    ensures b.category.None? ==> r.category == n.category
    ensures b.tags.None? ==> r.tags == n.tags
    ensures b.isPinned.None? ==> r.isPinned == n.isPinned
    ensures b.user.None? ==> r.user == n.user
    ensures b.aiAnalysis.None? ==> r.aiAnalysis == n.aiAnalysis
  {
    n.(
      title := if b.title.Some? then Trim(b.title.value) else n.title,
      content := b.content.GetOr(n.content),
      category := b.category.GetOr(n.category),
      tags := if b.tags.Some? then TrimTags(b.tags.value) else n.tags,
      isPinned := b.isPinned.GetOr(n.isPinned),
      user := b.user.GetOr(n.user),
      aiAnalysis := b.aiAnalysis.GetOr(n.aiAnalysis))
  }

  /** `runValidators: true`: the validators of the updated paths only, so the
      owner is never demanded and a body that names no validated path passes. */
  function PatchErrors(b: Patch): (r: seq<SchemaError>)
    ensures UserRequired !in r
    ensures (b.title.None? && b.content.None? && b.category.None? && b.tags.None?
             && b.aiAnalysis.None?) ==> r == []
  {
    var title := if b.title.Some? then TitleErrors(b.title) else [];
    var content := if b.content.Some? then ContentErrors(b.content) else [];
    var category := if b.category.Some? && b.category.value !in Categories then [CategoryNotAllowed] else [];
    var tags := if b.tags.Some? then TagErrors(b.tags.value, 0) else [];
    var tone :=
      if b.aiAnalysis.Some? && b.aiAnalysis.value.Some? && b.aiAnalysis.value.value.tone.Some?
         && b.aiAnalysis.value.value.tone.value !in ToneValues
      then [ToneNotAllowed] else [];
    assert UserRequired !in title && UserRequired !in content && UserRequired !in tags;
    title + content + category + tags + tone
  }

  /** Checking only the updated paths is enough: a valid note stays valid. */
  lemma PatchKeepsValid(n: Note, b: Patch)
    requires ValidNote(n) && PatchErrors(b) == []
    ensures ValidNote(Apply(n, b))
  {
    if b.tags.Some? {
      TrimTagsValid(b.tags.value);
    }
  }

  /** The update validators refuse exactly the bodies that would make a valid
      note invalid. */
  lemma PatchErrorsIffInvalid(n: Note, b: Patch)
    requires ValidNote(n)
    ensures PatchErrors(b) == [] <==> ValidNote(Apply(n, b))
  {
    if PatchErrors(b) == [] {
      PatchKeepsValid(n, b);
    }
  }

  /** Replaces every note with id `id` by `n`. */
  function Replace(store: Store, id: String, n: Note): (r: Store)
    ensures |r| == |store|
    ensures forall i :: 0 <= i < |store| ==> r[i] == (if store[i].id == id then n else store[i])
  {
    seq(|store|, i requires 0 <= i < |store| => if store[i].id == id then n else store[i])
  }

  /** Whether the cast of the update accepts the body: `user` is an ObjectId
      path, so a body `user` must have the shape of one. The other paths are
      typed here, so their casts cannot fail. */
  predicate CastsUser(b: Patch) {
    b.user.None? || IsObjectId(b.user.value)
  }

  /** `updateNote` as written: after the ownership check, the body is applied
      by id. Mongoose casts the update first, and a cast failure is caught as
      a 404; then the update validators run, and a failed validation is a 500.
      The answer is the found note with the whole body applied. */
  function UpdateNoteAsWritten(store: Store, id: String, user: String, b: Patch): (r: Effect<Note>)
    ensures r.response.Refuse? ==> r.store == store && r.response.code in {404, 500}
    ensures r.response.Respond? <==>
      FindOwned(store, id, user).Found? && CastsUser(b) && PatchErrors(b) == []
    ensures r.response.Respond? ==>
      && r.response.code == 200
      && r.response.data == Apply(FindOwned(store, id, user).note, b)
      && r.store == Replace(store, id, r.response.data)
    ensures r.response.Refuse? && r.response.code == 404 <==>
      !FindOwned(store, id, user).Found? || !CastsUser(b)
  {
    match FindOwned(store, id, user)
    case Found(n) =>
      if !CastsUser(b) then Effect(Refuse(404, NotFound), store)
      else if PatchErrors(b) == [] then
        var m := Apply(n, b);
        Effect(Respond(200, "Note updated successfully", m), Replace(store, id, m))
      else Effect(Refuse(500, "Failed to update note"), store)
    case _ => Effect(Refuse(404, NotFound), store)
  }

  /** A body `user` that is not an ObjectId fails the cast of the update, and
      the catch answers it like a missing note: nothing is stored. */
  lemma BadOwnerIsNotFound(store: Store, id: String, user: String, b: Patch)
    requires b.user.Some? && !IsObjectId(b.user.value)
    ensures UpdateNoteAsWritten(store, id, user, b) == Effect(Refuse(404, NotFound), store)
  {
  }

  /** `updateNote` with the owner kept: a `user` field in the body is ignored. */
  function UpdateNote(store: Store, id: String, user: String, b: Patch): (r: Effect<Note>)
    ensures r.response.Refuse? ==> r.store == store && r.response.code in {404, 500}
    ensures r.response.Respond? ==>
      && r.store == Replace(store, id, r.response.data)
      && r.response.data.user == user
      && r.response.data.id == id
    ensures r.response.Refuse? && r.response.code == 404 <==> !FindOwned(store, id, user).Found?
    ensures r.response.Respond? <==>
      FindOwned(store, id, user).Found? && PatchErrors(b.(user := None)) == []
    ensures r.response.Respond? ==>
      r.response.data == Apply(FindOwned(store, id, user).note, b.(user := None))
  {
    UpdateNoteAsWritten(store, id, user, b.(user := None))
  }

  /** An update keeps every stored note valid and leaves every other user's
      notes where they were. */
  lemma UpdateKeepsStore(store: Store, id: String, user: String, b: Patch)
    requires UniqueIds(store)
    requires forall i :: 0 <= i < |store| ==> ValidNote(store[i])
    ensures var s := UpdateNote(store, id, user, b).store;
      |s| == |store|
      && (forall i :: 0 <= i < |s| ==> ValidNote(s[i]))
      && (forall i :: 0 <= i < |s| && store[i].user != user ==> s[i] == store[i])
  {
    var r := UpdateNote(store, id, user, b);
    if r.response.Respond? {
      var n := FindOwned(store, id, user).note;
      PatchKeepsValid(n, b.(user := None));
      forall i | 0 <= i < |store| && store[i].user != user
        ensures r.store[i] == store[i]
      {
        if store[i].id == id {
          OwnedIdIsUnique(store, id, user, i);
          assert false;
        }
      }
    }
  }

  /** Note ids are unique in the store. */
  predicate UniqueIds(store: Store) {
    forall i, j :: 0 <= i < j < |store| ==> store[i].id != store[j].id
  }

  /** With unique ids, a note with the id of the requester's note is that note. */
  lemma OwnedIdIsUnique(store: Store, id: String, user: String, i: nat)
    requires UniqueIds(store)
    requires i < |store| && store[i].id == id
    requires FindOwned(store, id, user).Found?
    ensures store[i] == FindOwned(store, id, user).note
  {
    var n := FindOwned(store, id, user).note;
    var j :| 0 <= j < |store| && store[j] == n;
    assert i == j;
  }

  // ---------------------------------------------------------------------------
  // deleteNote and togglePin

  /** `deleteNote`: after the ownership check, the note with that id is gone. */
  function DeleteNote(store: Store, id: String, user: String): (r: Effect<()>)
    ensures r.response.Refuse? ==> r.store == store && r.response.code == 404
    ensures r.response.Respond? <==> FindOwned(store, id, user).Found?
    ensures r.response.Respond? ==>
      FindOwned(store, id, user).Found?
      && (forall i :: 0 <= i < |r.store| ==> r.store[i].id != id && r.store[i] in store)
      && (forall i :: 0 <= i < |store| && store[i].id != id ==> store[i] in r.store)
  {
    match FindOwned(store, id, user)
    case Found(_) =>
      Effect(Respond(200, "Note deleted successfully", ()), RemoveId(store, id))
    case _ => Effect(Refuse(404, NotFound), store)
  }

  function RemoveId(store: Store, id: String): (r: Store)
    ensures forall i :: 0 <= i < |r| ==> r[i].id != id && r[i] in store
    ensures forall i :: 0 <= i < |store| && store[i].id != id ==> store[i] in r
  {
    if |store| == 0 then []
    else
      var rest := RemoveId(store[1..], id);
      assert forall i :: 1 <= i < |store| ==> store[i] == store[1..][i - 1];
      (if store[0].id == id then [] else [store[0]]) + rest
  }

  /** `togglePin`: the pin is negated and the note saved again, which
      revalidates it; the message says which way it went. */
  function TogglePin(store: Store, id: String, user: String): (r: Effect<Note>)
    ensures r.response.Refuse? ==> r.store == store
    ensures r.response.Respond? <==>
      FindOwned(store, id, user).Found?
      && ValidNote(FindOwned(store, id, user).note.(isPinned := !FindOwned(store, id, user).note.isPinned))
    ensures r.response.Refuse? ==>
      (r.response.code == 404 <==> !FindOwned(store, id, user).Found?)
      && r.response.code in {404, 500}
    ensures r.response.Respond? ==>
      && FindOwned(store, id, user).Found?
      && r.response.data == FindOwned(store, id, user).note.(isPinned := !FindOwned(store, id, user).note.isPinned)
      && r.store == Replace(store, id, r.response.data)
      && r.response.message == (if r.response.data.isPinned then "Note pinned successfully" else "Note unpinned successfully")
  {
    match FindOwned(store, id, user)
    case Found(n) =>
      var m := n.(isPinned := !n.isPinned);
      if ValidNote(m) then
        Effect(Respond(200, if m.isPinned then "Note pinned successfully" else "Note unpinned successfully", m),
          Replace(store, id, m))
      else Effect(Refuse(500, "Failed to toggle pin status"), store)
    case _ => Effect(Refuse(404, NotFound), store)
  }

  /** The handler the client's `clearAIAnalysis` expects behind
      `PATCH /api/notes/:id` (the written router has no such route): after the
      ownership check, the note's analysis is removed and nothing else changes. */
  function ClearAnalysis(store: Store, id: String, user: String): (r: Effect<Note>)
    ensures r.response.Respond? <==> FindOwned(store, id, user).Found?
    ensures r.response.Refuse? ==> r.store == store && r.response == Refuse(404, NotFound)
    ensures r.response.Respond? ==>
      && r.response.data.aiAnalysis.None?
      && r.response.data.(aiAnalysis := FindOwned(store, id, user).note.aiAnalysis)
           == FindOwned(store, id, user).note
      && r.store == Replace(store, id, r.response.data)
  {
    match FindOwned(store, id, user)
    case Found(n) =>
      var m := n.(aiAnalysis := None);
      Effect(Respond(200, "Note updated successfully", m), Replace(store, id, m))
    case _ => Effect(Refuse(404, NotFound), store)
  }

  /** Clearing an analysis keeps every stored note valid. */
  lemma ClearAnalysisKeepsValid(store: Store, id: String, user: String)
    requires forall i :: 0 <= i < |store| ==> ValidNote(store[i])
    ensures forall i :: 0 <= i < |store| ==> ValidNote(ClearAnalysis(store, id, user).store[i])
  {
  }

  /** Toggling twice restores the store, when ids are unique and notes valid. */
  lemma TogglePinTwice(store: Store, id: String, user: String)
    requires UniqueIds(store)
    requires forall i :: 0 <= i < |store| ==> ValidNote(store[i])
    requires FindOwned(store, id, user).Found?
    ensures TogglePin(TogglePin(store, id, user).store, id, user).store == store
  {
    var n := FindOwned(store, id, user).note;
    var m := n.(isPinned := !n.isPinned);
    var s1 := TogglePin(store, id, user).store;
    assert s1 == Replace(store, id, m);
    ReplaceFinds(store, id, user, m);
    assert m.(isPinned := !m.isPinned) == n;
    ReplaceBack(store, id, user, m);
  }

  /** After the requester's note is replaced by one with the same id and
      owner, that one is found. */
  lemma ReplaceFinds(store: Store, id: String, user: String, m: Note)
    requires UniqueIds(store) && FindOwned(store, id, user).Found?
    requires m.id == id && m.user == user
    ensures UniqueIds(Replace(store, id, m))
    ensures FindOwned(Replace(store, id, m), id, user) == Found(m)
  {
    var s1 := Replace(store, id, m);
    var n := FindOwned(store, id, user).note;
    var j :| 0 <= j < |store| && store[j] == n;
    assert s1[j] == m;
    OwnedIdIsUnique(s1, id, user, j);
  }

  /** Putting the requester's note back undoes a replacement. */
  lemma ReplaceBack(store: Store, id: String, user: String, m: Note)
    requires UniqueIds(store) && FindOwned(store, id, user).Found? && m.id == id
    ensures Replace(Replace(store, id, m), id, FindOwned(store, id, user).note) == store
  {
    var n := FindOwned(store, id, user).note;
    forall i | 0 <= i < |store| && store[i].id == id
      ensures store[i] == n
    {
      OwnedIdIsUnique(store, id, user, i);
    }
    var r := Replace(Replace(store, id, m), id, n);
    assert forall i :: 0 <= i < |store| ==> r[i] == store[i];
  }
}

=== FILE: note_editor.dfy ===
/** The non-visual logic of the note editor page
    (frontend/src/pages/NoteEditor.jsx): whether it edits an existing note and
    which one, how the tag list is shown in the form (one string, joined with
    ", ") and how the form's tag string is turned back into a list at submit. */
module NoteEditor {
  import opened Wrappers
  import opened Text
  import opened NoteSchema
  import opened NotesSlice

  /** A tag the editor can produce: non-empty, trimmed, without a comma. */
  predicate CleanTag(t: String) {
    t != "" && Trimmed(t) && NoneIn(t, {','})
  }

  /** `parts.filter(tag => tag)`: the empty string is falsy. */
  function DropEmpty(parts: seq<String>): (r: seq<String>)
    ensures forall i :: 0 <= i < |r| ==> r[i] != "" && r[i] in parts
    ensures (forall i :: 0 <= i < |parts| ==> parts[i] != "") ==> r == parts
  {
    if |parts| == 0 then []
    else if parts[0] == "" then DropEmpty(parts[1..])
    else [parts[0]] + DropEmpty(parts[1..])
  }

  function TrimEach(parts: seq<String>): (r: seq<String>)
    ensures |r| == |parts| && forall i :: 0 <= i < |r| ==> r[i] == Trim(parts[i])
  {
    seq(|parts|, i requires 0 <= i < |parts| => Trim(parts[i]))
  }

  /** `tags.split(',').map(tag => tag.trim()).filter(tag => tag)` */
  function ParseTags(s: String): (r: seq<String>)
    ensures forall i :: 0 <= i < |r| ==> CleanTag(r[i])
    ensures Blank(s) ==> r == []
  {
    var parts := SplitOn(s, ',');
    forall i | 0 <= i < |parts|
      ensures NoneIn(Trim(parts[i]), {','})
    {
      TrimNoneIn(parts[i], {','});
    }
    if Blank(s) then
      assert NoneIn(s, {','}) by {
        forall k | 0 <= k < |s| ensures s[k] != ',' { assert IsSpace(s[k]); }
      }
      assert parts == [s];
      []
    else DropEmpty(TrimEach(parts))
  }

  /** `tags?.join(', ') || ''`: an absent list shows as the empty string. */
  function FormatTags(tags: Option<seq<String>>): (r: String)
    ensures tags.None? ==> r == ""
    ensures tags.Some? && |tags.value| == 1 ==> r == tags.value[0]
  {
    if tags.None? then "" else Join(tags.value, [',', ' '])
  }

  /** Every tag behind one leading space. */
  function SpaceEach(ts: seq<String>): (r: seq<String>)
    ensures |r| == |ts| && forall i :: 0 <= i < |r| ==> r[i] == [' '] + ts[i]
  {
    seq(|ts|, i requires 0 <= i < |ts| => [' '] + ts[i])
  }

  /** Joining a list with a head: the head, the separator, then the rest joined. */
  lemma JoinCons(a: String, rest: seq<String>, d: String)
    requires |rest| >= 1
    ensures Join([a] + rest, d) == a + d + Join(rest, d)
  {
    assert ([a] + rest)[1..] == rest;
  }

  /** Joining with ", " is joining with "," pieces that each start with a space. */
  lemma {:induction false} SpacedJoin(ts: seq<String>)
    requires |ts| >= 1
    ensures [' '] + Join(ts, [',', ' ']) == Join(SpaceEach(ts), [','])
  {
    if |ts| > 1 {
      SpacedJoin(ts[1..]);
      assert SpaceEach(ts) == [[' '] + ts[0]] + SpaceEach(ts[1..]);
      JoinCons([' '] + ts[0], SpaceEach(ts[1..]), [',']);
      assert [' '] + Join(ts, [',', ' ']) == ([' '] + ts[0]) + [','] + ([' '] + Join(ts[1..], [',', ' ']));
    }
  }

  /** The pieces `split(',')` finds in the text of a tag list: the first tag,
      then every other tag behind the space that followed its comma. */
  function Pieces(tags: seq<String>): (r: seq<String>)
    requires |tags| >= 1
    ensures |r| == |tags| && r[0] == tags[0]
    ensures forall i :: 1 <= i < |r| ==> r[i] == [' '] + tags[i]
  {
    [tags[0]] + SpaceEach(tags[1..])
  }

  /** One step of a ", " join, read as a "," join. */
  lemma CommaSpaceStep(tags: seq<String>)
    requires |tags| > 1
    ensures Join(tags, [',', ' ']) == tags[0] + [','] + ([' '] + Join(tags[1..], [',', ' ']))
  {
  }

  /** The text of a tag list joined with ", " is its pieces joined with ",",
      the form that a split on commas takes apart. */
  lemma JoinAsPieces(tags: seq<String>)
    requires |tags| >= 1
    ensures Join(tags, [',', ' ']) == Join(Pieces(tags), [','])
  {
    if |tags| > 1 {
      CommaSpaceStep(tags);
      SpacedJoin(tags[1..]);
      JoinCons(tags[0], SpaceEach(tags[1..]), [',']);
    }
  }

  /** A space in front of an editor-made tag adds no comma and is trimmed away. */
  lemma SpacedTag(t: String)
    requires CleanTag(t)
    ensures ',' !in [' '] + t && Trim([' '] + t) == t
  {
    var u := [' '] + t;
    assert Blank([' ']);
    TrimBlankPrefix([' '], t);
    forall k | 0 <= k < |u| ensures u[k] != ',' {
      if k > 0 { assert u[k] == t[k - 1]; assert t[k - 1] !in {','}; }
    }
  }

  lemma PiecesTrimBack(tags: seq<String>)
    requires |tags| >= 1
    requires forall i :: 0 <= i < |tags| ==> CleanTag(tags[i])
    ensures forall i :: 0 <= i < |tags| ==> ',' !in Pieces(tags)[i]
    ensures TrimEach(Pieces(tags)) == tags
  {
    var pieces := Pieces(tags);
    forall i | 0 <= i < |pieces|
      ensures ',' !in pieces[i] && Trim(pieces[i]) == tags[i]
    {
      if i == 0 {
        TrimOfTrimmed(tags[0]);
      } else {
        SpacedTag(tags[i]);
      }
    }
  }

  /** Showing a list of editor-made tags and parsing the text back gives the
      same list. */
  lemma FormatThenParse(tags: seq<String>)
    requires forall i :: 0 <= i < |tags| ==> CleanTag(tags[i])
    ensures ParseTags(FormatTags(Some(tags))) == tags
  {
    if |tags| == 0 {
      assert SplitOn("", ',') == [""];
    } else {
      var text := Join(tags, [',', ' ']);
      JoinAsPieces(tags);
      PiecesTrimBack(tags);
      SplitOnJoin(Pieces(tags), ',');
      assert !Blank(text) by {
        JoinStartsWithFirst(tags, [',', ' ']);
        assert text[0] == tags[0][0];
      }
    }
  }

  /** Parsing what parsing produced, after showing it, changes nothing. */
  lemma ParseIdempotent(s: String)
    ensures ParseTags(FormatTags(Some(ParseTags(s)))) == ParseTags(s)
  {
    FormatThenParse(ParseTags(s));
  }

  /** An editor-made tag holds no comma. */
  lemma NoComma(t: String)
    requires CleanTag(t)
    ensures ',' !in t
  {
    forall k | 0 <= k < |t| ensures t[k] != ',' {
      assert t[k] !in {','};
    }
  }

  /** A stored tag with a comma in it (the API accepts one) comes back from an
      unchanged edit as two tags. */
  lemma CommaTagIsSplit(a: String, b: String)
    requires CleanTag(a) && CleanTag(b)
    ensures ParseTags(FormatTags(Some([a + [','] + b]))) == [a, b]
  {
    var s := a + [','] + b;
    SplitAtComma(a, b);
    ParseNonBlank(s);
    TrimPair(a, b);
    assert FormatTags(Some([s])) == s;
  }

  lemma TrimPair(a: String, b: String)
    requires CleanTag(a) && CleanTag(b)
    ensures TrimEach([a, b]) == [a, b]
  {
    TrimEachPair(a, b);
    TrimOfTrimmed(a);
    TrimOfTrimmed(b);
  }

  lemma TrimEachPair(a: String, b: String)
    ensures TrimEach([a, b]) == [Trim(a), Trim(b)]
  {
    var t := TrimEach([a, b]);
    assert t[0] == Trim(a);
    assert t[1] == Trim(b);
  }

  lemma SplitAtComma(a: String, b: String)
    requires CleanTag(a) && CleanTag(b)
    ensures SplitOn(a + [','] + b, ',') == [a, b]
    ensures !Blank(a + [','] + b)
  {
    NoComma(a);
    NoComma(b);
    SplitOnFirst(a, ',', b);
    assert SplitOn(b, ',') == [b];
    assert (a + [','] + b)[0] == a[0];
  }

  lemma ParseNonBlank(s: String)
    requires !Blank(s)
    ensures ParseTags(s) == DropEmpty(TrimEach(SplitOn(s, ',')))
  {
  }

  /** `isEditing` and `currentNote`: a route id puts the page in edit mode, and
      the note edited is the first one in the list with that id, if any. */
  function EditTarget(id: Option<String>, notes: seq<Note>): (r: (bool, Option<Note>))
    ensures r.0 <==> id.Some? && id.value != ""
    ensures r.1.Some? ==> r.0 && r.1.value in notes && r.1.value.id == id.value
    ensures r.1.Some? ==> r.1.value == notes[FindIndex(notes, id.value).value]
    ensures r.0 && r.1.None? ==> forall i :: 0 <= i < |notes| ==> notes[i].id != id.value
  {
    var editing := id.Some? && id.value != "";
    if !editing then (false, None)
    else match FindIndex(notes, id.value)
      case None => (true, None)
      case Some(k) => (true, Some(notes[k]))
  }

  /** The form fields the editor fills from a note. */
  datatype FormData = FormData(title: String, content: String, category: String, tags: String, isPinned: bool)

  function Load(n: Note): (f: FormData)
    ensures f.tags == FormatTags(Some(n.tags))
  {
    FormData(n.title, n.content, n.category, FormatTags(Some(n.tags)), n.isPinned)
  }

  /** Saving a loaded note without touching the form sends its tags back
      unchanged when they are editor-made. */
  lemma EditKeepsCleanTags(n: Note)
    requires forall i :: 0 <= i < |n.tags| ==> CleanTag(n.tags[i])
    ensures ParseTags(Load(n).tags) == n.tags
  {
    FormatThenParse(n.tags);
  }
}

=== FILE: note_routes.dfy ===
/** The note router of backend/routes/notes.js: the `protect` middleware in
    front of every route, the request rules of `noteValidation`, and which
    handler a method and path reach. A path is its list of segments; the root
    path `/` is the empty list. The authentication check itself lives in
    middleware that is not part of this model: it is the `authenticated` flag. */
module NoteRoutes {
  import opened Wrappers
  import opened Text
  import NoteSchema
  import NoteController

  datatype Method = Get | Post | Put | Delete | Patch

  /** The body fields the request rules look at. */
  datatype Body = Body(title: Option<String>, content: Option<String>, category: Option<String>)

  datatype Request = Request(verb: Method, path: seq<String>, authenticated: bool, body: Body)

  /** The controller functions of backend/controllers/noteController.js. */
  datatype Handler =
    | ListNotes
    | DashboardStats
    | ShowNote(id: String)
    | CreateNote
    | UpdateNote(id: String)
    | DeleteNote(id: String)
    | TogglePin(id: String)
    | ClearAnalysis(id: String)       // only on the intended route table

  /** Where a request ends up. */
  datatype Dispatched =
    | Denied                          // stopped by `protect`
    | Unrouted                        // no route matches
    | Rejected(messages: seq<String>) // stopped by the request rules
    | Handled(handler: Handler)

  const TitleRequired: String := "Title is required"
  const TitleTooLong: String := "Title cannot exceed 200 characters"
  const ContentRequired: String := "Content is required"
  const ContentTooLong: String := "Content cannot exceed 10000 characters"
  const CategoryNotAllowed: String := "Category must be Study, Work, or Personal"

  /** `notEmpty()`: present and not the empty string. White space counts as
      content: the rule does not trim. */
  predicate NotEmpty(v: Option<String>) {
    v.Some? && v.value != ""
  }

  /** The variation selectors U+FE0E and U+FE0F, which the length rule does
      not count. */
  const Selectors: set<char> := {'\U{FE0E}', '\U{FE0F}'}

  /** The length `isLength` measures: the JavaScript length less one for each
      surrogate pair and one for each variation selector, which is the number
      of characters that are not variation selectors. */
  function ValidatorLength(s: String): (n: nat)
    ensures n <= |s|
  {
    if |s| == 0 then 0
    else (if s[0] in Selectors then 0 else 1) + ValidatorLength(s[1..])
  }

  /** The rule's length is the character count exactly when there is no
      variation selector. */
  lemma {:induction false} ValidatorLengthIsSize(s: String)
    ensures ValidatorLength(s) == |s| <==> NoneIn(s, Selectors)
  {
    if |s| > 0 {
      ValidatorLengthIsSize(s[1..]);
      assert forall i :: 1 <= i < |s| ==> s[i] == s[1..][i - 1];
    }
  }

  /** The rule and JavaScript's `length` agree exactly on text within the
      Basic Multilingual Plane without variation selectors. */
  lemma LengthsAgree(s: String)
    ensures ValidatorLength(s) == Utf16Length(s) <==> InBmp(s) && NoneIn(s, Selectors)
  {
    ValidatorLengthIsSize(s);
    Utf16LengthIsSize(s);
  }

  /** `isLength({ max: n })`; a missing value is read as "". */
  predicate AtMost(v: Option<String>, n: nat) {
    ValidatorLength(v.GetOr("")) <= n
  }

  /** The messages of `noteValidation`, field by field. Each rule runs all its
      checks, but for one field at most one of them can fail. */
  function RuleErrors(b: Body): (r: seq<String>)
    ensures r == [] <==>
      NotEmpty(b.title) && AtMost(b.title, 200)
      && NotEmpty(b.content) && AtMost(b.content, 10000)
      && (b.category.Some? ==> b.category.value in NoteSchema.Categories)
  {
    (if !NotEmpty(b.title) then [TitleRequired] else [])
    + (if !AtMost(b.title, 200) then [TitleTooLong] else [])
    + (if !NotEmpty(b.content) then [ContentRequired] else [])
    + (if !AtMost(b.content, 10000) then [ContentTooLong] else [])
    + (if b.category.Some? && b.category.value !in NoteSchema.Categories
       then [CategoryNotAllowed] else [])
  }

  /** The `:id` parameter: one non-empty segment. */
  predicate IdSegment(s: String) {
    s != ""
  }

  /** A path segment against a fixed segment of a route. `express.Router()`
      matches without regard to case, through a regular expression with the
      `i` flag and without `u`; that flag folds only ASCII letters onto ASCII
      letters, so ASCII lower-casing is exact against a lower-case literal. */
  predicate SegmentIs(s: String, fixed: String) {
    Lower(s) == fixed
  }

  /** The route table in declaration order; `/dashboard/stats` is declared
      before `/:id`, and `/:id` matches only a single segment. Fixed segments
      match in any case. */
  function Route(m: Method, path: seq<String>): Option<Handler>
  {
    match m
    case Get =>
      if path == [] then Some(ListNotes)
      else if |path| == 2 && SegmentIs(path[0], "dashboard") && SegmentIs(path[1], "stats")
      then Some(DashboardStats)
      else if |path| == 1 && IdSegment(path[0]) then Some(ShowNote(path[0]))
      else None
    case Post =>
      if path == [] then Some(CreateNote) else None
    case Put =>
      if |path| == 1 && IdSegment(path[0]) then Some(UpdateNote(path[0])) else None
    case Delete =>
      if |path| == 1 && IdSegment(path[0]) then Some(DeleteNote(path[0])) else None
    case Patch =>
      if |path| == 2 && IdSegment(path[0]) && SegmentIs(path[1], "pin") then Some(TogglePin(path[0]))
      else None
  }

  /** Whether a handler sits behind `noteValidation` and `handleValidationErrors`. */
  predicate Validated(h: Handler) {
    h.CreateNote? || h.UpdateNote?
  }

  /** A request through the router: `protect` runs first for every request,
      routed or not; then the request rules, on the two routes that carry them. */
  function Dispatch(req: Request): (r: Dispatched)
    ensures r.Handled? || r.Rejected? ==> req.authenticated
    ensures r.Handled? ==> Route(req.verb, req.path) == Some(r.handler)
    ensures r.Handled? && Validated(r.handler) ==> RuleErrors(req.body) == []
    ensures r.Rejected? ==>
      r.messages != [] && Route(req.verb, req.path).Some?
      && Validated(Route(req.verb, req.path).value)
  {
    DispatchTo(req, Route(req.verb, req.path))
  }

  /** The middleware chain in front of the handler `h` the table gave. */
  function DispatchTo(req: Request, h: Option<Handler>): (r: Dispatched)
    ensures r.Handled? || r.Rejected? ==> req.authenticated
    ensures r.Handled? ==> h == Some(r.handler)
    ensures r.Handled? && Validated(r.handler) ==> RuleErrors(req.body) == []
    ensures r.Rejected? ==> r.messages != [] && h.Some? && Validated(h.value)
  {
    if !req.authenticated then Denied
    else match h
      case None => Unrouted
      case Some(h) =>
        if Validated(h) && RuleErrors(req.body) != [] then Rejected(RuleErrors(req.body))
        else Handled(h)
  }

  /** The route table with the `PATCH /:id` route the client's
      `clearAIAnalysis` needs, declared without the request rules (its body
      carries no title or content). Every other route is unchanged. */
  function RouteIntended(m: Method, path: seq<String>): Option<Handler>
  {
    if m == Patch && |path| == 1 && IdSegment(path[0]) then Some(ClearAnalysis(path[0]))
    else Route(m, path)
  }

  function DispatchIntended(req: Request): (r: Dispatched)
    ensures r.Handled? ==> RouteIntended(req.verb, req.path) == Some(r.handler)
  {
    DispatchTo(req, RouteIntended(req.verb, req.path))
  }

  /** With the intended table, the request `clearAIAnalysis` sends reaches the
      handler that clears the analysis, whatever the body holds, and every
      request the written table routes is dispatched as before. */
  lemma ClearAnalysisIsRouted(id: String, body: Body, req: Request)
    requires IdSegment(id)
    ensures DispatchIntended(Request(Patch, [id], true, body)) == Handled(ClearAnalysis(id))
    ensures Route(req.verb, req.path).Some? ==> DispatchIntended(req) == Dispatch(req)
  {
  }

  /** Without authentication no request reaches a handler, whatever its path. */
  lemma UnauthenticatedIsDenied(req: Request)
    requires !req.authenticated
    ensures Dispatch(req) == Denied
  {
  }

  /** Deleting and pinning are never held up by the request rules, whatever
      the body holds. */
  lemma DeleteAndPinAreNotValidated(req: Request, id: String)
    requires req.authenticated && IdSegment(id)
    requires (req.verb == Delete && req.path == [id]) || (req.verb == Patch && req.path == [id, "pin"])
    ensures Dispatch(req).Handled?
  {
  }

  /** `/dashboard/stats` reaches the statistics, not a note called "dashboard". */
  lemma StatsBeforeId(body: Body)
    ensures Dispatch(Request(Get, ["dashboard", "stats"], true, body)) == Handled(DashboardStats)
  {
  }

  /** The fixed segments match in any case: `GET /dashboard/Stats` reaches the
      statistics and `PATCH /:id/PIN` the pin toggle. */
  lemma MixedCaseSegmentsMatch(id: String, body: Body)
    requires IdSegment(id)
    ensures Dispatch(Request(Get, ["Dashboard", "STATS"], true, body)) == Handled(DashboardStats)
    ensures Dispatch(Request(Patch, [id, "PIN"], true, body)) == Handled(TogglePin(id))
  {
    assert Lower("Dashboard") == "dashboard";
    assert Lower("STATS") == "stats";
    assert Lower("PIN") == "pin";
  }

  /** There is no `PATCH /:id` route: a request of that shape (the one the
      client sends to clear an analysis) is never handled. */
  lemma PatchWithoutPinIsUnrouted(id: String, body: Body)
    ensures Dispatch(Request(Patch, [id], true, body)) == Unrouted
  {
  }

  /** The request rules against the schema. Content the schema accepts passes
      the rules, since the rule's length never exceeds the JavaScript length;
      where the two lengths agree, the content rule and the schema's `required`
      and `maxlength` accept the same texts. For the title the rules see the
      untrimmed text, so where the lengths agree they are weaker: a title that
      passes them also passes the schema's length bound, but a blank one still
      fails the schema's `required`. */
  lemma RulesAgainstSchema(b: Body)
    ensures NoteSchema.ContentErrors(b.content) == [] ==>
      NotEmpty(b.content) && AtMost(b.content, 10000)
    ensures b.content.Some? && ValidatorLength(b.content.value) == Utf16Length(b.content.value) ==>
      (NotEmpty(b.content) && AtMost(b.content, 10000) <==> NoteSchema.ContentErrors(b.content) == [])
    ensures (b.title.Some? && ValidatorLength(b.title.value) == Utf16Length(b.title.value)
             && NotEmpty(b.title) && AtMost(b.title, 200)) ==>
      NoteSchema.TitleErrors(b.title) != [NoteSchema.TitleTooLong]
    ensures b.title.Some? && Blank(b.title.value) ==>
      NoteSchema.TitleErrors(b.title) == [NoteSchema.TitleRequired]
  {
    if b.title.Some? {
      TrimIsSlice(b.title.value);
      var k := Lead(b.title.value, 0);
      Utf16LengthSlice(b.title.value, k, Tail(b.title.value, k, |b.title.value|));
    }
  }

  /** Where the lengths part, the rules let through what the schema refuses:
      content of more than 5000 characters from outside the Basic Multilingual
      Plane (emoji, say) passes the 10000 bound of the rule but is over the
      schema's `maxlength`, so the request fails only when the note is saved. */
  lemma AstralContentPassesRules(s: String)
    requires 5000 < |s| <= 10000
    requires forall i :: 0 <= i < |s| ==> s[i] as int >= 0x1_0000
    ensures NotEmpty(Some(s)) && AtMost(Some(s), 10000)
    ensures NoteSchema.ContentErrors(Some(s)) == [NoteSchema.ContentTooLong]
  {
    Utf16LengthAstral(s);
    assert forall i :: 0 <= i < |s| ==> s[i] !in Selectors;
    ValidatorLengthIsSize(s);
  }

  /** Such content exists: 5001 copies of U+1F600. */
  lemma SmileysPassRules()
    ensures var s := Repeat('\U{1F600}', 5001);
      AtMost(Some(s), 10000) && NoteSchema.ContentErrors(Some(s)) == [NoteSchema.ContentTooLong]
  {
    AstralContentPassesRules(Repeat('\U{1F600}', 5001));
  }

  /** `n` copies of `c`. */
  function Repeat(c: char, n: nat): (r: String)
    ensures |r| == n && forall i :: 0 <= i < n ==> r[i] == c
  {
    if n == 0 then "" else [c] + Repeat(c, n - 1)
  }

  /** An empty category is not "absent": the rule rejects it, although the
      controller would have replaced it with the default. */
  lemma EmptyCategoryIsRejected(b: Body)
    requires b.category == Some("")
    ensures CategoryNotAllowed in RuleErrors(b)
  {
  }

  /** The request an owner sends to hand a note to somebody else: a
      `PUT /api/notes/:id` whose body carries a title and a content the rules
      accept and, in `user`, another ObjectId. It passes the router, the cast
      and the schema validators, and the stored note changes owner: the new
      owner can find it and nobody else can. */
  lemma UpdateCanMoveNote(n: NoteSchema.Note, other: String, title: String, content: String)
    requires NoteController.IsObjectId(n.id) && NoteController.IsObjectId(other) && other != n.user
    requires RuleErrors(Body(Some(title), Some(content), None)) == []
    requires NoteSchema.TitleErrors(Some(title)) == [] && NoteSchema.ContentErrors(Some(content)) == []
    ensures Dispatch(Request(Put, [n.id], true, Body(Some(title), Some(content), None)))
      == Handled(UpdateNote(n.id))
    ensures
      var b := NoteController.Patch(Some(title), Some(content), None, None, None, Some(other), None);
      var r := NoteController.UpdateNoteAsWritten([n], n.id, n.user, b);
      && r.response.Respond? && r.response.data.user == other
      && NoteController.GetNote(r.store, n.id, n.user)
         == NoteController.Refuse(404, NoteController.NotFound)
      && NoteController.GetNote(r.store, n.id, other).Respond?
      && forall u :: u != other ==> NoteController.GetNote(r.store, n.id, u).Refuse?
  {
  }
}

=== FILE: note_schema.dfy ===
/** The note document of backend/models/Note.js: its fields, the setters and
    defaults Mongoose applies when a document is saved, and the validators
    that decide whether it can be stored. The timestamps Mongoose adds and the
    text indexes are not modelled. */
module NoteSchema {
  import opened Wrappers
  import opened Text
  import opened Fallback

  const Categories: seq<String> := ["Study", "Work", "Personal"]
  const ToneValues: seq<String> := ["formal", "academic", "casual", "technical"]
  const DefaultCategory: String := "Study"

  /** The `aiAnalysis` sub-document as stored. It has no `status` field: the
      schema does not declare one, so Mongoose drops it. */
  datatype StoredAnalysis = StoredAnalysis(
    summary: String,
    keywords: seq<String>,
    questions: seq<String>,
    simplifiedContent: String,
    tone: Option<String>,
    lastAnalyzed: int,
    modelUsed: String)

  /** A stored note. `id` is the document's `_id` and `user` the owner's id. */
  datatype Note = Note(
    id: String,
    user: String,
    title: String,
    content: String,
    category: String,
    tags: seq<String>,
    isPinned: bool,
    aiAnalysis: Option<StoredAnalysis>)

  /** The fields handed to Mongoose for a new document; `None` is a field left
      undefined. */
  datatype Draft = Draft(
    title: Option<String>,
    content: Option<String>,
    category: Option<String>,
    tags: seq<String>,
    user: Option<String>,
    isPinned: Option<bool>,
    aiAnalysis: Option<StoredAnalysis>)

  /** The failing validator of one path. Mongoose reports at most one per path. */
  datatype SchemaError =
    | TitleRequired
    | TitleTooLong
    | ContentRequired
    | ContentTooLong
    | CategoryNotAllowed
    | TagTooLong(index: nat)
    | UserRequired
    | ToneNotAllowed

  /** What every stored note satisfies: a trimmed, non-empty title of at most
      200 characters; non-empty content of at most 10000 characters; one of the
      three categories; trimmed tags of at most 20 characters each; and, when an
      analysis with a tone is present, one of the four tones. The lengths are
      JavaScript's, in UTF-16 code units, as `maxlength` measures them. */
  predicate ValidNote(n: Note) {
    Trimmed(n.title) && n.title != "" && Utf16Length(n.title) <= 200
    && n.content != "" && Utf16Length(n.content) <= 10000
    && n.category in Categories
    && (forall i :: 0 <= i < |n.tags| ==> Trimmed(n.tags[i]) && Utf16Length(n.tags[i]) <= 20)
    && (n.aiAnalysis.Some? && n.aiAnalysis.value.tone.Some? ==>
          n.aiAnalysis.value.tone.value in ToneValues)
  }

  /** Every tag after its `trim` setter. */
  function TrimTags(tags: seq<String>): (r: seq<String>)
    ensures |r| == |tags|
    ensures forall i :: 0 <= i < |tags| ==> r[i] == Trim(tags[i])
  {
    seq(|tags|, i requires 0 <= i < |tags| => Trim(tags[i]))
  }

  /** The document Mongoose would store: the `trim` setters applied to the
      title and the tags, the category and pin defaults filled in. It exists
      only when the title, the content and the owner are present. */
  function Built(d: Draft, id: String): (r: Option<Note>)
    ensures r.Some? <==> d.title.Some? && d.content.Some? && d.user.Some?
  {
    if d.title.Some? && d.content.Some? && d.user.Some? then
      Some(Note(id, d.user.value, Trim(d.title.value), d.content.value,
        d.category.GetOr(DefaultCategory), TrimTags(d.tags), d.isPinned.GetOr(false),
        d.aiAnalysis))
    else None
  }

  /** A tag whose trimmed form passes `maxlength: 20`. */
  predicate TagFits(tag: String) {
    Utf16Length(Trim(tag)) <= 20
  }

  /** The `maxlength` failures of the trimmed tags, as `TagTooLong(from + i)`. */
  function TagErrors(tags: seq<String>, from: nat): (r: seq<SchemaError>)
    ensures r == [] <==> forall i :: 0 <= i < |tags| ==> TagFits(tags[i])
    ensures forall e :: e in r ==> e.TagTooLong? && from <= e.index < from + |tags|
  {
    if |tags| == 0 then []
    else
      var rest := TagErrors(tags[1..], from + 1);
      assert forall i :: 1 <= i < |tags| ==> tags[i] == tags[1..][i - 1];
      (if TagFits(tags[0]) then [] else [TagTooLong(from)]) + rest
  }

  /** `title`: the `trim` setter, then `required` (which refuses ""), then
      `maxlength: 200`. */
  function TitleErrors(title: Option<String>): seq<SchemaError>
  {
    if title.None? || Trim(title.value) == "" then [TitleRequired]
    else if Utf16Length(Trim(title.value)) > 200 then [TitleTooLong]
    else []
  }

  /** `content`: `required`, then `maxlength: 10000`, on the raw text. */
  function ContentErrors(content: Option<String>): seq<SchemaError>
  {
    if content.None? || content.value == "" then [ContentRequired]
    else if Utf16Length(content.value) > 10000 then [ContentTooLong]
    else []
  }

  /** The validation errors of a draft, path by path in schema order. */
  function Errors(d: Draft): seq<SchemaError>
  {
    TitleErrors(d.title)
    + ContentErrors(d.content)
    + (if d.category.GetOr(DefaultCategory) in Categories then [] else [CategoryNotAllowed])
    + TagErrors(d.tags, 0)
    + (if d.user.None? then [UserRequired] else [])
    + (if d.aiAnalysis.Some? && d.aiAnalysis.value.tone.Some?
          && d.aiAnalysis.value.tone.value !in ToneValues
       then [ToneNotAllowed] else [])
  }

  /** The path-by-path validators and the declarative predicate agree: a draft
      has no error exactly when the document built from it is a valid note. */
  lemma NoErrorsIffValid(d: Draft, id: String)
    ensures Errors(d) == [] <==> Built(d, id).Some? && ValidNote(Built(d, id).value)
  {
    if Built(d, id).Some? {
      var n := Built(d, id).value;
      TrimTagsValid(d.tags);
      if Errors(d) == [] {
        assert forall i :: 0 <= i < |n.tags| ==> Utf16Length(n.tags[i]) <= 20;
      }
    }
  }

  lemma TrimTagsValid(tags: seq<String>)
    ensures forall i :: 0 <= i < |tags| ==> Trimmed(TrimTags(tags)[i])
  {
  }

  /** The outcome of a save: the stored note, or the validation errors. */
  datatype Saved = Stored(note: Note) | Invalid(errors: seq<SchemaError>)

  /** `Note.create(fields)` / `note.save()`: validate, then store. */
  function Save(d: Draft, id: String): (r: Saved)
    ensures r.Stored? ==> ValidNote(r.note) && Built(d, id) == Some(r.note)
    ensures r.Invalid? ==> r.errors != []
    ensures r.Stored? <==> Built(d, id).Some? && ValidNote(Built(d, id).value)
  {
    NoErrorsIffValid(d, id);
    if Errors(d) == [] then Stored(Built(d, id).value) else Invalid(Errors(d))
  }

  /** The fields of a stored note, as a draft. */
  function DraftOf(n: Note): Draft {
    Draft(Some(n.title), Some(n.content), Some(n.category), n.tags, Some(n.user),
      Some(n.isPinned), n.aiAnalysis)
  }

  /** Saving a valid note again stores it unchanged: the setters leave trimmed
      text alone. */
  lemma {:induction false} ResaveKeepsNote(n: Note)
    requires ValidNote(n)
    ensures Save(DraftOf(n), n.id) == Stored(n)
  {
    TrimOfTrimmed(n.title);
    forall i | 0 <= i < |n.tags|
      ensures TrimTags(n.tags)[i] == n.tags[i]
    {
      TrimOfTrimmed(n.tags[i]);
    }
    assert TrimTags(n.tags) == n.tags;
  }

  /** A title of nothing but white space is trimmed to "" and fails `required`. */
  lemma BlankTitleIsRequired(d: Draft)
    requires d.title.Some? && Blank(d.title.value)
    ensures TitleErrors(d.title) == [TitleRequired] && Errors(d)[0] == TitleRequired
  {
  }

  /** The tones the analyzer produces are all admitted by the schema. */
  lemma ToneNamesAllowed(t: Tone)
    ensures ToneName(t) in ToneValues
  {
  }
}

=== FILE: note_stats.dfy ===
/** The result shaping of `getDashboardStats` in
    backend/controllers/noteController.js, over the requester's notes: the
    per-category counts, the number of analysed notes, the most common tone
    and the ten most frequent keywords. The aggregation stages (`$group`,
    `$sort`, `$limit`) are modelled by the functions here; the count of notes
    updated in the last seven days needs timestamps and is not modelled. */
module NoteStats {
  import opened Text
  import opened NoteSchema
  import opened Sorting
  import opened Fallback

  /** The requester's notes, in store order. */
  function Mine(store: seq<Note>, user: String): (r: seq<Note>)
    ensures forall i :: 0 <= i < |r| ==> r[i].user == user && r[i] in store
    ensures forall n :: n in store && n.user == user ==> n in r
  {
    if |store| == 0 then []
    else
      var rest := Mine(store[1..], user);
      assert forall n :: n in store[1..] ==> n in store;
      assert forall n :: n in store ==> n == store[0] || n in store[1..];
      (if store[0].user == user then [store[0]] else []) + rest
  }

  // ---------------------------------------------------------------------------
  // categories

  function CountCategory(notes: seq<Note>, c: String): nat {
    if |notes| == 0 then 0
    else (if notes[0].category == c then 1 else 0) + CountCategory(notes[1..], c)
  }

  /** `categoryCount`: every category that occurs, mapped to its number of notes. */
  function CategoryCount(notes: seq<Note>): (m: map<String, nat>)
    ensures forall c :: c in m <==> CountCategory(notes, c) > 0
    ensures forall c :: c in m ==> m[c] == CountCategory(notes, c)
  {
    if |notes| == 0 then map[]
    else
      var m := CategoryCount(notes[1..]);
      var c := notes[0].category;
      m[c := (if c in m then m[c] else 0) + 1]
  }

  /** The counts add up to the number of notes. */
  lemma {:induction false} CategoryCountsAddUp(notes: seq<Note>)
    requires forall i :: 0 <= i < |notes| ==> notes[i].category in Categories
    ensures CountCategory(notes, "Study") + CountCategory(notes, "Work")
      + CountCategory(notes, "Personal") == |notes|
  {
    if |notes| > 0 {
      assert notes[0].category in Categories;
      CategoryCountsAddUp(notes[1..]);
    }
  }

  /** The number of notes that carry an analysis (`aiAnalysis.lastAnalyzed` exists). */
  function CountAnalyzed(notes: seq<Note>): (k: nat)
    ensures k <= |notes|
  {
    if |notes| == 0 then 0
    else (if notes[0].aiAnalysis.Some? then 1 else 0) + CountAnalyzed(notes[1..])
  }

  // ---------------------------------------------------------------------------
  // tones and keywords

  /** The tone of every note that has one. */
  function Tones(notes: seq<Note>): seq<String> {
    if |notes| == 0 then []
    else
      (if notes[0].aiAnalysis.Some? && notes[0].aiAnalysis.value.tone.Some?
       then [notes[0].aiAnalysis.value.tone.value] else [])
      + Tones(notes[1..])
  }

  /** Every keyword occurrence of every analysis (`$unwind`). */
  function AllKeywords(notes: seq<Note>): seq<String> {
    if |notes| == 0 then []
    else
      (if notes[0].aiAnalysis.Some? then notes[0].aiAnalysis.value.keywords else [])
      + AllKeywords(notes[1..])
  }

  /** A `$group` with a `$sort` on the count: the distinct values, most frequent first. */
  function Ranked(values: seq<String>): (r: seq<String>)
    ensures Distinct(r)
    ensures forall x :: x in r <==> x in values
    ensures SortedDesc(r, (x: String) => multiset(values)[x])
  {
    var groups := Dedupe(values);
    var r := SortDesc(groups, (x: String) => multiset(values)[x]);
    DistinctPermutation(groups, r);
    forall x
      ensures x in r <==> x in values
    {
      SortKeepsMembers(groups, (x: String) => multiset(values)[x], x);
    }
    r
  }

  /** A reordering of a sequence without repetitions has none. */
  lemma DistinctPermutation<T>(xs: seq<T>, ys: seq<T>)
    requires Distinct(xs) && multiset(ys) == multiset(xs)
    ensures Distinct(ys)
  {
    forall i, j | 0 <= i < j < |ys|
      ensures ys[i] != ys[j]
    {
      if ys[i] == ys[j] {
        var x := ys[i];
        assert ys == ys[..j] + ys[j..];
        assert x in ys[..j] && x in ys[j..];
        assert multiset(ys)[x] == multiset(ys[..j])[x] + multiset(ys[j..])[x];
        DistinctOnce(xs, x);
        assert false;
      }
    }
  }

  /** In a sequence without repetitions every value occurs at most once. */
  lemma {:induction false} DistinctOnce<T>(xs: seq<T>, x: T)
    requires Distinct(xs)
    ensures multiset(xs)[x] <= 1
  {
    if |xs| > 0 {
      assert xs == [xs[0]] + xs[1..];
      DistinctOnce(xs[1..], x);
      if xs[0] == x {
        assert x !in xs[1..];
      }
    }
  }

  /** `commonTone`: the value of the largest tone group, or "N/A" when there
      is none (or its value is empty). */
  function CommonTone(notes: seq<Note>): (r: String)
    ensures Tones(notes) == [] ==> r == "N/A"
    ensures r != "N/A" ==>
      (r in Tones(notes) && forall t :: multiset(Tones(notes))[t] <= multiset(Tones(notes))[r])
  {
    var ranked := Ranked(Tones(notes));
    if |ranked| == 0 || ranked[0] == "" then "N/A"
    else
      LeaderIsLargest(Tones(notes), ranked);
      ranked[0]
  }

  /** The head of a ranking has the largest count of all values. */
  lemma LeaderIsLargest(values: seq<String>, ranked: seq<String>)
    requires ranked == Ranked(values) && |ranked| > 0
    ensures forall t :: multiset(values)[t] <= multiset(values)[ranked[0]]
  {
    forall t
      ensures multiset(values)[t] <= multiset(values)[ranked[0]]
    {
      if t in values {
        var k :| 0 <= k < |ranked| && ranked[k] == t;
        if k > 0 {
          assert multiset(values)[ranked[0]] >= multiset(values)[ranked[k]];
        }
      }
    }
  }

  /** With tones drawn from the schema enum, a note with a tone makes the
      common tone a real one. */
  lemma CommonToneOfValidTones(notes: seq<Note>)
    requires forall i :: 0 <= i < |Tones(notes)| ==> Tones(notes)[i] in ToneValues
    requires Tones(notes) != []
    ensures CommonTone(notes) in ToneValues
  {
    var tones := Tones(notes);
    var ranked := Ranked(tones);
    assert tones[0] in ranked;
    var t := ranked[0];
    assert t in tones;
    ToneValueNonEmpty(t);
  }

  lemma ToneValueNonEmpty(t: String)
    requires t in ToneValues
    ensures |t| > 0
  {
    assert |ToneValues[0]| > 0 && |ToneValues[1]| > 0 && |ToneValues[2]| > 0 && |ToneValues[3]| > 0;
  }

  /** `topKeywords`: at most ten distinct keywords, most frequent first. */
  function TopKeywords(notes: seq<Note>): (r: seq<String>)
    ensures |r| <= 10
    ensures Distinct(r)
    ensures forall i :: 0 <= i < |r| ==> r[i] in AllKeywords(notes)
    ensures SortedDesc(r, (x: String) => multiset(AllKeywords(notes))[x])
  {
    var ranked := Ranked(AllKeywords(notes));
    PrefixOfRanking(ranked, 10, (x: String) => multiset(AllKeywords(notes))[x]);
    Take(ranked, 10)
  }

  /** The first `n` of a ranking are a ranking of their own. */
  lemma PrefixOfRanking(ranked: seq<String>, n: nat, key: String -> int)
    requires Distinct(ranked) && SortedDesc(ranked, key)
    ensures Distinct(Take(ranked, n)) && SortedDesc(Take(ranked, n), key)
    ensures forall i :: 0 <= i < |Take(ranked, n)| ==> Take(ranked, n)[i] in ranked
  {
    var r := Take(ranked, n);
    assert forall i :: 0 <= i < |r| ==> r[i] == ranked[i];
  }

  /** A keyword left out of the top ten is no more frequent than any keyword
      in it, and it can only be left out when all ten places are taken. */
  lemma LeftOutKeywordIsLessFrequent(notes: seq<Note>, k: String)
    requires k in AllKeywords(notes) && k !in TopKeywords(notes)
    ensures |TopKeywords(notes)| == 10
    ensures forall i :: 0 <= i < 10 ==>
      multiset(AllKeywords(notes))[k] <= multiset(AllKeywords(notes))[TopKeywords(notes)[i]]
  {
    var values := AllKeywords(notes);
    var ranked := Ranked(values);
    var r := TopKeywords(notes);
    assert k in ranked;
    assert r == ranked[..|r|];
    BeyondPrefixIsSmaller(ranked, (x: String) => multiset(values)[x], |r|, k);
  }

  // ---------------------------------------------------------------------------

  /** The `data` of the dashboard response. */
  datatype Dashboard = Dashboard(
    totalNotes: nat,
    categoryCount: map<String, nat>,
    analyzedNotes: nat,
    commonTone: String,
    topKeywords: seq<String>)

  /** `getDashboardStats` over the requester's notes. */
  function DashboardStats(store: seq<Note>, user: String): (d: Dashboard)
    ensures d.analyzedNotes <= d.totalNotes
    ensures forall c :: c in d.categoryCount ==> 0 < d.categoryCount[c] <= d.totalNotes
    ensures |d.topKeywords| <= 10
  {
    var mine := Mine(store, user);
    CountBelowTotal(mine);
    Dashboard(|mine|, CategoryCount(mine), CountAnalyzed(mine), CommonTone(mine), TopKeywords(mine))
  }

  lemma {:induction false} CountBelowTotal(notes: seq<Note>)
    ensures forall c :: CountCategory(notes, c) <= |notes|
  {
    if |notes| > 0 {
      CountBelowTotal(notes[1..]);
    }
  }
}

=== FILE: notes_service.dfy ===
/** The bulk analysis of frontend/src/services/notesService.js
    (`analyzeMultipleNotes`): one `POST /ai/analyze/note/:id` per id, each
    turned into a result record, and the counts over them. The requests run
    concurrently in the source; here their outcomes are an input sequence,
    one per id, in the order of the ids. */
module NotesService {
  import opened Wrappers
  import opened Text
  import opened AiController

  /** The JSON body of a successful `analyzeNote` response: `success`,
      `message`, and `data` holding the note and the analysis. */
  datatype AnalyzeBody = AnalyzeBody(success: bool, message: String, data: NoteAnalysis)

  /** What one request ends in: the body of a 2xx response, or a failure with
      the `error` field of the error response, if it had one. */
  datatype Outcome = Reached(body: AnalyzeBody) | Failed(serverError: Option<String>)

  /** One entry of `results`: `{id, success: true, data}` or `{id, success: false, error}`. */
  datatype BulkResult = BulkResult(id: String, success: bool, data: Option<AnalyzeBody>, error: Option<String>)

  /** The `data` of the bulk answer. */
  datatype BulkData = BulkData(processed: nat, successful: nat, failed: nat, results: seq<BulkResult>)

  const AnalysisFailed: String := "Analysis failed"

  /** `error.response?.data?.error || 'Analysis failed'`: an empty server text
      is falsy and also gives the default. */
  function FailureText(serverError: Option<String>): (t: String)
    ensures t != ""
    ensures serverError.Some? && serverError.value != "" ==> t == serverError.value
    ensures serverError.None? || serverError.value == "" ==> t == AnalysisFailed
  {
    if serverError.Some? && serverError.value != "" then serverError.value else AnalysisFailed
  }

  /** The result record of one request. */
  function ResultOf(id: String, o: Outcome): (r: BulkResult)
    ensures r.id == id
    ensures r.success <==> o.Reached?
    ensures r.success ==> r.data == Some(o.body) && r.error.None?
    ensures !r.success ==> r.data.None? && r.error == Some(FailureText(o.serverError))
  {
    match o
    case Reached(b) => BulkResult(id, true, Some(b), None)
    case Failed(e) => BulkResult(id, false, None, Some(FailureText(e)))
  }

  /** `results.filter(r => r.success).length` */
  function CountSuccessful(rs: seq<BulkResult>): (k: nat)
    ensures k <= |rs|
    ensures k == 0 <==> forall i :: 0 <= i < |rs| ==> !rs[i].success
    ensures k == |rs| <==> forall i :: 0 <= i < |rs| ==> rs[i].success
  {
    if |rs| == 0 then 0
    else
      assert forall i :: 1 <= i < |rs| ==> rs[i] == rs[1..][i - 1];
      (if rs[0].success then 1 else 0) + CountSuccessful(rs[1..])
  }

  /** `results.filter(r => !r.success).length` */
  function CountFailed(rs: seq<BulkResult>): (k: nat)
    ensures k <= |rs|
    ensures k == 0 <==> forall i :: 0 <= i < |rs| ==> rs[i].success
    ensures k == |rs| <==> forall i :: 0 <= i < |rs| ==> !rs[i].success
  {
    if |rs| == 0 then 0
    else
      assert forall i :: 1 <= i < |rs| ==> rs[i] == rs[1..][i - 1];
      (if rs[0].success then 0 else 1) + CountFailed(rs[1..])
  }

  /** Every result is either a success or a failure. */
  lemma {:induction false} CountsAddUp(rs: seq<BulkResult>)
    ensures CountSuccessful(rs) + CountFailed(rs) == |rs|
  {
    if |rs| > 0 {
      CountsAddUp(rs[1..]);
    }
  }

  /** `analyzeMultipleNotes(noteIds)`; the outer `success` is always true. */
  function AnalyzeMultiple(ids: seq<String>, outcomes: seq<Outcome>): (d: BulkData)
    requires |outcomes| == |ids|
    ensures |d.results| == |ids| && d.processed == |ids|
    ensures forall i :: 0 <= i < |ids| ==> d.results[i] == ResultOf(ids[i], outcomes[i])
    ensures d.successful + d.failed == d.processed
    ensures d.successful == CountSuccessful(d.results)
  {
    var rs := seq(|ids|, i requires 0 <= i < |ids| => ResultOf(ids[i], outcomes[i]));
    CountsAddUp(rs);
    BulkData(|rs|, CountSuccessful(rs), CountFailed(rs), rs)
  }
}

=== FILE: notes_slice.dfy ===
/** The client-side notes state of frontend/src/store/slices/notesSlice.js:
    the `searchNotes` and `clearSearch` reducers and the settled cases of the
    create, update, delete, pin, analysis, bulk-analysis and clear-analysis
    requests. Each reducer is a function from state to state; what a request
    returned is the reducer's argument. */
module NotesSlice {
  import opened Wrappers
  import opened Text
  import opened NoteSchema
  import opened AiController
  import opened NotesService

  /** `aiLoading`: `null`, the id of the note being analysed, or a flag (the
      text analysis and `clearAILoading` store booleans in the same field). */
  datatype AiLoading = Idle | Analyzing(id: String) | Flag(on: bool)

  datatype Filters = Filters(category: String, search: String)

  datatype BulkState = BulkState(processing: bool, progress: nat, total: nat, results: seq<BulkResult>)

  /** The parts of the slice state these reducers touch. */
  datatype State = State(
    notes: seq<Note>,
    currentNote: Option<Note>,
    error: Option<String>,
    searchResults: seq<Note>,
    filters: Filters,
    operationLoading: bool,
    aiLoading: AiLoading,
    bulk: BulkState)

  // ---------------------------------------------------------------------------
  // search

  /** `a` is `b` with some elements left out, the rest in order. */
  predicate SubseqOf<T(==)>(a: seq<T>, b: seq<T>)
    decreases |b|
  {
    if |a| == 0 then true
    else if |b| == 0 then false
    else (a[0] == b[0] && SubseqOf(a[1..], b[1..])) || SubseqOf(a, b[1..])
  }

  /** `notes.filter(keep)` */
  function Keep(notes: seq<Note>, keep: Note -> bool): (r: seq<Note>)
    ensures forall n :: n in r <==> n in notes && keep(n)
    ensures forall n :: multiset(r)[n] == if keep(n) then multiset(notes)[n] else 0
    ensures SubseqOf(r, notes)
    ensures (forall i :: 0 <= i < |notes| ==> keep(notes[i])) ==> r == notes
  {
    if |notes| == 0 then []
    else
      var rest := Keep(notes[1..], keep);
      assert forall n :: n in notes <==> n == notes[0] || n in notes[1..];
      assert notes == [notes[0]] + notes[1..];
      if keep(notes[0]) then
        assert ([notes[0]] + rest)[1..] == rest;
        [notes[0]] + rest
      else rest
  }

  /** Some element of `xs` contains `t` once lower-cased (`xs.some(x => x.toLowerCase().includes(t))`). */
  predicate SomeContains(xs: seq<String>, t: String) {
    exists i :: 0 <= i < |xs| && Contains(Lower(xs[i]), t)
  }

  /** The text test of `searchNotes` for a lower-cased search term. */
  predicate TextHit(n: Note, term: String) {
    || Contains(Lower(n.title), term)
    || Contains(Lower(n.content), term)
    || SomeContains(n.tags, term)
    || (n.aiAnalysis.Some? && SomeContains(n.aiAnalysis.value.keywords, term))
  }

  /** `searchNotes({query, category})`: an empty query or category filters nothing. */
  function SearchNotes(s: State, query: String, category: String): (r: State)
    ensures r == s.(filters := Filters(category, query), searchResults := r.searchResults)
    ensures SubseqOf(r.searchResults, s.notes)
    ensures forall n :: n in r.searchResults <==>
      && n in s.notes
      && (query == "" || TextHit(n, Lower(query)))
      && (category == "" || n.category == category)
    ensures forall n ::
              multiset(r.searchResults)[n] ==
              if (query == "" || TextHit(n, Lower(query))) && (category == "" || n.category == category)
              then multiset(s.notes)[n] else 0
  {
    var byText := if query != "" then Keep(s.notes, (n: Note) => TextHit(n, Lower(query))) else s.notes;
    var byCategory := if category != "" then Keep(byText, (n: Note) => n.category == category) else byText;
    SubseqRefl(s.notes);
    SubseqRefl(byText);
    SubseqTrans(byCategory, byText, s.notes);
    forall n
      ensures multiset(byCategory)[n] ==
        (if (query == "" || TextHit(n, Lower(query))) && (category == "" || n.category == category)
         then multiset(s.notes)[n] else 0)
    {
      assert multiset(byText)[n] == if query == "" || TextHit(n, Lower(query)) then multiset(s.notes)[n] else 0;
    }
    s.(filters := Filters(category, query), searchResults := byCategory)
  }

  /** Taking a subsequence of a subsequence gives a subsequence. */
  lemma {:induction false} SubseqTrans<T>(a: seq<T>, b: seq<T>, c: seq<T>)
    requires SubseqOf(a, b) && SubseqOf(b, c)
    ensures SubseqOf(a, c)
    decreases |c|
  {
    if |a| > 0 && |c| > 0 {
      if b[0] == c[0] && SubseqOf(b[1..], c[1..]) {
        if a[0] == b[0] && SubseqOf(a[1..], b[1..]) {
          SubseqTrans(a[1..], b[1..], c[1..]);
        } else {
          SubseqTrans(a, b[1..], c[1..]);
        }
      } else {
        SubseqTrans(a, b, c[1..]);
      }
    }
  }

  /** Every sequence is a subsequence of itself. */
  lemma {:induction false} SubseqRefl<T>(a: seq<T>)
    ensures SubseqOf(a, a)
  {
    if |a| > 0 {
      SubseqRefl(a[1..]);
    }
  }

  /** With an empty query and no category the results are all the notes, in order. */
  lemma EmptySearchKeepsAll(s: State)
    ensures SearchNotes(s, "", "").searchResults == s.notes
  {
  }

  /** `clearSearch` */
  function ClearSearch(s: State): (r: State)
    ensures r.searchResults == [] && r.filters == Filters("", "")
    ensures r.(searchResults := s.searchResults, filters := s.filters) == s
  {
    s.(searchResults := [], filters := Filters("", ""))
  }

  /** Clearing the search forgets every earlier search. */
  lemma ClearForgetsSearch(s: State, query: String, category: String)
    ensures ClearSearch(SearchNotes(s, query, category)) == ClearSearch(s)
  {
  }

  // ---------------------------------------------------------------------------
  // replace and delete by id

  /** `findIndex(note => note._id === id)`, `None` for -1. */
  function FindIndex(notes: seq<Note>, id: String): (r: Option<nat>)
    ensures r.None? <==> forall i :: 0 <= i < |notes| ==> notes[i].id != id
    ensures r.Some? ==>
      r.value < |notes| && notes[r.value].id == id
      && forall j :: 0 <= j < r.value ==> notes[j].id != id
  {
    if |notes| == 0 then None
    else if notes[0].id == id then Some(0)
    else match FindIndex(notes[1..], id)
      case None => None
      case Some(k) => Some(k + 1)
  }

  /** The first note with `m`'s id replaced by `m`; no note is added when none matches. */
  function ReplaceById(notes: seq<Note>, m: Note): (r: seq<Note>)
    ensures |r| == |notes|
    ensures (forall i :: 0 <= i < |notes| ==> notes[i].id != m.id) ==> r == notes
    ensures forall i :: 0 <= i < |notes| ==>
      r[i] == notes[i] || (r[i] == m && notes[i].id == m.id && forall j :: 0 <= j < i ==> notes[j].id != m.id)
    ensures (exists i :: 0 <= i < |notes| && notes[i].id == m.id) ==> m in r
    ensures forall i ::
              (0 <= i < |notes| && notes[i].id == m.id
               && forall j :: 0 <= j < i ==> notes[j].id != m.id) ==> r[i] == m
  {
    match FindIndex(notes, m.id)
    case None => notes
    case Some(k) => notes[k := m]
  }

  /** Replacing with the same note again changes nothing. */
  lemma ReplaceIdempotent(notes: seq<Note>, m: Note)
    ensures ReplaceById(ReplaceById(notes, m), m) == ReplaceById(notes, m)
  {
    var once := ReplaceById(notes, m);
    match FindIndex(notes, m.id)
    case None =>
    case Some(k) =>
      assert once[k] == m;
      assert FindIndex(once, m.id) == Some(k) by {
        assert forall j :: 0 <= j < k ==> once[j] == notes[j];
      }
  }

  /** `currentNote` becomes `m` only when it is the note with `m`'s id. */
  function RefreshCurrent(current: Option<Note>, m: Note): (r: Option<Note>)
    ensures current.Some? && current.value.id == m.id ==> r == Some(m)
    ensures !(current.Some? && current.value.id == m.id) ==> r == current
  {
    if current.Some? && current.value.id == m.id then Some(m) else current
  }

  /** The `fulfilled` case shared by update, pin and clear-analysis: the
      returned note takes the place of the stored one. */
  function NoteSaved(s: State, m: Note): (r: State)
    ensures r.notes == ReplaceById(s.notes, m) && r.currentNote == RefreshCurrent(s.currentNote, m)
    ensures !r.operationLoading && r.error.None?
    ensures r.(notes := s.notes, currentNote := s.currentNote, operationLoading := s.operationLoading, error := s.error) == s
  {
    s.(operationLoading := false, notes := ReplaceById(s.notes, m),
       currentNote := RefreshCurrent(s.currentNote, m), error := None)
  }

  /** `createNote.fulfilled`: the new note goes first. */
  function NoteCreated(s: State, m: Note): (r: State)
    ensures |r.notes| == |s.notes| + 1 && r.notes[0] == m && r.notes[1..] == s.notes
    ensures !r.operationLoading && r.error.None?
  {
    s.(operationLoading := false, notes := [m] + s.notes, error := None)
  }

  /** `deleteNote.fulfilled`: every note with the id goes. */
  function NoteDeleted(s: State, id: String): (r: State)
    ensures forall n :: n in r.notes <==> n in s.notes && n.id != id
    ensures forall n :: multiset(r.notes)[n] == if n.id != id then multiset(s.notes)[n] else 0
    ensures SubseqOf(r.notes, s.notes)
    ensures r.currentNote.None? <==> s.currentNote.None? || s.currentNote.value.id == id
    ensures r.currentNote.Some? ==> r.currentNote == s.currentNote
    ensures !r.operationLoading && r.error.None?
  {
    s.(operationLoading := false, notes := Keep(s.notes, (n: Note) => n.id != id),
       currentNote := if s.currentNote.Some? && s.currentNote.value.id == id then None else s.currentNote,
       error := None)
  }

  /** Deleting a note just created with a fresh id gives back the old list. */
  lemma DeleteUndoesCreate(s: State, m: Note)
    requires forall i :: 0 <= i < |s.notes| ==> s.notes[i].id != m.id
    ensures NoteDeleted(NoteCreated(s, m), m.id).notes == s.notes
  {
    var t := NoteCreated(s, m);
    assert t.notes == [m] + s.notes;
    assert Keep(t.notes, (n: Note) => n.id != m.id) == Keep(s.notes, (n: Note) => n.id != m.id);
  }

  /** Deleting twice is deleting once. */
  lemma DeleteIdempotent(s: State, id: String)
    ensures NoteDeleted(NoteDeleted(s, id), id) == NoteDeleted(s, id)
  {
    var once := NoteDeleted(s, id);
    assert forall i :: 0 <= i < |once.notes| ==> once.notes[i] in once.notes;
    assert forall i :: 0 <= i < |once.notes| ==> once.notes[i].id != id;
    assert NoteDeleted(once, id).notes == once.notes;
  }

  /** `pending` of an operation: loading on, error cleared. */
  function OperationPending(s: State): (r: State)
    ensures r.operationLoading && r.error.None?
    ensures r.notes == s.notes && r.currentNote == s.currentNote
  {
    s.(operationLoading := true, error := None)
  }

  /** `rejected` of an operation: loading off, the message kept; the notes stay. */
  function OperationRejected(s: State, message: String): (r: State)
    ensures !r.operationLoading && r.error == Some(message)
    ensures r.notes == s.notes && r.currentNote == s.currentNote
  {
    s.(operationLoading := false, error := Some(message))
  }

  // ---------------------------------------------------------------------------
  // single-note analysis

  function AnalysisPending(s: State, id: String): (r: State)
    ensures r.aiLoading == Analyzing(id) && r.error.None? && r.notes == s.notes
  {
    s.(aiLoading := Analyzing(id), error := None)
  }

  /** `analyzeNote.fulfilled`, given `{note, analysis}`. */
  function AnalysisDone(s: State, data: NoteAnalysis): (r: State)
    ensures r.aiLoading == Idle && r.error.None?
    ensures r.notes == ReplaceById(s.notes, data.note)
    ensures r.currentNote == RefreshCurrent(s.currentNote, data.note)
    ensures r.operationLoading == s.operationLoading
  {
    s.(aiLoading := Idle, notes := ReplaceById(s.notes, data.note),
       currentNote := RefreshCurrent(s.currentNote, data.note), error := None)
  }

  function AnalysisRejected(s: State, message: String): (r: State)
    ensures r.aiLoading == Idle && r.error == Some(message) && r.notes == s.notes
  {
    s.(aiLoading := Idle, error := Some(message))
  }

  /** Whichever way the request settles, the analysing marker is cleared. */
  lemma AnalysisSettles(s: State, id: String, data: NoteAnalysis, message: String)
    ensures AnalysisPending(s, id).aiLoading.Analyzing?
    ensures AnalysisDone(AnalysisPending(s, id), data).aiLoading == Idle
    ensures AnalysisRejected(AnalysisPending(s, id), message).aiLoading == Idle
    ensures AnalysisRejected(AnalysisPending(s, id), message).notes == s.notes
  {
  }

  // ---------------------------------------------------------------------------
  // bulk analysis

  function BulkPending(s: State, ids: seq<String>): (r: State)
    ensures r.bulk == BulkState(true, 0, |ids|, []) && r.error.None?
    ensures r.notes == s.notes
  {
    s.(bulk := BulkState(true, 0, |ids|, []), error := None)
  }

  /** Looking up `note` directly on a result's `data`. That `data` is the whole
      response body, whose top-level fields are `success`, `message` and
      `data`; it has no `note`, so the lookup is always undefined. */
  function BodyNote(b: AnalyzeBody): (r: Option<Note>)
    ensures r.None?
  {
    None
  }

  /** The notes after the `forEach` over the results, where `noteOf` says which
      note a successful result carries. A note is only ever replaced by one
      with its own id, so every position keeps its id, and without a
      successful result carrying a note nothing changes. */
  function ApplyResults(notes: seq<Note>, rs: seq<BulkResult>, noteOf: AnalyzeBody -> Option<Note>): (r: seq<Note>)
    ensures |r| == |notes|
    ensures forall i :: 0 <= i < |notes| ==> r[i].id == notes[i].id
    ensures (forall k :: 0 <= k < |rs| && rs[k].success && rs[k].data.Some? ==>
               noteOf(rs[k].data.value).None?) ==> r == notes
    decreases |rs|
  {
    if |rs| == 0 then notes
    else
      var next :=
        if rs[0].success && rs[0].data.Some? && noteOf(rs[0].data.value).Some?
        then ReplaceById(notes, noteOf(rs[0].data.value).value) else notes;
      ApplyResults(next, rs[1..], noteOf)
  }

  /** `analyzeMultipleNotes.fulfilled` as written: `result.data.note` on the
      response body. */
  function BulkDoneAsWritten(s: State, d: BulkData): (r: State)
    ensures !r.bulk.processing && r.bulk.progress == s.bulk.total && r.bulk.results == d.results
    ensures |r.notes| == |s.notes|
  {
    s.(bulk := s.bulk.(processing := false, progress := s.bulk.total, results := d.results),
       notes := ApplyResults(s.notes, d.results, BodyNote), error := None)
  }

  /** As written, no result ever reaches the list: after a bulk analysis every
      note keeps its old analysis, successful or not. */
  lemma {:induction false} BulkAsWrittenKeepsStaleNotes(s: State, d: BulkData)
    ensures BulkDoneAsWritten(s, d).notes == s.notes
  {
    NothingApplied(s.notes, d.results);
  }

  lemma {:induction false} NothingApplied(notes: seq<Note>, rs: seq<BulkResult>)
    ensures ApplyResults(notes, rs, BodyNote) == notes
    decreases |rs|
  {
    if |rs| > 0 {
      NothingApplied(notes, rs[1..]);
    }
  }

  /** The note a successful result carries: `result.data.data.note`. */
  function CarriedNote(b: AnalyzeBody): Option<Note> {
    Some(b.data.note)
  }

  /** `analyzeMultipleNotes.fulfilled` reading the note where the body holds it. */
  function BulkDone(s: State, d: BulkData): (r: State)
    ensures !r.bulk.processing && r.bulk.progress == s.bulk.total && r.bulk.results == d.results
    ensures r.bulk.total == s.bulk.total && r.error.None?
    ensures |r.notes| == |s.notes|
  {
    s.(bulk := s.bulk.(processing := false, progress := s.bulk.total, results := d.results),
       notes := ApplyResults(s.notes, d.results, CarriedNote), error := None)
  }

  /** One result of the `forEach`, with the note read where the body holds it. */
  function Step(notes: seq<Note>, x: BulkResult): (r: seq<Note>)
    ensures |r| == |notes|
    ensures forall i :: 0 <= i < |notes| ==> r[i].id == notes[i].id
  {
    if x.success && x.data.Some? then ReplaceById(notes, x.data.value.data.note) else notes
  }

  /** The `forEach` with the intended reading is its first result, then the rest. */
  lemma ApplyStep(notes: seq<Note>, rs: seq<BulkResult>)
    requires |rs| > 0
    ensures ApplyResults(notes, rs, CarriedNote) == ApplyResults(Step(notes, rs[0]), rs[1..], CarriedNote)
  {
  }

  /** A note that no successful result names stays as it was, and the list
      never grows or shrinks. */
  lemma {:induction false} UnnamedNotesUnchanged(notes: seq<Note>, rs: seq<BulkResult>, i: nat)
    requires i < |notes|
    requires forall k :: 0 <= k < |rs| && rs[k].success && rs[k].data.Some? ==>
      rs[k].data.value.data.note.id != notes[i].id
    ensures ApplyResults(notes, rs, CarriedNote)[i] == notes[i]
    decreases |rs|
  {
    if |rs| > 0 {
      var next := Step(notes, rs[0]);
      ApplyStep(notes, rs);
      assert next[i] == notes[i];
      assert forall k :: 0 <= k < |rs[1..]| ==> rs[1..][k] == rs[k + 1];
      UnnamedNotesUnchanged(next, rs[1..], i);
    }
  }

  /** When the last successful result for a listed note is the only one naming
      it, the list ends up holding that result's note. */
  lemma {:induction false} SuccessfulResultIsApplied(notes: seq<Note>, rs: seq<BulkResult>, k: nat)
    requires k < |rs| && rs[k].success && rs[k].data.Some?
    requires exists i :: 0 <= i < |notes| && notes[i].id == rs[k].data.value.data.note.id
    requires forall j :: 0 <= j < |rs| && j != k && rs[j].success && rs[j].data.Some? ==>
      rs[j].data.value.data.note.id != rs[k].data.value.data.note.id
    ensures rs[k].data.value.data.note in ApplyResults(notes, rs, CarriedNote)
    decreases |rs|
  {
    var m := rs[k].data.value.data.note;
    var next := Step(notes, rs[0]);
    ApplyStep(notes, rs);
    if k == 0 {
      var i := PlacedByStep(notes, rs[0]);
      OthersAfterFirst(rs, m.id);
      UnnamedNotesUnchanged(next, rs[1..], i);
    } else {
      StepKeepsId(notes, rs[0], m.id);
      OthersAfterLater(rs, k);
      SuccessfulResultIsApplied(next, rs[1..], k - 1);
    }
  }

  /** A successful result whose note is listed puts it in place. */
  lemma PlacedByStep(notes: seq<Note>, x: BulkResult) returns (i: nat)
    requires x.success && x.data.Some?
    requires exists i :: 0 <= i < |notes| && notes[i].id == x.data.value.data.note.id
    ensures i < |notes| && Step(notes, x)[i] == x.data.value.data.note
  {
    i := FindIndex(notes, x.data.value.data.note.id).value;
  }

  /** A listed id stays listed after one result. */
  lemma StepKeepsId(notes: seq<Note>, x: BulkResult, id: String)
    requires exists i :: 0 <= i < |notes| && notes[i].id == id
    ensures exists i :: 0 <= i < |Step(notes, x)| && Step(notes, x)[i].id == id
  {
    var i :| 0 <= i < |notes| && notes[i].id == id;
    assert Step(notes, x)[i].id == id;
  }

  /** No later successful result names the first one's note. */
  lemma OthersAfterFirst(rs: seq<BulkResult>, id: String)
    requires |rs| > 0
    requires forall j :: 0 < j < |rs| && rs[j].success && rs[j].data.Some? ==>
      rs[j].data.value.data.note.id != id
    ensures forall j :: 0 <= j < |rs[1..]| && rs[1..][j].success && rs[1..][j].data.Some? ==>
      rs[1..][j].data.value.data.note.id != id
  {
    assert forall j :: 0 <= j < |rs[1..]| ==> rs[1..][j] == rs[j + 1];
  }

  /** The uniqueness premise carries over to the rest of the results. */
  lemma OthersAfterLater(rs: seq<BulkResult>, k: nat)
    requires 0 < k < |rs| && rs[k].success && rs[k].data.Some?
    requires forall j :: 0 <= j < |rs| && j != k && rs[j].success && rs[j].data.Some? ==>
      rs[j].data.value.data.note.id != rs[k].data.value.data.note.id
    ensures rs[1..][k - 1] == rs[k]
    ensures forall j :: 0 <= j < |rs[1..]| && j != k - 1 && rs[1..][j].success && rs[1..][j].data.Some? ==>
      rs[1..][j].data.value.data.note.id != rs[k].data.value.data.note.id
  {
    assert forall j :: 0 <= j < |rs[1..]| ==> rs[1..][j] == rs[j + 1];
  }

  /** Pending then fulfilled: the progress reaches the number of ids sent. */
  lemma BulkCompletes(s: State, ids: seq<String>, outcomes: seq<Outcome>)
    requires |outcomes| == |ids|
    ensures BulkDone(BulkPending(s, ids), AnalyzeMultiple(ids, outcomes)).bulk.progress == |ids|
    ensures |BulkDone(BulkPending(s, ids), AnalyzeMultiple(ids, outcomes)).bulk.results| == |ids|
  {
  }

  function BulkRejected(s: State, message: String): (r: State)
    ensures !r.bulk.processing && r.error == Some(message) && r.notes == s.notes
  {
    s.(bulk := s.bulk.(processing := false), error := Some(message))
  }
}

=== FILE: register_form.dfy ===
/** The client-side checks of the registration page
    (frontend/src/pages/Register.jsx): `validateForm`, which gives each field at
    most one message (the first check it fails), and `getPasswordStrength`.
    The regular expressions are written out as predicates over characters. */
module RegisterForm {
  import opened Wrappers
  import opened Text

  datatype Form = Form(username: String, email: String, password: String,
                       confirmPassword: String, agreeToTerms: bool)

  /** One entry per field; `None` when the field has no message. */
  datatype FormErrors = FormErrors(
    username: Option<String>,
    email: Option<String>,
    password: Option<String>,
    confirmPassword: Option<String>,
    agreeToTerms: Option<String>)

  const UsernameRequired: String := "Username is required"
  const UsernameTooShort: String := "Username must be at least 3 characters"
  const UsernameBadChars: String := "Username can only contain letters, numbers, and underscores"
  const EmailRequired: String := "Email is required"
  const EmailInvalid: String := "Please enter a valid email address"
  const PasswordRequired: String := "Password is required"
  const PasswordTooShort: String := "Password must be at least 6 characters"
  const PasswordTooSimple: String :=
    "Password must contain at least one uppercase letter, " + "one lowercase letter, and one number"
  const ConfirmRequired: String := "Please confirm your password"
  const ConfirmMismatch: String := "Passwords do not match"
  const TermsRequired: String := "You must agree to the terms and conditions"

  // ---------------------------------------------------------------------------
  // username

  /** `[a-zA-Z0-9_]` */
  predicate IsWordChar(c: char) {
    IsAlnum(c) || c == '_'
  }

  /** What an accepted username is: at least three UTF-16 code units, all of
      them letters, digits or underscores. */
  predicate UsernameRule(u: String) {
    Utf16Length(u) >= 3 && forall k :: 0 <= k < |u| ==> IsWordChar(u[k])
  }

  function UsernameError(u: String): (r: Option<String>)
    ensures r.None? <==> UsernameRule(u)
    ensures Blank(u) ==> r == Some(UsernameRequired)
    ensures !Blank(u) && Utf16Length(u) < 3 ==> r == Some(UsernameTooShort)
  {
    if Trim(u) == "" then Some(UsernameRequired)
    else if Utf16Length(u) < 3 then Some(UsernameTooShort)
    else if !(forall k :: 0 <= k < |u| ==> IsWordChar(u[k])) then Some(UsernameBadChars)
    else
      assert !IsSpace(u[0]);
      None
  }

  // ---------------------------------------------------------------------------
  // email

  /** `[^\s@]` */
  predicate Plain(c: char) {
    c != '@' && !IsSpace(c)
  }

  predicate PlainRun(t: String) {
    forall k :: 0 <= k < |t| ==> Plain(t[k])
  }

  /** `^[^\s@]+@[^\s@]+\.[^\s@]+$`: `i` is the position of the `@`, `j` that of
      the matched `.`, and each of the three runs is non-empty. */
  predicate EmailPattern(s: String) {
    exists i, j :: 0 < i && i + 1 < j && j + 1 < |s| && s[i] == '@' && s[j] == '.'
      && PlainRun(s[..i]) && PlainRun(s[i + 1..j]) && PlainRun(s[j + 1..])
  }

  /** The same language described by what it contains: no white space, exactly
      one `@`, not first, and after it a `.` with a character on either side. */
  predicate EmailShape(s: String) {
    && (forall k :: 0 <= k < |s| ==> !IsSpace(s[k]))
    && (exists i :: 0 < i < |s| && s[i] == '@'
         && (forall k :: 0 <= k < |s| && s[k] == '@' ==> k == i)
         && (exists j :: i + 1 < j < |s| - 1 && s[j] == '.'))
  }

  lemma EmailPatternIsShape(s: String)
    ensures EmailPattern(s) <==> EmailShape(s)
  {
    if EmailPattern(s) {
      PatternHasShape(s);
    }
    if EmailShape(s) {
      ShapeMatchesPattern(s);
    }
  }

  lemma PatternHasShape(s: String)
    requires EmailPattern(s)
    ensures EmailShape(s)
  {
    var i, j :| 0 < i && i + 1 < j && j + 1 < |s| && s[i] == '@' && s[j] == '.'
      && PlainRun(s[..i]) && PlainRun(s[i + 1..j]) && PlainRun(s[j + 1..]);
    forall k | 0 <= k < |s| && k != i
      ensures Plain(s[k])
    {
      if k < i { assert s[k] == s[..i][k]; }
      else if k < j { assert s[k] == s[i + 1..j][k - i - 1]; }
      else if k > j { assert s[k] == s[j + 1..][k - j - 1]; }
    }
  }

  lemma ShapeMatchesPattern(s: String)
    requires EmailShape(s)
    ensures EmailPattern(s)
  {
    var i :| 0 < i < |s| && s[i] == '@'
      && (forall k :: 0 <= k < |s| && s[k] == '@' ==> k == i)
      && (exists j :: i + 1 < j < |s| - 1 && s[j] == '.');
    var j :| i + 1 < j < |s| - 1 && s[j] == '.';
    assert forall k :: 0 <= k < |s| && k != i ==> Plain(s[k]);
    assert PlainRun(s[..i]) && PlainRun(s[i + 1..j]) && PlainRun(s[j + 1..]);
  }

  function EmailError(e: String): (r: Option<String>)
    ensures r.None? <==> EmailPattern(e)
    ensures Blank(e) ==> r == Some(EmailRequired)
  {
    if Trim(e) == "" then
      assert !EmailPattern(e) by {
        if |e| > 0 { assert IsSpace(e[0]); }
      }
      Some(EmailRequired)
    else if !EmailPattern(e) then Some(EmailInvalid)
    else None
  }

  // ---------------------------------------------------------------------------
  // password

  predicate HasLower(p: String) {
    exists k :: 0 <= k < |p| && IsLower(p[k])
  }

  predicate HasUpper(p: String) {
    exists k :: 0 <= k < |p| && IsUpper(p[k])
  }

  predicate HasDigit(p: String) {
    exists k :: 0 <= k < |p| && IsDigit(p[k])
  }

  /** `[!@#$%^&*(),.?":{}|<>]` */
  const Specials: set<char> := {
    '!', '@', '#', '$', '%', '^', '&', '*', '(', ')', ',', '.', '?', '"', ':', '{', '}', '|', '<', '>'
  }

  predicate HasSpecial(p: String) {
    exists k :: 0 <= k < |p| && p[k] in Specials
  }

  /** The characters at which the `.` of a regular expression stops. */
  predicate IsLineTerminator(c: char) {
    c == '\n' || c == '\r' || c == '\U{2028}' || c == '\U{2029}'
  }

  /** Where the line holding position `k` of `p` ends: the first line
      terminator at or after `k`, or the end of `p`. */
  function LineEnd(p: String, k: nat): (e: nat)
    requires k <= |p|
    ensures k <= e <= |p|
    ensures forall m :: k <= m < e ==> !IsLineTerminator(p[m])
    ensures e < |p| ==> IsLineTerminator(p[e])
    decreases |p| - k
  {
    if k < |p| && !IsLineTerminator(p[k]) then LineEnd(p, k + 1) else k
  }

  /** The lookaheads `(?=.*[a-z])(?=.*[A-Z])(?=.*\d)` tried at position `k`:
      `.*` cannot cross a line terminator, so all three must be found between
      `k` and the end of its line. */
  predicate LookaheadsAt(p: String, k: nat)
    requires k <= |p|
  {
    var line := p[k..LineEnd(p, k)];
    HasLower(line) && HasUpper(line) && HasDigit(line)
  }

  /** `test` of the unanchored lookahead pattern: some starting position
      satisfies all three lookaheads. A password it accepts holds all three
      kinds of character. */
  function MixedLine(p: String): (b: bool)
    ensures b ==> HasLower(p) && HasUpper(p) && HasDigit(p)
  {
    var b := exists k :: 0 <= k <= |p| && LookaheadsAt(p, k);
    if b then LookaheadsGiveAll(p); b else b
  }

  /** The line found by a successful lookahead lies inside the password. */
  lemma LookaheadsGiveAll(p: String)
    requires exists k :: 0 <= k <= |p| && LookaheadsAt(p, k)
    ensures HasLower(p) && HasUpper(p) && HasDigit(p)
  {
    var k :| 0 <= k <= |p| && LookaheadsAt(p, k);
    KindsOfSlice(p, k, LineEnd(p, k));
  }

  /** What an accepted password is: at least six UTF-16 code units, and one line
      of it holding a lower-case letter, an upper-case letter and a digit. */
  predicate PasswordRule(p: String) {
    Utf16Length(p) >= 6 && MixedLine(p)
  }

  function PasswordError(p: String): (r: Option<String>)
    ensures r.None? <==> PasswordRule(p)
    ensures p == "" ==> r == Some(PasswordRequired)
    ensures p != "" && Utf16Length(p) < 6 ==> r == Some(PasswordTooShort)
    ensures p != "" && Utf16Length(p) >= 6 && !MixedLine(p) ==> r == Some(PasswordTooSimple)
  {
    if p == "" then Some(PasswordRequired)
    else if Utf16Length(p) < 6 then Some(PasswordTooShort)
    else if !MixedLine(p) then Some(PasswordTooSimple)
    else None
  }

  /** A line holding all three kinds of character makes the whole password
      hold them. */
  lemma MixedLineHasAll(p: String)
    requires MixedLine(p)
    ensures HasLower(p) && HasUpper(p) && HasDigit(p)
  {
  }

  /** Whatever kind of character a slice holds, the whole string holds. */
  lemma KindsOfSlice(s: String, i: nat, j: nat)
    requires i <= j <= |s|
    ensures HasLower(s[i..j]) ==> HasLower(s)
    ensures HasUpper(s[i..j]) ==> HasUpper(s)
    ensures HasDigit(s[i..j]) ==> HasDigit(s)
  {
    var t := s[i..j];
    if HasLower(t) {
      var a :| 0 <= a < |t| && IsLower(t[a]);
      assert s[i + a] == t[a];
    }
    if HasUpper(t) {
      var a :| 0 <= a < |t| && IsUpper(t[a]);
      assert s[i + a] == t[a];
    }
    if HasDigit(t) {
      var a :| 0 <= a < |t| && IsDigit(t[a]);
      assert s[i + a] == t[a];
    }
  }

  /** Without a line terminator the pattern asks only that each kind occur
      somewhere. */
  lemma OneLineMixed(p: String)
    requires forall m :: 0 <= m < |p| ==> !IsLineTerminator(p[m])
    ensures MixedLine(p) <==> HasLower(p) && HasUpper(p) && HasDigit(p)
  {
    assert LineEnd(p, 0) == |p|;
    assert p[0..LineEnd(p, 0)] == p;
    if HasLower(p) && HasUpper(p) && HasDigit(p) {
      assert LookaheadsAt(p, 0);
    } else if MixedLine(p) {
      MixedLineHasAll(p);
    }
  }

  /** Kinds split across a line break are not enough: a first line without an
      upper-case letter and a second without a lower-case one are rejected,
      although together they hold all three kinds. */
  lemma SplitLinesRejected(a: String, t: char, b: String)
    requires forall m :: 0 <= m < |a| ==> !IsLineTerminator(a[m])
    requires IsLineTerminator(t)
    requires !HasUpper(a) && !HasLower(b)
    ensures !MixedLine(a + [t] + b)
    ensures HasLower(a) && HasDigit(a) && HasUpper(b) ==>
      var p := a + [t] + b; HasLower(p) && HasUpper(p) && HasDigit(p)
  {
    var p := a + [t] + b;
    assert p[..|a|] == a && p[|a| + 1..] == b;
    KindsOfSlice(p, 0, |a|);
    KindsOfSlice(p, |a| + 1, |p|);
    forall k | 0 <= k <= |p|
      ensures !LookaheadsAt(p, k)
    {
      var e := LineEnd(p, k);
      if k <= |a| {
        LineEndAt(p, k, |a|);
        assert p[k..e] == a[k..];
        KindsOfSlice(a, k, |a|);
      } else {
        assert p[k..e] == b[k - |a| - 1..e - |a| - 1];
        KindsOfSlice(b, k - |a| - 1, e - |a| - 1);
      }
    }
  }

  /** The line starting at `k` runs to the first terminator `t` past it. */
  lemma LineEndAt(p: String, k: nat, t: nat)
    requires k <= t < |p| && IsLineTerminator(p[t])
    requires forall m :: k <= m < t ==> !IsLineTerminator(p[m])
    ensures LineEnd(p, k) == t
  {
  }

  function ConfirmError(p: String, c: String): (r: Option<String>)
    ensures r.None? <==> c != "" && c == p
  {
    if c == "" then Some(ConfirmRequired)
    else if p != c then Some(ConfirmMismatch)
    else None
  }

  function TermsError(agreed: bool): (r: Option<String>)
    ensures r.None? <==> agreed
  {
    if !agreed then Some(TermsRequired) else None
  }

  /** `validateForm`: the messages, and whether there are none. */
  function ValidateForm(f: Form): (r: (bool, FormErrors))
    ensures r.0 <==>
      && UsernameRule(f.username) && EmailPattern(f.email) && PasswordRule(f.password)
      && f.confirmPassword == f.password && f.agreeToTerms
    ensures r.1.confirmPassword == ConfirmError(f.password, f.confirmPassword)
    ensures r.1.username == UsernameError(f.username) && r.1.email == EmailError(f.email)
    ensures r.1.password == PasswordError(f.password) && r.1.agreeToTerms == TermsError(f.agreeToTerms)
  {
    var errors := FormErrors(UsernameError(f.username), EmailError(f.email), PasswordError(f.password),
      ConfirmError(f.password, f.confirmPassword), TermsError(f.agreeToTerms));
    (errors.username.None? && errors.email.None? && errors.password.None?
      && errors.confirmPassword.None? && errors.agreeToTerms.None?, errors)
  }

  // ---------------------------------------------------------------------------
  // strength

  datatype Strength = Strength(labelText: String, variant: String)

  const Labels: seq<Strength> := [
    Strength("Very Weak", "danger"), Strength("Weak", "danger"), Strength("Fair", "warning"),
    Strength("Good", "info"), Strength("Strong", "success")]

  function Point(b: bool): nat {
    if b then 1 else 0
  }

  /** The number of the five criteria `p` meets. */
  function Criteria(p: String): (n: nat)
    ensures n <= 5
  {
    Point(Utf16Length(p) >= 6) + Point(HasLower(p)) + Point(HasUpper(p)) + Point(HasDigit(p)) + Point(HasSpecial(p))
  }

  /** The entry of `Labels` a password gets, -1 for none. */
  function Level(p: String): (k: int)
    ensures -1 <= k <= 4
    ensures k == -1 <==> p == ""
  {
    if p == "" then -1 else if Criteria(p) < 4 then Criteria(p) else 4
  }

  /** `getPasswordStrength`: no label for an empty password, otherwise the entry
      for the number of criteria met, four or more counting as four. */
  function PasswordStrength(p: String): (s: Strength)
    ensures p == "" ==> s == Strength("", "")
    ensures p != "" ==> s == Labels[Level(p)]
  {
    if p == "" then Strength("", "") else Labels[Level(p)]
  }

  /** Every password the form accepts is labelled "Strong". */
  lemma AcceptedPasswordIsStrong(p: String)
    requires PasswordError(p).None?
    ensures PasswordStrength(p) == Strength("Strong", "success")
  {
    MixedLineHasAll(p);
  }

  /** Meeting more of the criteria never lowers the label, and the label is
      "Strong" exactly when at least four are met. */
  lemma StrengthMonotone(p: String, q: String)
    requires p != "" && q != ""
    requires Utf16Length(p) >= 6 ==> Utf16Length(q) >= 6
    requires HasLower(p) ==> HasLower(q)
    requires HasUpper(p) ==> HasUpper(q)
    requires HasDigit(p) ==> HasDigit(q)
    requires HasSpecial(p) ==> HasSpecial(q)
    ensures Level(p) <= Level(q)
    ensures Level(p) == 4 <==> Criteria(p) >= 4
  {
  }
}

=== FILE: sorting.dfy ===
/** The descending sort by a numeric key that MongoDB's `$sort` stages
    perform, as an insertion sort. MongoDB leaves the order of equal keys
    unspecified; here an element goes in front of the ones it ties with. */
module Sorting {

  /** Keys never increase along `s`. */
  predicate SortedDesc<T>(s: seq<T>, key: T -> int) {
    forall i, j :: 0 <= i < j < |s| ==> key(s[i]) >= key(s[j])
  }

  /** `x` put in front of the first element whose key it reaches. */
  function Insert<T>(x: T, s: seq<T>, key: T -> int): (r: seq<T>)
    ensures |r| == |s| + 1
    ensures multiset(r) == multiset(s) + multiset{x}
  {
    if |s| == 0 || key(x) >= key(s[0]) then [x] + s
    else
      assert s == [s[0]] + s[1..];
      [s[0]] + Insert(x, s[1..], key)
  }

  /** Inserting into a sorted sequence keeps it sorted. */
  lemma {:induction false} InsertSorted<T>(x: T, s: seq<T>, key: T -> int)
    requires SortedDesc(s, key)
    ensures SortedDesc(Insert(x, s, key), key)
  {
    if |s| > 0 && key(x) < key(s[0]) {
      var rest := Insert(x, s[1..], key);
      InsertSorted(x, s[1..], key);
      assert forall y :: y in multiset(rest) ==> y == x || y in multiset(s[1..]);
      assert forall i :: 0 <= i < |rest| ==> key(s[0]) >= key(rest[i]) by {
        forall i | 0 <= i < |rest|
          ensures key(s[0]) >= key(rest[i])
        {
          assert rest[i] in multiset(rest);
          if rest[i] != x {
            var j :| 0 <= j < |s[1..]| && s[1..][j] == rest[i];
            assert s[j + 1] == rest[i];
          }
        }
      }
    }
  }

  /** The elements of `xs` ordered by descending key. */
  function SortDesc<T>(xs: seq<T>, key: T -> int): (r: seq<T>)
    ensures |r| == |xs|
    ensures multiset(r) == multiset(xs)
    ensures SortedDesc(r, key)
  {
    if |xs| == 0 then []
    else
      assert xs == [xs[0]] + xs[1..];
      var rest := SortDesc(xs[1..], key);
      InsertSorted(xs[0], rest, key);
      Insert(xs[0], rest, key)
  }

  /** Sorting loses and adds nothing: membership is kept both ways. */
  lemma SortKeepsMembers<T>(xs: seq<T>, key: T -> int, x: T)
    ensures x in SortDesc(xs, key) <==> x in xs
  {
    assert x in SortDesc(xs, key) <==> x in multiset(SortDesc(xs, key));
  }

  /** Whatever a sorted sequence holds beyond its first `n` elements has a key
      no larger than any of those first `n`. */
  lemma BeyondPrefixIsSmaller<T>(s: seq<T>, key: T -> int, n: nat, x: T)
    requires SortedDesc(s, key) && n <= |s|
    requires x in s && x !in s[..n]
    ensures forall i :: 0 <= i < n ==> key(x) <= key(s[i])
  {
    var k :| 0 <= k < |s| && s[k] == x;
    assert forall i :: 0 <= i < n ==> s[..n][i] == s[i];
    assert k >= n;
  }
}

=== FILE: sub_tasks.dfy ===
/** The five analysis sub-tasks of backend/services/aiService.js
    (`generateSummary`, `extractKeywords`, `detectTone`, `generateQuestions`,
    `simplifyText`). Each one asks the provider once and post-processes the
    reply; each catches its own failure and falls back on the local heuristic.
    The provider's answer is an input `Outcome`: the model starts where
    `queryModel` has returned or thrown. */
module SubTasks {
  import opened Wrappers
  import opened Text
  import opened ModelClient
  import opened Fallback

  // ---------------------------------------------------------------------------
  // summary

  /** `result[0]?.summary_text || getFallbackSummary(text)`; a thrown call also
      falls back. An empty summary text counts as missing. */
  function GenerateSummary(text: String, o: Outcome): (r: String)
    ensures r != ""
    ensures r != FallbackSummary(text) ==>
      o.Ok? && o.payload.summaryText == Some(r)
    ensures o.Ok? && o.payload.summaryText.Some? && o.payload.summaryText.value != "" ==>
      r == o.payload.summaryText.value
    ensures o.Fail? || o.payload.summaryText.None? || o.payload.summaryText.value == "" ==>
      r == FallbackSummary(text)
  {
    match o
    case Ok(p) =>
      if p.summaryText.Some? && p.summaryText.value != "" then p.summaryText.value
      else FallbackSummary(text)
    case Fail(_) => FallbackSummary(text)
  }

  // ---------------------------------------------------------------------------
  // keywords

  /** Characters `/[^a-zA-Z0-9\s]/g` leaves in place. */
  predicate KeptByScrub(c: char) {
    IsAlnum(c) || IsSpace(c)
  }

  /** Only letters, digits and white space. */
  predicate Scrubbed(s: String) {
    forall i :: 0 <= i < |s| ==> KeptByScrub(s[i])
  }

  /** `k.replace(/[^a-zA-Z0-9\s]/g, '')`: white space survives. */
  function Scrub(s: String): (r: String)
    ensures |r| <= |s|
    ensures Scrubbed(r)
  {
    if |s| == 0 then ""
    else (if KeptByScrub(s[0]) then [s[0]] else "") + Scrub(s[1..])
  }

  /** Scrubbing leaves a string of kept characters alone, so it is idempotent. */
  lemma {:induction false} ScrubKeeps(s: String)
    requires Scrubbed(s)
    ensures Scrub(s) == s
  {
    if |s| > 0 {
      ScrubKeeps(s[1..]);
    }
  }

  lemma ScrubIdempotent(s: String)
    ensures Scrub(Scrub(s)) == Scrub(s)
  {
    ScrubKeeps(Scrub(s));
  }

  /** One comma-separated piece after `trim` and the scrub, in that order. */
  function CleanPiece(p: String): String
  {
    Scrub(Trim(p))
  }

  /** The length filter `k.length > 2 && k.length < 25`. */
  predicate KeywordLength(k: String) {
    2 < |k| < 25
  }

  /** The pieces of `xs` that pass the length filter, in order, duplicates kept. */
  function LengthFiltered(xs: seq<String>): (r: seq<String>)
    requires forall j :: 0 <= j < |xs| ==> Scrubbed(xs[j])
    ensures |r| <= |xs|
    ensures forall i :: 0 <= i < |r| ==>
      KeywordLength(r[i]) && Scrubbed(r[i])
  {
    if |xs| == 0 then []
    else
      assert forall j :: 1 <= j < |xs| ==> xs[j] == xs[1..][j - 1];
      (if KeywordLength(xs[0]) then [xs[0]] else []) + LengthFiltered(xs[1..])
  }

  /** Every kept piece is one of the pieces. */
  lemma {:induction false} LengthFilteredSound(xs: seq<String>, x: String)
    requires forall j :: 0 <= j < |xs| ==> Scrubbed(xs[j])
    requires x in LengthFiltered(xs)
    ensures x in xs
  {
    if x != xs[0] {
      LengthFilteredSound(xs[1..], x);
    }
  }

  /** Every piece that passes the length filter is kept. */
  lemma {:induction false} LengthFilteredComplete(xs: seq<String>, j: nat)
    requires forall j :: 0 <= j < |xs| ==> Scrubbed(xs[j])
    requires j < |xs| && KeywordLength(xs[j])
    ensures xs[j] in LengthFiltered(xs)
  {
    if j > 0 {
      LengthFilteredComplete(xs[1..], j - 1);
      assert xs[1..][j - 1] == xs[j];
    }
  }

  /** Every piece after `trim` and the scrub. */
  function CleanPieces(ps: seq<String>): (r: seq<String>)
    ensures |r| == |ps|
    ensures forall j :: 0 <= j < |ps| ==> r[j] == CleanPiece(ps[j])
    ensures forall j :: 0 <= j < |r| ==> Scrubbed(r[j])
  {
    seq(|ps|, j requires 0 <= j < |ps| => CleanPiece(ps[j]))
  }

  /** The keyword cleaning of `extractKeywords`: split `generated_text` on
      commas, clean every piece, keep those of 3 to 24 characters, take seven.
      Every keyword has the right length and only letters, digits and white
      space. */
  function CleanKeywords(generated: String): (r: seq<String>)
    ensures |r| <= 7
    ensures forall i :: 0 <= i < |r| ==>
      KeywordLength(r[i]) && Scrubbed(r[i])
  {
    var all := LengthFiltered(CleanPieces(SplitOn(generated, ',')));
    FirstKeywordsClean(all, 7);
    Take(all, 7)
  }

  /** A prefix of clean keywords is clean. */
  lemma FirstKeywordsClean(ks: seq<String>, n: nat)
    requires forall i :: 0 <= i < |ks| ==> KeywordLength(ks[i]) && Scrubbed(ks[i])
    ensures forall i :: 0 <= i < |Take(ks, n)| ==>
      KeywordLength(Take(ks, n)[i]) && Scrubbed(Take(ks, n)[i])
  {
    var r := Take(ks, n);
    assert forall i :: 0 <= i < |r| ==> r[i] == ks[i];
  }

  /** Each keyword is the cleaned form of one of the comma-separated pieces;
      when fewer than seven come out, no piece whose cleaned form passes the
      length filter was lost. */
  lemma CleanKeywordsPieces(generated: String)
    ensures forall i :: 0 <= i < |CleanKeywords(generated)| ==>
      CleanKeywords(generated)[i] in CleanPieces(SplitOn(generated, ','))
    ensures |CleanKeywords(generated)| < 7 ==>
      forall j :: 0 <= j < |SplitOn(generated, ',')| && KeywordLength(CleanPiece(SplitOn(generated, ',')[j])) ==>
        CleanPiece(SplitOn(generated, ',')[j]) in CleanKeywords(generated)
  {
    var ps := SplitOn(generated, ',');
    var cs := CleanPieces(ps);
    var all := LengthFiltered(cs);
    var r := CleanKeywords(generated);
    assert r == Take(all, 7);
    forall i | 0 <= i < |r|
      ensures r[i] in cs
    {
      assert r[i] == all[i];
      LengthFilteredSound(cs, all[i]);
    }
    if |r| < 7 {
      assert r == all;
      forall j | 0 <= j < |ps| && KeywordLength(CleanPiece(ps[j]))
        ensures CleanPiece(ps[j]) in r
      {
        LengthFilteredComplete(cs, j);
      }
    }
  }

  /** Duplicates are not removed: a keyword given twice is listed twice. */
  lemma CleaningKeepsDuplicates(k: String)
    requires Trimmed(k) && Scrubbed(k) && KeywordLength(k) && ',' !in k
    ensures CleanKeywords(k + "," + k) == [k, k]
  {
    SplitOnFirst(k, ',', k);
    assert k + [','] + k == k + "," + k;
    SplitOnNone(k);
    CleanPieceOfClean(k);
    var cs := CleanPieces([k, k]);
    assert cs == [k, k];
    assert LengthFiltered(cs) == [k, k];
  }

  lemma SplitOnNone(k: String)
    requires ',' !in k
    ensures SplitOn(k, ',') == [k]
  {
  }

  /** A trimmed piece of letters, digits and white space comes out of cleaning unchanged. */
  lemma CleanPieceOfClean(w: String)
    requires Trimmed(w) && Scrubbed(w)
    ensures CleanPiece(w) == w
  {
    TrimOfTrimmed(w);
    ScrubKeeps(w);
  }

  /** Scrubbing works character by character, so it distributes over `+`. */
  lemma {:induction false} ScrubAppend(a: String, b: String)
    ensures Scrub(a + b) == Scrub(a) + Scrub(b)
  {
    if |a| == 0 {
      assert a + b == b;
    } else {
      var h := if KeptByScrub(a[0]) then [a[0]] else "";
      assert (a + b)[0] == a[0] && (a + b)[1..] == a[1..] + b;
      assert Scrub(a + b) == h + Scrub(a[1..] + b);
      ScrubAppend(a[1..], b);
      assert Scrub(a) == h + Scrub(a[1..]);
    }
  }

  /** Trimming comes before the scrub, so a piece can come out as nothing but
      white space and still pass the length filter: white space between two
      dropped marks becomes a keyword. */
  lemma CleaningCanKeepBlank(c: char, w: String)
    requires !KeptByScrub(c) && c != ',' && Blank(w) && KeywordLength(w)
    ensures CleanKeywords([c] + w + [c]) == [w]
  {
    var p := [c] + w + [c];
    forall k | 0 <= k < |p| ensures p[k] != ',' {
      if 0 < k < |p| - 1 { assert p[k] == w[k - 1]; }
    }
    SplitOnNone(p);
    assert Trimmed(p) by {
      assert p[0] == c && p[|p| - 1] == c;
    }
    TrimOfTrimmed(p);
    ScrubAppend([c] + w, [c]);
    ScrubAppend([c], w);
    assert Scrub([c]) == "";
    ScrubKeeps(w);
    assert CleanPiece(p) == w;
    var cs := CleanPieces([p]);
    assert cs == [w];
    assert LengthFiltered(cs) == [w];
  }

  /** `extractKeywords(text)`: the cleaned keywords of the reply, or the local
      keywords when the call failed or cleaning left nothing. */
  function ExtractKeywords(text: String, o: Outcome): (r: seq<String>)
    ensures 1 <= |r| <= 7
    ensures forall i :: 0 <= i < |r| ==> r[i] != ""
    ensures o.Fail? ==> r == FallbackKeywords(text)
    ensures o.Ok? && CleanKeywords(o.payload.generatedText.GetOr("")) != [] ==>
      r == CleanKeywords(o.payload.generatedText.GetOr(""))
    ensures o.Ok? && CleanKeywords(o.payload.generatedText.GetOr("")) == [] ==>
      r == FallbackKeywords(text)
  {
    match o
    case Ok(p) =>
      var k := CleanKeywords(p.generatedText.GetOr(""));
      if |k| > 0 then k else FallbackKeywords(text)
    case Fail(_) => FallbackKeywords(text)
  }

  // ---------------------------------------------------------------------------
  // tone

  /** The index `result[0].reduce((prev, cur) => prev.score > cur.score ? prev : cur)`
      lands on: a maximal score, and the last one among equal maxima, since the
      comparison is strict. */
  function Top(s: seq<Score>): (k: nat)
    requires |s| > 0
    ensures k < |s|
    ensures forall j :: 0 <= j < |s| ==> s[j].score <= s[k].score
    ensures forall j :: k < j < |s| ==> s[j].score < s[k].score
  {
    if |s| == 1 then 0
    else
      var n := |s| - 1;
      var k := Top(s[..n]);
      assert forall j :: 0 <= j < n ==> s[..n][j] == s[j];
      if s[k].score > s[n].score then k else n
  }

  /** `toneMap[label] || 'academic'`. */
  function LabelTone(labelName: Option<String>): (t: Tone)
    ensures t == Casual <==> labelName == Some("positive")
    ensures t == Formal <==> labelName == Some("negative")
    ensures t != Technical
  {
    match labelName
    case Some(l) =>
      if l == "positive" then Casual
      else if l == "negative" then Formal
      else Academic
    case None => Academic
  }

  /** `detectTone(text)`. Without a label list in the reply the tone is
      academic; an empty label list makes `reduce` throw, which falls back on
      the local rule like a failed call does. */
  function DetectTone(text: String, o: Outcome): (t: Tone)
    ensures t != Technical
    ensures o.Fail? ==> t == ToneFallback(text)
  {
    match o
    case Fail(_) => ToneFallback(text)
    case Ok(p) =>
      match p.scores
      case None => Academic
      case Some(s) =>
        if |s| == 0 then ToneFallback(text) else LabelTone(s[Top(s)].labelName)
  }

  /** A label whose score beats every other entry decides the tone. */
  lemma StrictWinnerDecides(text: String, p: Payload, w: nat)
    requires p.scores.Some? && w < |p.scores.value|
    requires forall j :: 0 <= j < |p.scores.value| && j != w ==>
      p.scores.value[j].score < p.scores.value[w].score
    ensures DetectTone(text, Ok(p)) == LabelTone(p.scores.value[w].labelName)
  {
    var s := p.scores.value;
    var k := Top(s);
    assert s[w].score <= s[k].score;
  }

  /** Equal scores go to the later entry. */
  lemma TieGoesToLater(text: String, a: Score, b: Score)
    requires a.score == b.score
    ensures DetectTone(text, Ok(Payload(None, None, Some([a, b])))) == LabelTone(b.labelName)
  {
    var k := Top([a, b]);
    assert [a, b][1].score == [a, b][0].score;
  }

  /** A reply without any label list is read as academic, however the text reads. */
  lemma MissingScoresIsAcademic(text: String, p: Payload)
    requires p.scores.None?
    ensures DetectTone(text, Ok(p)) == Academic
  {
  }

  // ---------------------------------------------------------------------------
  // questions

  /** The number of leading ASCII digits. */
  function DigitRun(t: String): (k: nat)
    ensures k <= |t|
    ensures forall i :: 0 <= i < k ==> IsDigit(t[i])
    ensures k < |t| ==> !IsDigit(t[k])
  {
    if |t| > 0 && IsDigit(t[0]) then 1 + DigitRun(t[1..]) else 0
  }

  /** `/^\d+\./`: one or more digits and a period. */
  predicate Numbered(t: String) {
    0 < DigitRun(t) < |t| && t[DigitRun(t)] == '.'
  }

  predicate Dashed(t: String) {
    |t| > 0 && t[0] == '-'
  }

  predicate Labelled(t: String) {
    |t| >= 2 && t[0] == 'Q' && t[1] == ':'
  }

  /** `line.trim().match(/^\d+\.|^-|^Q:/)`, applied to a trimmed line. */
  predicate HasMarker(t: String) {
    Numbered(t) || Dashed(t) || Labelled(t)
  }

  // `q.replace(/^\d+\.\s*|^-\s*|^Q:\s*/, '')` on the line as it stands,
  // untrimmed: the markers are anchored at its first character.
  function StripMarker(q: String): (r: String)
    ensures |r| <= |q|
    ensures !HasMarker(q) ==> r == q
  {
    if Numbered(q) then TrimStart(q[DigitRun(q) + 1..])
    else if Dashed(q) then TrimStart(q[1..])
    else if Labelled(q) then TrimStart(q[2..])
    else q
  }

  /** What one line of the reply contributes: a marked line whose remainder
      is longer than ten code units and holds no '?' becomes that remainder
      with '?' appended. */
  function QuestionOf(line: String): (r: Option<String>)
    ensures r.Some? ==> QuestionShaped(r.value)
  {
    if HasMarker(Trim(line)) then
      var q := Trim(StripMarker(line));
      if Utf16Length(q) > 10 && '?' !in q then
        var r := q + "?";
        assert r[..|r| - 1] == q;
        Utf16LengthAppend(q, "?");
        Some(r)
      else None
    else None
  }

  /** The questions present, in order. */
  function Asked(xs: seq<Option<String>>): (r: seq<String>)
    requires forall j :: 0 <= j < |xs| && xs[j].Some? ==> QuestionShaped(xs[j].value)
    ensures |r| <= |xs|
    ensures forall i :: 0 <= i < |r| ==> QuestionShaped(r[i])
  {
    if |xs| == 0 then []
    else
      assert forall j :: 1 <= j < |xs| ==> xs[j] == xs[1..][j - 1];
      (if xs[0].Some? then [xs[0].value] else []) + Asked(xs[1..])
  }

  /** Every listed question is present. */
  lemma {:induction false} AskedSound(xs: seq<Option<String>>, x: String)
    requires forall j :: 0 <= j < |xs| && xs[j].Some? ==> QuestionShaped(xs[j].value)
    requires x in Asked(xs)
    ensures Some(x) in xs
  {
    if xs[0] != Some(x) {
      AskedSound(xs[1..], x);
    }
  }

  /** Every present question is listed. */
  lemma {:induction false} AskedComplete(xs: seq<Option<String>>, j: nat)
    requires forall j :: 0 <= j < |xs| && xs[j].Some? ==> QuestionShaped(xs[j].value)
    requires j < |xs| && xs[j].Some?
    ensures xs[j].value in Asked(xs)
  {
    if j > 0 {
      AskedComplete(xs[1..], j - 1);
      assert xs[1..][j - 1] == xs[j];
    }
  }

  /** What every line contributes. */
  function LineQuestions(lines: seq<String>): (r: seq<Option<String>>)
    ensures |r| == |lines|
    ensures forall j :: 0 <= j < |lines| ==> r[j] == QuestionOf(lines[j])
  {
    seq(|lines|, j requires 0 <= j < |lines| => QuestionOf(lines[j]))
  }

  /** The question parsing of `generateQuestions`: at most three questions,
      each with a single '?' at its end. */
  function ParseQuestions(generated: String): (r: seq<String>)
    ensures |r| <= 3
    ensures forall i :: 0 <= i < |r| ==> QuestionShaped(r[i])
  {
    var all := Asked(LineQuestions(SplitOn(generated, '\n')));
    FirstQuestionsShaped(all, 3);
    Take(all, 3)
  }

  /** A prefix of well-formed questions is well formed. */
  lemma FirstQuestionsShaped(qs: seq<String>, n: nat)
    requires forall i :: 0 <= i < |qs| ==> QuestionShaped(qs[i])
    ensures forall i :: 0 <= i < |Take(qs, n)| ==> QuestionShaped(Take(qs, n)[i])
  {
    var r := Take(qs, n);
    assert forall i :: 0 <= i < |r| ==> r[i] == qs[i];
  }

  /** Each question is contributed by some line of the reply; when fewer than
      three come out, no line's question was lost. */
  lemma ParseQuestionsLines(generated: String)
    ensures forall i :: 0 <= i < |ParseQuestions(generated)| ==>
      Some(ParseQuestions(generated)[i]) in LineQuestions(SplitOn(generated, '\n'))
    ensures |ParseQuestions(generated)| < 3 ==>
      forall j :: 0 <= j < |SplitOn(generated, '\n')| && QuestionOf(SplitOn(generated, '\n')[j]).Some? ==>
        QuestionOf(SplitOn(generated, '\n')[j]).value in ParseQuestions(generated)
  {
    var lines := SplitOn(generated, '\n');
    var qs := LineQuestions(lines);
    var all := Asked(qs);
    var r := ParseQuestions(generated);
    assert r == Take(all, 3);
    forall i | 0 <= i < |r|
      ensures Some(r[i]) in qs
    {
      assert r[i] == all[i];
      AskedSound(qs, all[i]);
    }
    if |r| < 3 {
      assert r == all;
      forall j | 0 <= j < |lines| && QuestionOf(lines[j]).Some?
        ensures QuestionOf(lines[j]).value in r
      {
        AskedComplete(qs, j);
      }
    }
  }

  /** A marked line that already asks a question is dropped, not kept. */
  lemma AskedQuestionIsDropped(q: String)
    requires Trimmed(q) && q != "" && '?' in q
    ensures QuestionOf(['-', ' '] + q) == None
  {
    DashedLine(q);
    TrimOfTrimmed(q);
  }

  /** A line "- q" is marked, and its marker and the space after it are stripped. */
  lemma DashedLine(q: String)
    requires Trimmed(q) && q != ""
    ensures HasMarker(Trim(['-', ' '] + q)) && StripMarker(['-', ' '] + q) == q
  {
    var line := ['-', ' '] + q;
    DashedLineTrimmed(line, q);
    TrimOfTrimmed(line);
    DashedLineStrips(line, q);
  }

  lemma DashedLineTrimmed(line: String, q: String)
    requires Trimmed(q) && q != "" && line == ['-', ' '] + q
    ensures Trimmed(line) && HasMarker(line)
  {
    assert line[0] == '-' && line[|line| - 1] == q[|q| - 1];
  }

  lemma DashedLineStrips(line: String, q: String)
    requires Trimmed(q) && q != "" && line == ['-', ' '] + q
    ensures StripMarker(line) == q
  {
    assert line[0] == '-';
    StripDashed(line);
    assert line[1..] == [' '] + q;
    BlankSpace();
    TrimBlankPrefix([' '], q);
  }

  lemma BlankSpace()
    ensures Blank([' '])
  {
  }

  /** A dashed line loses its dash and the white space after it. */
  lemma StripDashed(t: String)
    requires Dashed(t)
    ensures StripMarker(t) == TrimStart(t[1..])
  {
    assert !IsDigit(t[0]);
  }

  /** The marker test sees the trimmed line but the stripping sees the raw
      one, so the marker of an indented line stays in the question. */
  lemma IndentedMarkerIsKept(w: String, t: String)
    requires w != "" && Blank(w) && Trimmed(t) && Dashed(t) && Utf16Length(t) > 10 && '?' !in t
    ensures QuestionOf(w + t) == Some(t + "?")
  {
    var line := w + t;
    TrimBlankPrefix(w, t);
    assert line[0] == w[0] && IsSpace(w[0]);
    assert DigitRun(line) == 0;
    assert StripMarker(line) == line;
  }

  /** `generateQuestions(text)`: the parsed questions, or the three fixed ones
      when the call failed or nothing could be parsed. */
  function GenerateQuestions(o: Outcome): (r: seq<String>)
    ensures 1 <= |r| <= 3
    ensures forall i :: 0 <= i < |r| ==> QuestionShaped(r[i])
    ensures o.Fail? ==> r == FallbackQuestions
    ensures o.Ok? && ParseQuestions(o.payload.generatedText.GetOr("")) != [] ==>
      r == ParseQuestions(o.payload.generatedText.GetOr(""))
    ensures o.Ok? && ParseQuestions(o.payload.generatedText.GetOr("")) == [] ==>
      r == FallbackQuestions
  {
    FallbackQuestionsShaped();
    match o
    case Ok(p) =>
      var q := ParseQuestions(p.generatedText.GetOr(""));
      if |q| > 0 then q else FallbackQuestions
    case Fail(_) => FallbackQuestions
  }

  // ---------------------------------------------------------------------------
  // simplification

  /** `result.generated_text || getFallbackSimplified(text)`. */
  function SimplifyText(text: String, o: Outcome): (r: String)
    ensures r != FallbackSimplified(text) ==>
      o.Ok? && o.payload.generatedText == Some(r) && r != ""
    ensures o.Ok? && o.payload.generatedText.Some? && o.payload.generatedText.value != "" ==>
      r == o.payload.generatedText.value
    ensures o.Fail? || o.payload.generatedText.None? || o.payload.generatedText.value == "" ==>
      r == FallbackSimplified(text)
  {
    match o
    case Ok(p) =>
      if p.generatedText.Some? && p.generatedText.value != "" then p.generatedText.value
      else FallbackSimplified(text)
    case Fail(_) => FallbackSimplified(text)
  }
}

=== FILE: text.dfy ===
/** String primitives the JavaScript code relies on: the `\s` class and `trim`,
    `split` on one character and on runs of a character class, `join`, `slice`,
    ASCII case folding and substring search. Strings are sequences of Unicode
    characters; `Utf16Length` gives the length JavaScript reports for them. */
module Text {

  type String = seq<char>

  /** The characters JavaScript's `\s` matches and `String.prototype.trim` removes. */
  const Whitespace: set<char> := {
    '\t', '\n', '\U{000B}', '\U{000C}', '\r', ' ', '\U{00A0}', '\U{1680}',
    '\U{2000}', '\U{2001}', '\U{2002}', '\U{2003}', '\U{2004}', '\U{2005}',
    '\U{2006}', '\U{2007}', '\U{2008}', '\U{2009}', '\U{200A}',
    '\U{2028}', '\U{2029}', '\U{202F}', '\U{205F}', '\U{3000}', '\U{FEFF}'
  }

  /** Membership in `Whitespace`, written as ranges. */
  predicate IsSpace(c: char) {
    '\t' <= c <= '\r' || c == ' ' || c == '\U{00A0}' || c == '\U{1680}'
    || '\U{2000}' <= c <= '\U{200A}' || c == '\U{2028}' || c == '\U{2029}'
    || c == '\U{202F}' || c == '\U{205F}' || c == '\U{3000}' || c == '\U{FEFF}'
  }

  lemma SpaceRanges(c: char)
    ensures IsSpace(c) <==> c in Whitespace
  {
  }

  /** Every character is white space (the empty string included). */
  predicate Blank(s: String) {
    forall i :: 0 <= i < |s| ==> IsSpace(s[i])
  }

  /** Neither end of `s` is white space: `trim` leaves it alone. */
  predicate Trimmed(s: String) {
    |s| == 0 || (!IsSpace(s[0]) && !IsSpace(s[|s| - 1]))
  }

  predicate IsDigit(c: char) {
    '0' <= c <= '9'
  }

  predicate IsUpper(c: char) {
    'A' <= c <= 'Z'
  }

  predicate IsLower(c: char) {
    'a' <= c <= 'z'
  }

  /** JavaScript's `[a-zA-Z0-9]`. */
  predicate IsAlnum(c: char) {
    IsDigit(c) || IsUpper(c) || IsLower(c)
  }

  /** No character of `s` belongs to `d`. */
  predicate NoneIn(s: String, d: set<char>) {
    forall i :: 0 <= i < |s| ==> s[i] !in d
  }

  /** `t` occurs in `s` as a contiguous substring (JavaScript's `s.includes(t)`). */
  predicate Contains(s: String, t: String) {
    exists k :: 0 <= k <= |s| && OccursAt(s, t, k)
  }

  /** `t` occurs in `s` starting at index `k`. */
  predicate OccursAt(s: String, t: String, k: nat) {
    k + |t| <= |s| && s[k..k + |t|] == t
  }

  // ---------------------------------------------------------------------------
  // length

  /** The UTF-16 code units of one character: two outside the Basic
      Multilingual Plane. */
  function Units(c: char): nat {
    if c as int >= 0x1_0000 then 2 else 1
  }

  /** JavaScript's `s.length`, which counts UTF-16 code units. */
  function Utf16Length(s: String): (n: nat)
    ensures |s| <= n <= 2 * |s|
  {
    if |s| == 0 then 0 else Units(s[0]) + Utf16Length(s[1..])
  }

  /** Every character lies in the Basic Multilingual Plane. */
  predicate InBmp(s: String) {
    forall i :: 0 <= i < |s| ==> s[i] as int < 0x1_0000
  }

  /** For text within the Basic Multilingual Plane the JavaScript length is
      the number of characters, and only for such text. */
  lemma {:induction false} Utf16LengthIsSize(s: String)
    ensures Utf16Length(s) == |s| <==> InBmp(s)
  {
    if |s| > 0 {
      Utf16LengthIsSize(s[1..]);
      assert forall i :: 1 <= i < |s| ==> s[i] == s[1..][i - 1];
    }
  }

  lemma {:induction false} Utf16LengthAppend(a: String, b: String)
    ensures Utf16Length(a + b) == Utf16Length(a) + Utf16Length(b)
  {
    if |a| == 0 {
      assert a + b == b;
    } else {
      assert (a + b)[0] == a[0] && (a + b)[1..] == a[1..] + b;
      Utf16LengthAppend(a[1..], b);
    }
  }

  /** A slice never has more code units than the whole. */
  lemma Utf16LengthSlice(s: String, i: nat, j: nat)
    requires i <= j <= |s|
    ensures Utf16Length(s[i..j]) <= Utf16Length(s)
  {
    assert s == s[..i] + s[i..j] + s[j..];
    Utf16LengthAppend(s[..i] + s[i..j], s[j..]);
    Utf16LengthAppend(s[..i], s[i..j]);
  }

  /** Text made only of characters outside the Basic Multilingual Plane has
      twice as many code units as characters. */
  lemma {:induction false} Utf16LengthAstral(s: String)
    requires forall i :: 0 <= i < |s| ==> s[i] as int >= 0x1_0000
    ensures Utf16Length(s) == 2 * |s|
  {
    if |s| > 0 {
      assert forall i :: 0 <= i < |s[1..]| ==> s[1..][i] == s[i + 1];
      Utf16LengthAstral(s[1..]);
    }
  }

  // ---------------------------------------------------------------------------
  // trim

  /** The index of the first non-white-space character at or after `i`
      (`|s|` when there is none). */
  function Lead(s: String, i: nat): (k: nat)
    requires i <= |s|
    ensures i <= k <= |s|
    ensures forall m :: i <= m < k ==> IsSpace(s[m])
    ensures k < |s| ==> !IsSpace(s[k])
    decreases |s| - i
  {
    if i < |s| && IsSpace(s[i]) then Lead(s, i + 1) else i
  }

  /** The end of `s[lo..j]` once its trailing white space is cut off. */
  function Tail(s: String, lo: nat, j: nat): (e: nat)
    requires lo <= j <= |s|
    ensures lo <= e <= j
    ensures forall m :: e <= m < j ==> IsSpace(s[m])
    ensures e > lo ==> !IsSpace(s[e - 1])
    decreases j
  {
    if j > lo && IsSpace(s[j - 1]) then Tail(s, lo, j - 1) else j
  }

  /** JavaScript's `s.trimStart()`: `s` without its leading white space. */
  function TrimStart(s: String): (r: String)
    ensures |r| <= |s| && r == s[|s| - |r|..]
    ensures forall i :: 0 <= i < |s| - |r| ==> IsSpace(s[i])
    ensures |r| > 0 ==> !IsSpace(r[0])
  {
    s[Lead(s, 0)..]
  }

  /** JavaScript's `s.trim()`: the piece of `s` between its leading and its
      trailing white space. It has no white space at either end and is empty
      exactly when `s` is blank. */
  function Trim(s: String): (r: String)
    ensures Trimmed(r)
    ensures r == "" <==> Blank(s)
  {
    var k := Lead(s, 0);
    var e := Tail(s, k, |s|);
    s[k..e]
  }

  /** Which piece of `s` its trimmed form is: everything before it and
      everything after it is white space. */
  lemma TrimIsSlice(s: String)
    ensures var k := Lead(s, 0); var e := Tail(s, k, |s|);
      Trim(s) == s[k..e] && Blank(s[..k]) && Blank(s[e..])
  {
    var k := Lead(s, 0);
    var e := Tail(s, k, |s|);
    forall m | 0 <= m < k ensures IsSpace(s[..k][m]) {
      assert s[..k][m] == s[m];
    }
    forall m | 0 <= m < |s| - e ensures IsSpace(s[e..][m]) {
      assert s[e..][m] == s[e + m];
    }
  }

  /** A character absent from `s` is absent from its trimmed form. */
  lemma TrimNoneIn(s: String, d: set<char>)
    requires NoneIn(s, d)
    ensures NoneIn(Trim(s), d)
  {
    var k := Lead(s, 0);
    var r := Trim(s);
    forall i | 0 <= i < |r| ensures r[i] !in d {
      assert r[i] == s[k + i];
    }
  }

  /** Trimming a string that is already trimmed changes nothing. */
  lemma TrimOfTrimmed(s: String)
    requires Trimmed(s)
    ensures TrimStart(s) == s && Trim(s) == s
  {
    assert Lead(s, 0) == 0;
    assert Tail(s, 0, |s|) == |s|;
  }

  /** Leading white space is skipped over one character at a time. */
  lemma {:induction false} LeadSkips(s: String, i: nat, j: nat)
    requires i <= j <= |s|
    requires forall m :: i <= m < j ==> IsSpace(s[m])
    ensures Lead(s, i) == Lead(s, j)
    decreases j - i
  {
    if i < j {
      LeadSkips(s, i + 1, j);
    }
  }

  lemma TrimIdempotent(s: String)
    ensures Trim(Trim(s)) == Trim(s)
  {
    TrimOfTrimmed(Trim(s));
  }

  /** White space put in front of a non-empty trimmed string is trimmed away again. */
  lemma TrimBlankPrefix(w: String, t: String)
    requires Blank(w) && Trimmed(t) && t != ""
    ensures TrimStart(w + t) == t && Trim(w + t) == t
  {
    var s := w + t;
    forall m | 0 <= m < |w| ensures IsSpace(s[m]) {
      assert s[m] == w[m];
    }
    LeadSkips(s, 0, |w|);
    assert s[|w|] == t[0];
    assert Lead(s, |w|) == |w|;
    assert s[|s| - 1] == t[|t| - 1];
    assert Tail(s, |w|, |s|) == |s|;
    assert s[|w|..] == t;
  }

  // ---------------------------------------------------------------------------
  // join, slice

  /** JavaScript's `parts.join(d)`. */
  function Join(parts: seq<String>, d: String): String
  {
    if |parts| == 0 then ""
    else if |parts| == 1 then parts[0]
    else parts[0] + d + Join(parts[1..], d)
  }

  /** JavaScript's `xs.slice(0, n)`. */
  function Take<T>(xs: seq<T>, n: nat): (r: seq<T>)
    ensures |r| <= n && |r| <= |xs|
    ensures |xs| <= n ==> r == xs
    ensures r == xs[..|r|]
  {
    if |xs| <= n then xs else xs[..n]
  }

  /** The concatenation of all parts. */
  function Concat(parts: seq<String>): String
  {
    if |parts| == 0 then "" else parts[0] + Concat(parts[1..])
  }

  /** A join starts with its first piece. */
  lemma JoinStartsWithFirst(parts: seq<String>, d: String)
    requires |parts| >= 1
    ensures |Join(parts, d)| >= |parts[0]|
    ensures Join(parts, d)[..|parts[0]|] == parts[0]
  {
  }

  /** A character kept out of every piece and out of the delimiter is not in the join. */
  lemma {:induction false} JoinNoneIn(parts: seq<String>, d: String, x: set<char>)
    requires forall i :: 0 <= i < |parts| ==> NoneIn(parts[i], x)
    requires NoneIn(d, x)
    ensures NoneIn(Join(parts, d), x)
  {
    if |parts| > 1 {
      JoinNoneIn(parts[1..], d, x);
      var j := Join(parts[1..], d);
      assert Join(parts, d) == parts[0] + d + j;
      forall i | 0 <= i < |parts[0] + d + j|
        ensures (parts[0] + d + j)[i] !in x
      {
        if i < |parts[0]| {
        } else if i < |parts[0]| + |d| {
          assert (parts[0] + d + j)[i] == d[i - |parts[0]|];
        } else {
          assert (parts[0] + d + j)[i] == j[i - |parts[0]| - |d|];
        }
      }
    }
  }

  lemma BlankAppend(a: String, b: String)
    ensures Blank(a + b) <==> Blank(a) && Blank(b)
  {
    if Blank(a) && Blank(b) {
      forall i | 0 <= i < |a + b|
        ensures IsSpace((a + b)[i])
      {
        if i >= |a| {
          assert (a + b)[i] == b[i - |a|];
        }
      }
    }
    if Blank(a + b) {
      forall i | 0 <= i < |b|
        ensures IsSpace(b[i])
      {
        assert (a + b)[|a| + i] == b[i];
      }
      forall i | 0 <= i < |a|
        ensures IsSpace(a[i])
      {
        assert (a + b)[i] == a[i];
      }
    }
  }

  /** The concatenation is blank exactly when every piece is. */
  lemma {:induction false} ConcatBlank(parts: seq<String>)
    ensures Blank(Concat(parts)) <==> forall i :: 0 <= i < |parts| ==> Blank(parts[i])
  {
    if |parts| > 0 {
      ConcatBlank(parts[1..]);
      var a, b := parts[0], Concat(parts[1..]);
      BlankAppend(a, b);
      forall i | 0 <= i < |parts[1..]|
        ensures parts[1..][i] == parts[i + 1]
      {
      }
    }
  }

  /** Deleting the characters of `d` leaves a blank string exactly when every
      character of `s` is in `d` or is white space. */
  lemma {:induction false} RemoveBlank(s: String, d: set<char>)
    ensures Blank(Remove(s, d)) <==> forall i :: 0 <= i < |s| ==> s[i] in d || IsSpace(s[i])
  {
    if |s| > 0 {
      RemoveBlank(s[1..], d);
      var a := if s[0] in d then "" else [s[0]];
      var b := Remove(s[1..], d);
      assert Remove(s, d) == a + b;
      BlankAppend(a, b);
      assert Blank(a) <==> s[0] in d || IsSpace(s[0]);
      assert forall i :: 1 <= i < |s| ==> s[i] == s[1..][i - 1];
    }
  }

  // ---------------------------------------------------------------------------
  // split on one character

  function IndexOf(s: String, c: char): (i: nat)
    requires c in s
    ensures i < |s| && s[i] == c && c !in s[..i]
  {
    if s[0] == c then 0 else 1 + IndexOf(s[1..], c)
  }

  /** JavaScript's `s.split(sep)` for a one-character separator: the pieces hold
      no separator, there is always at least one, and joining them back with the
      separator gives `s` again. */
  function SplitOn(s: String, sep: char): (parts: seq<String>)
    ensures |parts| >= 1
    ensures forall i :: 0 <= i < |parts| ==> sep !in parts[i]
    ensures Join(parts, [sep]) == s
    decreases |s|
  {
    if sep !in s then [s]
    else
      var i := IndexOf(s, sep);
      var rest := SplitOn(s[i + 1..], sep);
      assert ([s[..i]] + rest)[1..] == rest;
      assert s == s[..i] + [sep] + s[i + 1..];
      [s[..i]] + rest
  }

  /** Splitting at the first separator. */
  lemma SplitOnFirst(a: String, sep: char, b: String)
    requires sep !in a
    ensures SplitOn(a + [sep] + b, sep) == [a] + SplitOn(b, sep)
  {
    var s := a + [sep] + b;
    var i := IndexOf(s, sep);
    assert s[|a|] == sep;
    assert forall k :: 0 <= k < |a| ==> s[k] == a[k];
    assert i == |a| by {
      assert i <= |a| by {
        assert s[..i] == s[..i];
      }
    }
    assert s[..i] == a;
    assert s[i + 1..] == b;
  }

  /** Splitting undoes joining when no piece holds the separator. */
  lemma {:induction false} SplitOnJoin(parts: seq<String>, sep: char)
    requires |parts| >= 1
    requires forall i :: 0 <= i < |parts| ==> sep !in parts[i]
    ensures SplitOn(Join(parts, [sep]), sep) == parts
  {
    if |parts| > 1 {
      SplitOnJoin(parts[1..], sep);
      SplitOnFirst(parts[0], sep, Join(parts[1..], [sep]));
      assert parts == [parts[0]] + parts[1..];
    }
  }

  // ---------------------------------------------------------------------------
  // split on runs of a character class

  /** `s` with every character of `d` deleted. */
  function Remove(s: String, d: set<char>): String
  {
    if |s| == 0 then "" else (if s[0] in d then "" else [s[0]]) + Remove(s[1..], d)
  }

  lemma {:induction false} RemoveAppend(a: String, b: String, d: set<char>)
    ensures Remove(a + b, d) == Remove(a, d) + Remove(b, d)
  {
    if |a| == 0 {
      assert a + b == b;
    } else {
      var h := if a[0] in d then "" else [a[0]];
      assert (a + b)[0] == a[0] && (a + b)[1..] == a[1..] + b;
      assert Remove(a + b, d) == h + Remove(a[1..] + b, d);
      RemoveAppend(a[1..], b, d);
      assert Remove(a, d) == h + Remove(a[1..], d);
    }
  }

  lemma {:induction false} RemoveNone(s: String, d: set<char>)
    requires NoneIn(s, d)
    ensures Remove(s, d) == s
  {
    if |s| > 0 {
      RemoveNone(s[1..], d);
    }
  }

  lemma {:induction false} RemoveAll(s: String, d: set<char>)
    requires forall i :: 0 <= i < |s| ==> s[i] in d
    ensures Remove(s, d) == ""
  {
    if |s| > 0 {
      RemoveAll(s[1..], d);
    }
  }

  /** The first index of a character of `d`. */
  function FirstIn(s: String, d: set<char>): (i: nat)
    requires !NoneIn(s, d)
    ensures i < |s| && s[i] in d && NoneIn(s[..i], d)
  {
    if s[0] in d then 0 else 1 + FirstIn(s[1..], d)
  }

  /** The first character of `d` is the one with none of `d` before it. */
  lemma FirstInIs(s: String, d: set<char>, k: nat)
    requires k < |s| && s[k] in d && NoneIn(s[..k], d)
    ensures FirstIn(s, d) == k
  {
    var i := FirstIn(s, d);
    assert forall j :: 0 <= j < k ==> s[..k][j] == s[j];
    assert forall j :: 0 <= j < i ==> s[..i][j] == s[j];
  }

  /** The end of the run of characters of `d` that starts at `i`. */
  function RunEnd(s: String, d: set<char>, i: nat): (j: nat)
    requires i <= |s|
    ensures i <= j <= |s|
    ensures forall k :: i <= k < j ==> s[k] in d
    ensures j < |s| ==> s[j] !in d
    decreases |s| - i
  {
    if i < |s| && s[i] in d then RunEnd(s, d, i + 1) else i
  }

  /** JavaScript's `s.split(/[d]+/)`: the pieces between maximal runs of
      characters of `d`, empty pieces included. There is at least one piece and
      at most one more than there are characters, no piece holds a character of
      `d`, and the pieces together are `s` with those characters deleted. */
  function SplitRuns(s: String, d: set<char>): (parts: seq<String>)
    ensures 1 <= |parts| <= |s| + 1
    ensures forall i :: 0 <= i < |parts| ==> NoneIn(parts[i], d)
    ensures Concat(parts) == Remove(s, d)
    decreases |s|
  {
    if NoneIn(s, d) then
      RemoveNone(s, d);
      [s]
    else
      var i := FirstIn(s, d);
      var j := RunEnd(s, d, i);
      var rest := SplitRuns(s[j..], d);
      SplitRunsStep(s, d, i, j, rest);
      [s[..i]] + rest
  }

  /** One step of `SplitRuns`: a piece without characters of `d`, a run of
      them, and the pieces of what follows. */
  lemma SplitRunsStep(s: String, d: set<char>, i: nat, j: nat, rest: seq<String>)
    requires i < j <= |s| && NoneIn(s[..i], d)
    requires forall k :: i <= k < j ==> s[k] in d
    requires Concat(rest) == Remove(s[j..], d)
    ensures Concat([s[..i]] + rest) == Remove(s, d)
  {
    var x, y, z := s[..i], s[i..j], s[j..];
    assert s == (x + y) + z;
    RemoveAppend(x + y, z, d);
    RemoveAppend(x, y, d);
    RemoveNone(x, d);
    RemoveAll(y, d);
    ConcatCons(x, rest);
  }

  lemma ConcatCons(x: String, rest: seq<String>)
    ensures Concat([x] + rest) == x + Concat(rest)
  {
    assert ([x] + rest)[0] == x;
    assert ([x] + rest)[1..] == rest;
  }

  /** A string without any character of `d` splits into itself alone. */
  lemma SplitRunsNone(s: String, d: set<char>)
    requires NoneIn(s, d)
    ensures SplitRuns(s, d) == [s]
  {
  }

  /** A single separator after a piece without separators ends that piece;
      splitting goes on with what follows. */
  lemma SplitRunsAfterMark(a: String, m: char, b: String, d: set<char>)
    requires NoneIn(a, d) && m in d && (|b| == 0 || b[0] !in d)
    ensures SplitRuns(a + [m] + b, d) == [a] + SplitRuns(b, d)
  {
    var s := a + [m] + b;
    assert s[|a|] == m;
    assert s[..|a|] == a;
    FirstInIs(s, d, |a|);
    if |b| > 0 {
      assert s[|a| + 1] == b[0];
    }
    assert RunEnd(s, d, |a| + 1) == |a| + 1;
    assert s[..|a|] == a && s[|a| + 1..] == b;
  }

  // ---------------------------------------------------------------------------
  // case folding

  /** ASCII lower-casing of one character. */
  function LowerChar(c: char): char
  {
    if IsUpper(c) then (c as int + 32) as char else c
  }

  /** `s.toLowerCase()` restricted to ASCII letters. */
  function Lower(s: String): (r: String)
    ensures |r| == |s|
    ensures forall i :: 0 <= i < |s| ==> r[i] == LowerChar(s[i])
  {
    seq(|s|, i requires 0 <= i < |s| => LowerChar(s[i]))
  }
}

=== FILE: wrappers.dfy ===
/** The optional value used wherever the JavaScript code tests a field for
    `undefined`/`null`. */
module Wrappers {

  datatype Option<+T> = None | Some(value: T) {

    /** The held value, or `default` when there is none (JavaScript's `x ?? d`). */
    function GetOr(default: T): T {
      match this
      case Some(v) => v
      case None => default
    }
  }
}
